=== FILE: README.md ===
# apt2ostree: the naming and bookkeeping core, in Dafny

apt2ostree turns a list of Debian packages into an OSTree image. It does this by writing a
ninja build file: every package download, unpack, metadata merge and commit becomes a build
edge whose output is an OSTree branch. This project models the pure logic underneath that
generator.

- **The build-file writer** (`apt2ostree/ninja.py`), module `Ninja`.
  - The `Ninja` object is a state record (`Ninja.Writer`): set-once global variables, a
    first-wins rule registry, the target set, the generator-dependency set, the list of edges
    written, and a closed flag. Each method is a transition that returns the new writer and a
    `Result`.
  - `Rule` is a datatype whose variable contract (`Rule.Contract`) is computed the way
    `vars_in` computes it (module `Vars`). `Rule.build` is `Ninja.RuleBuild`: registration,
    argument validation, and edge assembly.
- **OSTree ref handles** (`apt2ostree/ostree.py`), module `Ostree`.
  - `OstreeRef.ref` and `.repo` split a path at `/refs/heads/`.
  - The command and output templates of the `ostree` and `ostree_combine` rules are written
    out. Their contracts are proved.
- **Package naming and parsing** (`apt2ostree/apt.py`), modules `Packages`, `Apt` and
  `Images`.
  - `parse_packages`, the reader of apt Packages files (the subset of section 5.1 of the
    Debian Policy Manual that the program relies on).
  - `ubuntu_apt_sources` and `keyrings_for`.
  - The aptly pool path and the ref base of each package, and the pylint quirk.
  - The branch names `image_from_lockfile`, `second_stage` and `build_image` produce, and the
    architecture allow-list.
  - Mirror naming and package sorting in `generate_lockfile`.
  - `Apt.__init__` and `write_phony_rules`.

Python's semantics are written out where the program relies on them:
- slices clip at the end of the string (`Images.Take`, `Images.Drop`);
- `str.replace` replaces every occurrence, left to right (`Strings.Replace`);
- `str.split` and `str.strip` are `Strings.Split` and `Strings.Strip`;
- `<` on strings is lexicographic (`Ordering.Less`);
- `'w' in mode` tests for a character.

Exceptions become `Wrappers.Error` values carrying what the message carries. Every modelled
operation that can raise returns a `Result`, and the error paths are part of the contracts. The
exception is a failure of the host I/O listed under "Left out": `Ninja.Init` always succeeds,
where `Ninja.__init__` raises when `build.ninja~` or the reconfigure script cannot be opened or
the build directory cannot be made.

What the program reads from the host is a parameter:
- whether a file opens, or the errno it fails with (`Ninja.FileOutcome`);
- the lines of the lockfile;
- whether a keyring directory exists, and what it lists;
- the program's own directory;
- the hex digest of the apt sources;
- URL decoding;
- the iteration order of a Python set, where the program turns a set into a list
  (`Ninja.Enumerates`).

Branches are modelled as strings. The `ostree_combine` edges that `image_from_lockfile` and
`build_image` write are modelled by the branch names they produce. As written, `Rule.build`
returns the list of expanded outputs: it never wraps them in the `output_type` its rules
declare, so `.ref` and `.filename` are not available on that list. The model follows the
evident intent, and the value a handle's `.ref` would give is the branch name itself.

A column-0 line without `": "` after a ` .` continuation raises `ValueError`
(apt2ostree/apt.py:597). The model follows the code (`Packages.UnindentedContinuation`,
`Packages.UnindentedExample`).

## Model

| member | source | states |
|---|---|---|
| Wrappers.MapAll | apt2ostree/apt.py:323-333 | A Python loop over a list that stops at the first raising element. It succeeds exactly when every element does, and then holds every result in order. Otherwise it holds the error of the first element that fails, and every element before that one succeeded. |
| Vars.VarsIn | apt2ostree/ninja.py:132-142 | No items give no names. A single string is read like a one-element list. A list gives the union of the names of its texts, and every name comes from some text. |
| Vars.VarsInList | apt2ostree/ninja.py:137-142 | The names of a list are exactly the union of the names of its texts. |
| Vars.VarsInText | apt2ostree/ninja.py:138-141 | `vars_in` of one template: the names are exactly those of a left-to-right scan in which `$$` is skipped as a unit and `$name` and `${name}` reference `name`. |
| Vars.PiecesAreScan | apt2ostree/ninja.py:139-141 | Splitting on `$$` and then matching `$name` and `${name}` in each piece equals that scan. The scan is an independent definition, so this is the link between the two. |
| Vars.VarsInNoDollar | apt2ostree/ninja.py:139-141 | A text without `$` references no variable. |
| Vars.VarsInEscape | apt2ostree/ninja.py:139 | A leading `$$` contributes nothing and hides nothing after it. |
| Vars.VarsInReference | apt2ostree/ninja.py:140 | `$name` followed by a non-word character references exactly `name`. The name is the longest run of word characters. |
| Vars.VarsInBracedReference | apt2ostree/ninja.py:141 | `${name}` references exactly `name`. The `{` does not start a plain reference. |
| Vars.VarsInAppend | apt2ostree/ninja.py:139-141 | After a text that ends on a boundary, the names of a concatenation are the union of the names of its parts. |
| Vars.WordRun | apt2ostree/ninja.py:140 | The longest prefix of word characters: a prefix, all word characters, and followed by a non-word character or the end. |
| Vars.BracedName | apt2ostree/ninja.py:141 | A `{name}` match gives a non-empty name of word characters, and the text really begins with `{`, the name and `}`. |
| Vars.TemplateVars | apt2ostree/ninja.py:132-142 | A template whose variable references are each followed by a non-word character (or end it) references exactly the names it cuts at. |
| Vars.RefsVars | apt2ostree/ninja.py:132-142 | The induction behind `Vars.TemplateVars`: the references of a sequence of cuts are exactly their names. |
| Vars.TwoCutVars | apt2ostree/ninja.py:132-142 | A template with two references names exactly those two variables. |
| Ninja.Variable | apt2ostree/ninja.py:69-78 | A global is set once. Setting it again to the same value changes nothing. A different value raises `ConflictingGlobal` and leaves the writer unchanged. Indented variables never touch the globals. Only the globals change. |
| Ninja.GlobalSetOnce | apt2ostree/ninja.py:69-78 | After a first setting, a second one fails exactly when the value differs. Either way the stored value stays the first. |
| Ninja.RegisterRule | apt2ostree/ninja.py:85-90 | The first body registered under a name wins. A different body raises and is not stored. Only the rule registry changes. |
| Ninja.RuleFirstWins | apt2ostree/ninja.py:85-90 | After a first registration, a second one fails exactly when the body differs. The stored body stays the first. |
| Ninja.AddTarget | apt2ostree/ninja.py:118-121 | An empty name raises `InvalidTarget` and changes nothing. Any other name joins the target set. |
| Ninja.AddTargets | apt2ostree/ninja.py:81-82 | The outputs are added in order. The call fails exactly when one of them is empty. On success the target set grows by exactly the outputs, and it never grows beyond them. |
| Ninja.AddGeneratorDep | apt2ostree/ninja.py:114-116 | The dependency set grows by the name with `.pyc` turned into `.py`, and nothing else changes. |
| Ninja.DepName | apt2ostree/ninja.py:116 | The name recorded for a file without `.pyc` is the name itself. The compiled case is `Ninja.DepNameCompiled`. |
| Ninja.DepNamePlain | apt2ostree/ninja.py:116 | A name without `.pyc` is stored as it is. |
| Ninja.DepNameCompiled | apt2ostree/ninja.py:116 | A compiled module's name is stored as its source's name. |
| Ninja.Build | apt2ostree/ninja.py:80-83 | Every output becomes a target and the edge is appended. An empty output raises before any edge is written. Globals, rules, dependencies and the closed flag are kept. |
| Ninja.Open | apt2ostree/ninja.py:92-112 | Write mode makes the file a target, and an empty name raises first. A successful read makes the file a generator dependency. A read failing with ENOENT makes its directory (or `.`) one and re-raises. Other errors add nothing and re-raise. |
| Ninja.WatchedDir | apt2ostree/ninja.py:107 | The watched directory is never empty. For a bare file name it is `.`. |
| Ninja.OpenMissingWatchesDir | apt2ostree/ninja.py:100-108 | Reading a missing `dir/file` raises ENOENT and adds exactly `dir` to the dependencies. |
| Ninja.OpenMissingWatchesCwd | apt2ostree/ninja.py:107 | Reading a missing bare file name adds exactly `.` to the dependencies. |
| Ninja.Close | apt2ostree/ninja.py:54-58 | An open writer gets the regeneration edge for `build.ninja` over all generator dependencies, and ends closed. A closed writer is unchanged. |
| Ninja.CloseOnce | apt2ostree/ninja.py:54-58 | Closing twice is closing once: at most one regeneration edge is written. |
| Ninja.ExtendsTransitive | apt2ostree/ninja.py:23-26 | The registries only grow, so growth composes across transitions. |
| Ninja.Init | apt2ostree/ninja.py:17-52 | A new writer has the `builddir` global and exactly one rule, `configure`, whose command is `$builddir/reconfigure` (unexpanded) and which is a generator. It has the targets `.FORCE`, `_build/reconfigure`, `_build/.ninja_deps` and `_build/.ninja_log`, the three module files as dependencies, and one `.FORCE` phony edge. |
| Ninja.InitHead | apt2ostree/ninja.py:17-34 | The state before the reconfigure script: the dependencies, the `builddir` global and the `.FORCE` edge. |
| Ninja.MakeRule | apt2ostree/ninja.py:146-165 | A name is in the contract exactly when it is referenced by the command, the inputs or the outputs. Absent order-only and implicit lists are empty. The default description binds every contract name to itself. |
| Ninja.Bindings | apt2ostree/ninja.py:163-164 | The default description lists each variable as `x=$x`, in the given order. |
| Ninja.Validate | apt2ostree/ninja.py:180-187 | Missing names are reported first: contract names not supplied, not global and not `in`/`out`. Unexpected names (supplied and not in the contract) are reported only when none is missing. Success is exactly the absence of both. |
| Ninja.Texts | apt2ostree/ninja.py:188-196 | Iterating over a template list gives its texts. A single string is iterated character by character, as Python iterates a `str`. |
| Ninja.ExpandAll | apt2ostree/ninja.py:189-196 | Each template is expanded with the globals and the call's bindings, in order. |
| Ninja.Assemble | apt2ostree/ninja.py:188-202 | Outputs are the caller's followed by the expanded rule outputs. Inputs are the caller's, then the expanded rule inputs, then the expanded implicit templates. Order-only is the rule's unexpanded list followed by the caller's. The bindings become the edge's variables. |
| Ninja.RuleBuild | apt2ostree/ninja.py:167-202 | The rule is registered before the arguments are checked, and only its name joins the registry. A mismatching body fails. Otherwise the call fails on arguments exactly when `Validate` rejects them. A rejected call writes no edge and no target. An accepted call raises `InvalidTarget` exactly when an assembled output is empty. It succeeds exactly when the body matches, the arguments are accepted and no output is empty; then the assembled edge is written and the targets grow by exactly its outputs. Globals, dependencies and the closed flag are kept. |
| Ninja.RuleBuildMissing | apt2ostree/ninja.py:181-184 | A contract name that is not bound, not global and not automatic makes the build fail as missing, and that name is reported. |
| Ostree.RefOf | apt2ostree/ostree.py:8-9 | `.ref` fails with an index error exactly when the path has no `/refs/heads/`. Otherwise it never contains the separator. |
| Ostree.RepoOf | apt2ostree/ostree.py:12-13 | `.repo` is a prefix of the path, without the separator. A path without the separator is its own repository. |
| Ostree.RefRepoRoundTrip | apt2ostree/ostree.py:8-13 | Splitting `repo + "/refs/heads/" + branch` gives back `repo` and `branch` when neither contains the separator and `repo` does not end inside one. |
| Ostree.SplitAfterRepo | apt2ostree/ostree.py:8-13 | When the separator occurs again after the repository, `.ref` is only the segment up to that next occurrence. |
| Ostree.RoundTripNeedsBoundary | apt2ostree/ostree.py:8-13 | A repository ending in `/refs/heads` splits early: the round trip needs that side condition. |
| Ostree.NoSeparator | apt2ostree/ostree.py:8-13 | Without the separator, `.repo` is the whole path and `.ref` fails. |
| Ostree.SplitCount | apt2ostree/ostree.py:9 | The split has a second part exactly when the separator occurs. |
| Ostree.InitCommandVars | apt2ostree/ostree.py:16-18 | The `ostree` command references only `ostree_repo`. |
| Ostree.RepoConfigVars | apt2ostree/ostree.py:19 | The `ostree` output references only `ostree_repo`. |
| Ostree.InitRule | apt2ostree/ostree.py:16-19 | The `ostree` rule, named `ostree`, whose variable contract is `{ostree_repo}`. |
| Ostree.CombineCommandVars | apt2ostree/ostree.py:22-27 | The `ostree_combine` command references `in`, `ostree_repo` and `branch`. |
| Ostree.CombineOutputVars | apt2ostree/ostree.py:28 | The `ostree_combine` output references `ostree_repo` and `branch`. |
| Ostree.CombineRule | apt2ostree/ostree.py:22-30 | The `ostree_combine` rule, whose variable contract is `{in, ostree_repo, branch}`. The order-only list and the description add nothing. |
| Ostree.InitBuildArguments | apt2ostree/ostree.py:16-19 | Building `ostree` with no arguments passes validation exactly when `ostree_repo` is a global. |
| Ostree.CombineBuildArguments | apt2ostree/ostree.py:22-30 | With `ostree_repo` global and `branch` not global, `ostree_combine` passes validation exactly when `branch` is bound and nothing outside the contract is. |
| Ostree.CombineAccepts | apt2ostree/ostree.py:22-30 | With `ostree_repo` global and `branch` not, the argument check of `ostree_combine` accepts exactly when `branch` is bound and every bound name is `in`, `ostree_repo` or `branch`. |
| Ordering.Sort | apt2ostree/apt.py:428 | `sorted()` on the package list: the result is non-descending in Python's string order and is a permutation of the input. |
| Packages.Feed | apt2ostree/apt.py:584-598 | A blank line completes the record when it is non-empty and resets the state. A column-0 line succeeds exactly when it contains `": "`, and raises `MalformedField` otherwise. An indented line succeeds exactly when a field was set. After any non-blank line, the last field is in the record. |
| Packages.Extend | apt2ostree/apt.py:589-593 | A continuation appends to the last field. With no last field it raises `NoFieldToContinue`. |
| Packages.ParseFrom | apt2ostree/apt.py:584-598 | Only non-empty records are yielded, and no more than there are blank lines. |
| Packages.ParsePackages | apt2ostree/apt.py:581-598 | `parse_packages` from its initial state, with the same two bounds. |
| Packages.NoBlankNoRecord | apt2ostree/apt.py:585-598 | Without a blank line nothing is yielded: a final stanza with no blank line after it is dropped. |
| Packages.BlankAtStart | apt2ostree/apt.py:585-591 | Blank lines before the first stanza yield nothing. |
| Packages.RepeatedBlank | apt2ostree/apt.py:585-591 | A second blank line in a row yields nothing more. |
| Packages.FeedField | apt2ostree/apt.py:596-598 | A field line sets its label to the stripped value, overwriting any earlier value, and makes it the last field. |
| Packages.FeedContinuation | apt2ostree/apt.py:592-593 | An indented line appends a newline and its stripped text to the last field. |
| Packages.FeedBareDot | apt2ostree/apt.py:590-591 | A line that is exactly ` .` appends an empty line. |
| Packages.FeedDotNewline | apt2ostree/apt.py:590-593 | ` .` read with its newline is not ` .`: it is an ordinary continuation and appends `.`. |
| Packages.ParseRender | apt2ostree/apt.py:581-598 | Rendering well-formed stanzas, each followed by a blank line, and parsing them gives back exactly their records, with no error. |
| Packages.ParseStanza | apt2ostree/apt.py:592-598 | The lines of one stanza fill the record field by field, with later values winning. |
| Packages.UnindentedContinuation | apt2ostree/apt.py:592-597 | A column-0 line without `": "` after a ` .` continuation raises `MalformedField`. The stanza before it is not yielded. |
| Packages.UnindentedExample | apt2ostree/apt.py:581-598 | A concrete lockfile of that shape: parsing stops with the error and yields nothing. |
| Packages.MalformedStep | apt2ostree/apt.py:596-597 | A column-0 line without `": "` ends parsing with `MalformedField`. |
| Apt.ReleaseName | apt2ostree/apt.py:309-318 | `14.04` becomes `trusty`, `16.04` becomes `xenial` and `18.04` becomes `bionic`. Anything else is kept, and the result is never one of 14.04, 16.04 and 18.04. |
| Apt.ArchiveFor | apt2ostree/apt.py:319-322 | The main archive serves exactly `amd64` and `i386`. Every other architecture uses the ports archive. |
| Apt.BaseRelease | apt2ostree/apt.py:340 | The text before the first `-`: a prefix of the release without `-` that is either the whole release or is followed in it by `-`. |
| Apt.KeyringDir | apt2ostree/apt.py:337-343 | The release's own keyring directory if it exists, else its base release's, else the lookup raises `NoKeyring`. |
| Apt.KeyringsFor | apt2ostree/apt.py:336-350 | The keyrings are the files of the chosen directory's listing, in order, each behind the `$apt2ostreedir/` prefix. The lookup fails with `NoKeyring` exactly when no directory is chosen. |
| Apt.UbuntuKeyringFile | apt2ostree/apt.py:323-350 | Every keyring of an Ubuntu source is `$apt2ostreedir/` followed by a listed file name. |
| Apt.PocketKeyringFallback | apt2ostree/apt.py:339-341 | A pocket without its own directory uses the release's keyrings. |
| Apt.SourcesFor | apt2ostree/apt.py:323-333 | One source per pocket, in order, each with its keyrings. It fails at the first pocket without keyrings. |
| Apt.UbuntuAptSources | apt2ostree/apt.py:316-333 | It succeeds exactly when the keyring lookups of the release name with each of the three pockets succeed. Then there are three sources. Source `i` has the requested architecture, the release name followed by pocket `i`, that architecture's archive, the four components and that pocket's keyrings. |
| Apt.UbuntuSources | apt2ostree/apt.py:316-333 | Three sources: the release, `-updates` and `-security`. All have the requested architecture, that architecture's archive and the four components. |
| Apt.UbuntuDistributionsDistinct | apt2ostree/apt.py:323-333 | The three distributions are distinct and begin with the release name. |
| Apt.UbuntuSourcesNeedKeyrings | apt2ostree/apt.py:326-332 | The sources exist exactly when all three keyring lookups succeed. |
| Images.Take | apt2ostree/apt.py:500 | `s[:n]` clips at the end of the string. |
| Images.Drop | apt2ostree/apt.py:501 | `s[n:]` is what follows `s[:n]`. |
| Images.PoolPath | apt2ostree/apt.py:499-501 | For a checksum of at least four characters, `aptly_pool_filename` is the checksum with `/` after its second and fourth characters, then `_`, then the file's base name: every checksum character sits at its place, and the path is exactly that long. |
| Images.PoolPathParts | apt2ostree/apt.py:499-501 | Its directory is `sha[:2]/sha[2:4]`, and its base name is `sha[4:]_` followed by the file's base name. |
| Images.PoolPathInjective | apt2ostree/apt.py:499-501 | Equal pool paths for equally long checksums have the same checksum and base name. |
| Images.ChecksumDetermined | apt2ostree/apt.py:499-501 | A pool path determines the checksum it holds. |
| Images.Sanitize | apt2ostree/apt.py:502-503 | `+` and `~` become `_` character by character, and neither remains. |
| Images.RefBase | apt2ostree/apt.py:502-503 | `deb/pool/` followed by the pool path with `+` and `~` mapped to `_`, character by character, so it is exactly as long as the prefix and the path. |
| Images.SanitizeEqual | apt2ostree/apt.py:502-503 | Two texts sanitize alike exactly when they agree everywhere up to `+`/`~`/`_`. |
| Images.RefBaseAt | apt2ostree/apt.py:502-503 | The ref base is `deb/pool/` followed by the pool path, sanitized, with the same length. |
| Images.RefBaseKeepsChecksum | apt2ostree/apt.py:499-503 | Sanitizing cannot make two packages with different plain checksums share a ref base. |
| Images.RefBaseSeparatesChecksums | apt2ostree/apt.py:499-503 | The same, stated on pool paths. |
| Images.RefBaseSwap | apt2ostree/apt.py:502-503 | Characters that sanitize alike give the same ref base. |
| Images.RefBaseConflates | apt2ostree/apt.py:499-503 | Two files `a+1` and `a~1` with the same checksum share one ref base. |
| Images.FixPackage | apt2ostree/apt.py:556-578 | The data branch is kept exactly when the quirk does not apply. Otherwise `-fixed` is appended. |
| Images.FixDownwardClosed | apt2ostree/apt.py:561 | The quirk is downward closed in string order: a pylint version below one that gets `-fixed` gets it too, and `2.1.1-2` itself does not. |
| Images.PylintVersions | apt2ostree/apt.py:561 | The version test is lexicographic: `1.8.3-1`, `2.1.1-10` and `10.0-1` get the fix; `2.1.1-2`, `2.2.0-1` and every other package do not. |
| Images.PackageDeb | apt2ostree/apt.py:497-521 | A record lacking `Filename`, `SHA256`, `Package` or `Version` raises `KeyError` for the first one looked up. Otherwise the data and info branches, and the `status` and `available` files under `$builddir`, are derived from the ref base. The data branch gets `-usrmove` and then `-fixed` as applicable. |
| Images.PackageDebWellNamed | apt2ostree/apt.py:497-521 | The branches of a decoded package, and its `status` and `available` files relative to `$builddir`, stand under its ref base, which holds its checksum. |
| Images.DebsSeparate | apt2ostree/apt.py:499-521 | Packages with different plain checksums of equal length get different data and info branches and different `status` and `available` files under `$builddir`. |
| Images.PackageBranchesSeparate | apt2ostree/apt.py:497-521 | The same, stated on package records. |
| Images.LockfileDebs | apt2ostree/apt.py:495-521 | The lockfile's packages are those of every parsed record, in order. Reading fails exactly when parsing or the decoding of some record fails. When a record fails, the error is the KeyError of the first failing record, even if a malformed line follows. Otherwise it is the parse error. |
| Images.PackageDebs | apt2ostree/apt.py:497-514 | The packages of the records in order when every record decodes, and otherwise the KeyError of the first record that does not. |
| Images.LockfileOfStanzas | apt2ostree/apt.py:495-521 | A rendered lockfile of well-formed stanzas gives one package per stanza. |
| Images.RecordsLength | apt2ostree/apt.py:581-598 | One record per stanza. |
| Images.Digest | apt2ostree/apt.py:529 | The lockfile's path with `/` turned into `_`, and without `/`. |
| Images.DigestEqual | apt2ostree/apt.py:529 | Two lockfiles share a digest exactly when they agree everywhere up to `/`/`_`. |
| Images.ImageBranch | apt2ostree/apt.py:531-551 | A branch under `deb/images/`, exactly as long as the prefix, the digest, `/` and the leaf, with the `/` right after the digest. |
| Images.ImageBranchInjective | apt2ostree/apt.py:531-551 | Distinct digests or leaves give distinct image branches. |
| Images.ImageFromLockfile | apt2ostree/apt.py:479-554 | The architecture defaults to `amd64`. A failure to open the mirror list propagates. A missing lockfile gives no packages, and any other error opening it propagates. The packages are those of `LockfileDebs`. The branches are `deb/images/<digest>/{data_combined,info_combined,status,available,unpacked}`, and the unpacked image combines the base and the four others in that order. |
| Images.LockfileWatched | apt2ostree/apt.py:495-527 | A lockfile that exists is watched. When it is missing, its directory is watched and the image has no packages. |
| Images.LockfileWatchedPresent | apt2ostree/apt.py:496 | An existing lockfile becomes a generator dependency. |
| Images.LockfileWatchedMissing | apt2ostree/apt.py:522-527 | A missing lockfile's directory becomes one, and no package is read. |
| Images.SecondStage | apt2ostree/apt.py:404-425 | Without a branch, the input must mention `unpacked`, and the output is the input with every `unpacked` replaced by `configured`. A given branch is used as it is. `armhf` gets the qemu order-only dependency and bind mount. `amd64` and `i686` get neither. Every other architecture fails. |
| Images.Configurable | apt2ostree/apt.py:409-418 | Exactly `armhf`, `amd64` and `i686` have a second stage. Of the architectures the main archive serves, only `amd64` has one. |
| Images.SecondStageRenamesDigest | apt2ostree/apt.py:404-407 | For a lockfile named `unpacked`, the default configured branch renames the digest as well as the leaf. |
| Images.ArchitectureGap | apt2ostree/apt.py:404-418 | `i386` has an archive but no second stage. `i686` has a second stage but is fetched from the ports archive. |
| Images.RenameLeaf | apt2ostree/apt.py:407 | Renaming `unpacked` in `deb/images/<digest>/unpacked` changes only the leaf, when the digest does not mention it. |
| Images.RenameEveryOccurrence | apt2ostree/apt.py:396-407 | `replace` renames every occurrence, so a digest equal to the leaf is renamed too. |
| Images.RenameEverywhere | apt2ostree/apt.py:396-407 | The concrete case: a lockfile named `unpacked`. |
| Images.MirrorNames | apt2ostree/apt.py:441-442 | One mirror per source, named `mirror-<n>`. |
| Images.MirrorsRoundTrip | apt2ostree/apt.py:473 | The comma-joined mirror list splits back into the names, and the names are distinct. |
| Images.ArchiveUrls | apt2ostree/apt.py:443 | Exactly the sources' archive URLs are recorded. |
| Images.KeyringArgs | apt2ostree/apt.py:445-448 | Exactly the keyrings of the sources: every keyring of every source appears as `-keyring=` and its path, with the program directory substituted, and every argument in the set comes from one of them. |
| Images.KeyringUnderDir | apt2ostree/apt.py:446 | A keyring under `$apt2ostreedir` moves under the program directory. |
| Images.UbuntuKeyringArgs | apt2ostree/apt.py:445-448 | For listings without `$`, every keyring of an Ubuntu source is passed as `-keyring=` followed by the program directory, `/` and the listed file. |
| Images.GenerateLockfile | apt2ostree/apt.py:427-477 | The packages are sorted and keep their multiset. The mirror script is named after the digest's first seven characters, and failing to open it propagates. An empty source list raises after the script is written. The lockfile's update target is recorded. |
| Images.LockfilePackagesCanonical | apt2ostree/apt.py:428 | The lockfile rule does not depend on the order the packages are given in. |
| Images.WritePhonyRules | apt2ostree/apt.py:371-373 | One phony edge `update-apt-lockfiles` over all recorded update targets. |
| Images.PhonyUpdatesLockfile | apt2ostree/apt.py:371-373 | A generated lockfile's update target is an input of that phony edge. |
| Images.StageTwo | apt2ostree/apt.py:391-398 | Stage two succeeds exactly when `second_stage` does, and fails with its error. The complete branch is the unpacked one with every `unpacked` replaced by `complete`, and the phony target is `image-for-<lockfile>`. |
| Images.BuildImage | apt2ostree/apt.py:375-402 | An empty source list raises. Stage one uses the first source's architecture. There is one sources list per source, named `apt2ostree-<n>`. Unpack-only stops at stage one; otherwise stage two and the complete image follow. |
| Images.BuildImageSucceeds | apt2ostree/apt.py:375-418 | When every file opens, building succeeds exactly when only unpacking or the architecture has a second stage. Otherwise it fails with the unsupported architecture. |
| Images.BuildImageBranches | apt2ostree/apt.py:391-407 | The configured and complete branches are the unpacked one with its leaf renamed. |
| Images.I386StopsAtStageOne | apt2ostree/apt.py:388-418 | An `i386` image can be unpacked but not configured. |
| Images.AptBaseNamesDistinct | apt2ostree/apt.py:387 | Distinct sources get distinct sources-list names. |
| Images.NewApt | apt2ostree/apt.py:354-369 | `apt_should_mirror` is set as `True` or `False` and may not conflict. The module file is watched. The repository's `config` and `objects` become targets, and a missing `ostree_repo` raises. |
| Images.RepoProducts | apt2ostree/apt.py:367-369 | The repository's `config` and `objects` become targets. Without an `ostree_repo` global this raises `KeyError`. |
| Images.AptBaseOutputVars | apt2ostree/apt.py:96 | The `apt_base` output references `ostree_repo` and `_args_digest`. |
| Images.AptBaseNeedsArgsDigest | apt2ostree/apt.py:382-387 | The sources-list call binds neither `_args_digest` nor a global by that name, so building `apt_base` as written fails with `_args_digest` missing. |

## Left out

- Writing the build file: the text `ninja_syntax.Writer` emits, its line width, `newline()`, the `build.ninja~` file and its rename in `close`, `__enter__`, `__exit__` and `__del__`. The writer keeps the edges as data instead.
- `ninja_syntax` is not part of this model. `expand` is a parameter (`Ninja.Expander`), and `as_list` is taken to be the list itself.
- `shquote`, `pipes.quote` and the reconfigure script: foreign quoting and file output.
- `write_gitignore`: file output only.
- `Ninja.Init` takes the three module paths as parameters. `os.path.relpath`, `sys.argv`, `os.mkdir` and `os.chmod` are host calls.
- The shell bodies of every rule in `apt2ostree/apt.py`. They run later, under ninja.
- The edges of `dpkg_base`, `download_deb`, `make_dpkg_info`, `do_usrmove`, `deb_combine_meta`, `ostree_combine` and `dpkg_configure` inside `image_from_lockfile`, `second_stage` and `build_image`. The model gives the branch names these edges produce. It does not write them to the writer.
- `ostree_addfile` is not part of this model. `fix_package` is modelled by the branch name it produces.
- The contents of the mirror list and of the `create_mirrors` script, `mkdir_p`, `os.fchmod`, and the writes to standard error.
- The SHA-256 digest of the apt sources: a parameter.
- The unused `keyring_arg` string at apt2ostree/apt.py:466.
- `_find_file`, `os.path.exists`, `glob` and `os.path.relpath` in `keyrings_for`: the existence test and the directory listing are parameters.
- `unquote`: a parameter.
- The iteration order of Python sets where the program lists one (`close`, `write_phony_rules`, the default description of a rule): a parameter constrained to enumerate the set. The two other places, `" ".join(all_keyring_args)` (apt2ostree/apt.py:475) and `for x in self.archive_urls` (apt2ostree/apt.py:492), are kept as sets: the `keyringArgs` field of `Images.LockfileRule` and the `archiveUrls` field of `Images.AptState`. The order in which they would be joined or written is not modelled, and neither are the contents of the mirror list.
- Images.BuildImage: names the `n`-th sources list `apt2ostree-<n>` without building it through `apt_base`. As written, that build is rejected because nothing binds `_args_digest` (`Images.AptBaseNeedsArgsDigest`).
- Images.ImageFromLockfile: records only the generator dependency and targets of the files it opens. The `ostree_combine` and `deb_combine_meta` edges it writes are represented by their branch names.
- Images.GenerateLockfile: records the `update_lockfile` edge by its target, `update-lockfile-<lockfile>`. It does not assemble that edge through `Ninja.RuleBuild`.
- Ninja.Variable, Ninja.RegisterRule, Ninja.Build, Ninja.RuleBuild: accept writes after `close`. Python's file object would raise `ValueError` there, because the file is closed (apt2ostree/ninja.py:78, 83, 90, 176). The model keeps the `closed` flag only for `Ninja.Close`.
- Ninja.Assemble: builds fresh output and input sequences. `Rule.build` extends the caller's `outputs` and `inputs` lists in place (apt2ostree/ninja.py:188-196). No caller in `apt2ostree/apt.py` or `apt2ostree/ostree.py` reuses such a list after the call, so the mutation is not observable there.
- Ninja.RuleBuild: registers the rule's command as written, without `textwrap.dedent` (apt2ostree/ninja.py:153). Only the comparison of two bodies registered under one name could observe the difference.
- Default arguments: `release="bionic"` and `architecture="amd64"` of `ubuntu_apt_sources` (apt2ostree/apt.py:316) and `unpack_only=False` and `usrmove=False` of `build_image` (apt2ostree/apt.py:375-376) are not defaults in `Apt.UbuntuAptSources` and `Images.BuildImage`: callers pass every argument.
- Images.NewApt: the default `DEB_POOL_MIRRORS` is the empty list it is declared as.

=== FILE: apt.dfy ===
/** The naming logic of `apt2ostree/apt.py`: which apt sources an Ubuntu
    release uses, where a package's files and branches go, which quirks
    apply, and how a stage-one image becomes a configured and a complete
    one. A branch is the text after `/refs/heads/` in a ref path; the shell
    bodies of the rules are not modelled. */
module Apt {
  import opened Wrappers
  import opened Strings
  import opened Paths
  import opened Ordering
  import Vars
  import Ninja
  import Packages
  import Ostree

  // ---------------------------------------------------------------------
  // Apt sources (apt.py:305-350)

  datatype AptSource = AptSource(
    architecture: string,
    distribution: string,
    archiveUrl: string,
    components: string,
    keyrings: seq<string>)

  /** Version numbers accepted in place of an Ubuntu release name. */
  const UbuntuReleases: map<string, string> :=
    map["14.04" := "trusty", "16.04" := "xenial", "18.04" := "bionic"]

  const ArchiveUrl: string := "http://archive.ubuntu.com/ubuntu"
  const PortsUrl: string := "http://ports.ubuntu.com/ubuntu-ports"
  const UbuntuComponents: string := "main restricted universe multiverse"

  /** The three distributions of a release: itself, its updates and its
      security fixes. */
  const Pockets: seq<string> := ["", "-updates", "-security"]

  /** A version number becomes its release name; anything else is kept. */
  function ReleaseName(release: string): (r: string)
    ensures r !in UbuntuReleases
    ensures release !in UbuntuReleases ==> r == release
    ensures release in UbuntuReleases ==> r in UbuntuReleases.Values
    ensures release == "14.04" ==> r == "trusty"
    ensures release == "16.04" ==> r == "xenial"
    ensures release == "18.04" ==> r == "bionic"
  {
    if release in UbuntuReleases then UbuntuReleases[release] else release
  }

  /** The two architectures Ubuntu's main archive serves; every other one
      is on the ports archive. */
  function ArchiveFor(architecture: string): (url: string)
    ensures url == ArchiveUrl <==> architecture == "amd64" || architecture == "i386"
    ensures url == ArchiveUrl || url == PortsUrl
  {
    if architecture in ["amd64", "i386"] then ArchiveUrl else PortsUrl
  }

  function KeyringPath(distro: string, release: string): string {
    "keyrings/" + distro + "/" + release
  }

  /** The release name before its first "-": "bionic" for "bionic-updates". */
  function BaseRelease(release: string): (r: string)
    ensures r <= release && '-' !in r
    ensures r == release || (|r| < |release| && release[|r|] == '-')
  {
    var parts := Split(release, "-");
    Ostree.JoinHead(parts, "-");
    assert |parts| > 1 ==> Join(parts, "-") == parts[0] + "-" + Join(parts[1..], "-");
    MissingFromPiece(parts[0], '-');
    parts[0]
  }

  lemma MissingFromPiece(piece: string, c: char)
    requires !Contains(piece, [c])
    ensures c !in piece
  {
    if c in piece {
      var i :| 0 <= i < |piece| && piece[i] == c;
      assert piece[i..i + 1] == [c];
      OccursContains(piece, [c], i);
    }
  }

  /** `keyrings_for`'s choice of directory, with `present` standing for the
      file-system probe: the release's own directory, else the directory
      of its base release, else no key is known. */
  function KeyringDir(distro: string, release: string, present: string -> bool): (r: Result<string>)
    ensures r.Ok? <==> present(KeyringPath(distro, release)) || present(KeyringPath(distro, BaseRelease(release)))
    ensures r.Ok? && present(KeyringPath(distro, release)) ==> r.value == KeyringPath(distro, release)
    ensures r.Ok? && !present(KeyringPath(distro, release)) ==> r.value == KeyringPath(distro, BaseRelease(release))
    ensures r.Err? ==> r.error == NoKeyring(distro, release)
  {
    if present(KeyringPath(distro, release)) then Ok(KeyringPath(distro, release))
    else if present(KeyringPath(distro, BaseRelease(release))) then Ok(KeyringPath(distro, BaseRelease(release)))
    else Err(NoKeyring(distro, release))
  }

  /** The placeholder keyring paths start with, for the directory of the
      program. */
  const DirVariable: string := "$apt2ostreedir"

  /** `keyrings_for(distro, release)`: the keyring files of the chosen
      directory, each under the placeholder. `listing` stands for the glob
      of its `*.gpg` files, as paths relative to the program's directory. */
  function KeyringsFor(distro: string, release: string, present: string -> bool, listing: string -> seq<string>): (r: Result<seq<string>>)
    ensures r.Ok? <==> KeyringDir(distro, release, present).Ok?
    ensures r.Ok? ==> var files := listing(KeyringDir(distro, release, present).value);
      |r.value| == |files| && forall i :: 0 <= i < |files| ==> r.value[i] == DirVariable + "/" + files[i]
    ensures r.Err? ==> r.error == NoKeyring(distro, release)
  {
    match KeyringDir(distro, release, present)
    case Err(e) => Err(e)
    case Ok(d) =>
      var files := listing(d);
      Ok(seq(|files|, i requires 0 <= i < |files| => DirVariable + "/" + files[i]))
  }

  /** A pocket of a release with no keyring directory of its own uses the
      release's keyrings. */
  lemma PocketKeyringFallback(distro: string, name: string, pocket: string, present: string -> bool)
    requires '-' !in name && '-' !in pocket
    requires !present(KeyringPath(distro, name + "-" + pocket)) && present(KeyringPath(distro, name))
    ensures KeyringDir(distro, name + "-" + pocket, present) == Ok(KeyringPath(distro, name))
  {
    SplitJoinChar([name, pocket], '-');
    assert Join([name, pocket], "-") == name + "-" + pocket;
  }

  /** The source for one pocket of `name`, which raises when the pocket
      has no keyrings. */
  function SourceFor(architecture: string, name: string, url: string, pocket: string,
                     present: string -> bool, listing: string -> seq<string>): (r: Result<AptSource>)
  {
    match KeyringsFor("ubuntu", name + pocket, present, listing)
    case Err(e) => Err(e)
    case Ok(keys) => Ok(AptSource(architecture, name + pocket, url, UbuntuComponents, keys))
  }

  /** The sources of `name` plus each pocket, in order, stopping at the
      first one without keyrings. */
  function SourcesFor(architecture: string, name: string, url: string, pockets: seq<string>,
                      present: string -> bool, listing: string -> seq<string>): (r: Result<seq<AptSource>>)
    ensures r.Ok? <==> forall i :: 0 <= i < |pockets| ==> KeyringsFor("ubuntu", name + pockets[i], present, listing).Ok?
    ensures r.Ok? ==> |r.value| == |pockets|
    ensures r.Ok? ==> forall i :: 0 <= i < |pockets| ==>
              r.value[i] == AptSource(architecture, name + pockets[i], url, UbuntuComponents,
                                      KeyringsFor("ubuntu", name + pockets[i], present, listing).value)
    ensures r.Err? ==> exists i :: (0 <= i < |pockets|
              && (forall j :: 0 <= j < i ==> KeyringsFor("ubuntu", name + pockets[j], present, listing).Ok?)
              && KeyringsFor("ubuntu", name + pockets[i], present, listing) == Err(r.error))
  {
    MapAll(pockets, p => SourceFor(architecture, name, url, p, present, listing))
  }

  /** `ubuntu_apt_sources(release, architecture)`. */
  function UbuntuAptSources(release: string, architecture: string,
                            present: string -> bool, listing: string -> seq<string>): (r: Result<seq<AptSource>>)
    ensures r.Ok? <==> forall i :: 0 <= i < |Pockets| ==>
              KeyringsFor("ubuntu", ReleaseName(release) + Pockets[i], present, listing).Ok?
    ensures r.Ok? ==> |r.value| == |Pockets| == 3
    ensures r.Ok? ==> forall i :: 0 <= i < |Pockets| ==>
              r.value[i] == AptSource(architecture, ReleaseName(release) + Pockets[i], ArchiveFor(architecture),
                                      UbuntuComponents, KeyringsFor("ubuntu", ReleaseName(release) + Pockets[i], present, listing).value)
  {
    SourcesFor(architecture, ReleaseName(release), ArchiveFor(architecture), Pockets, present, listing)
  }

  /** The file a keyring of an Ubuntu source names: an entry of the
      listing of its keyring directory, behind the placeholder. */
  lemma UbuntuKeyringFile(release: string, architecture: string, present: string -> bool,
                          listing: string -> seq<string>, i: nat, j: nat) returns (f: string)
    requires forall d, f :: f in listing(d) ==> '$' !in f
    requires var r := UbuntuAptSources(release, architecture, present, listing);
      r.Ok? && i < |r.value| && j < |r.value[i].keyrings|
    ensures '$' !in f
    ensures UbuntuAptSources(release, architecture, present, listing).value[i].keyrings[j] == DirVariable + "/" + f
  {
    var name := ReleaseName(release);
    var r := SourcesFor(architecture, name, ArchiveFor(architecture), Pockets, present, listing);
    assert i < |Pockets|;
    var keys := KeyringsFor("ubuntu", name + Pockets[i], present, listing);
    assert r.value[i].keyrings == keys.value;
    var files := listing(KeyringDir("ubuntu", name + Pockets[i], present).value);
    f := files[j];
    assert f in files;
  }

  /** An Ubuntu release has three sources: the release, its updates and
      its security pocket, all for the requested architecture from the
      archive that serves it, with the four standard components. */
  lemma UbuntuSources(release: string, architecture: string, present: string -> bool, listing: string -> seq<string>)
    ensures var r := UbuntuAptSources(release, architecture, present, listing);
      var name := ReleaseName(release);
      r.Ok? ==>
        && |r.value| == 3
        && r.value[0].distribution == name
        && r.value[1].distribution == name + "-updates"
        && r.value[2].distribution == name + "-security"
        && forall i :: 0 <= i < 3 ==>
             && r.value[i].architecture == architecture
             && r.value[i].archiveUrl == ArchiveFor(architecture)
             && r.value[i].components == UbuntuComponents
  {
    assert ReleaseName(release) + Pockets[0] == ReleaseName(release);
  }

  /** The three distributions are pairwise distinct and all begin with
      the release name, which is never a version number. */
  lemma UbuntuDistributionsDistinct(release: string, architecture: string, present: string -> bool, listing: string -> seq<string>)
    ensures var r := UbuntuAptSources(release, architecture, present, listing);
      r.Ok? ==>
        && (forall i, j :: 0 <= i < j < 3 ==> r.value[i].distribution != r.value[j].distribution)
        && (forall i :: 0 <= i < 3 ==> ReleaseName(release) <= r.value[i].distribution)
        && ReleaseName(release) !in UbuntuReleases
  {
    UbuntuSources(release, architecture, present, listing);
    var name := ReleaseName(release);
    assert |name + "-updates"| != |name + "-security"|;
  }

  /** Exactly the three sources are looked up: the result is an error as
      soon as one of their keyring lookups fails. */
  lemma UbuntuSourcesNeedKeyrings(release: string, architecture: string, present: string -> bool, listing: string -> seq<string>)
    ensures var r := UbuntuAptSources(release, architecture, present, listing);
      var name := ReleaseName(release);
      r.Ok? <==>
        && KeyringsFor("ubuntu", name, present, listing).Ok?
        && KeyringsFor("ubuntu", name + "-updates", present, listing).Ok?
        && KeyringsFor("ubuntu", name + "-security", present, listing).Ok?
  {
    var name := ReleaseName(release);
    assert name + Pockets[0] == name;
    assert name + Pockets[1] == name + "-updates";
    assert name + Pockets[2] == name + "-security";
  }
}

=== FILE: images.dfy ===
/** The `Apt` class of `apt2ostree/apt.py`: the branches an image build
    names, from the packages of a lockfile to the configured and complete
    images, and the files the class opens on the writer.

    A rule's output handle stands for `<repo>/refs/heads/<branch>`; here
    each handle is the branch its output template spells out. The build
    statements are described by these names and are not written to the
    writer; only the files opened through `Ninja.open` are. */
module Images {
  import opened Wrappers
  import opened Strings
  import opened Paths
  import opened Ordering
  import Vars
  import Ninja
  import Packages
  import Apt
  import Ostree

  // ---------------------------------------------------------------------
  // Python slices, which clip at the end of the string

  /** `s[:n]`. */
  function Take(s: string, n: nat): (r: string)
    ensures r <= s
    ensures |r| == if n <= |s| then n else |s|
  {
    if n <= |s| then s[..n] else s
  }

  /** `s[n:]`: what `s[:n]` leaves. */
  function Drop(s: string, n: nat): (r: string)
    ensures Take(s, n) + r == s
  {
    if n <= |s| then
      assert s[..n] + s[n..] == s;
      s[n..]
    else ""
  }

  // ---------------------------------------------------------------------
  // Where a package goes (apt.py:498-512)

  /** `aptly_pool_filename`: two hex digits of the checksum, the next two,
      then the rest joined by "_" to the base name of the file. For a
      checksum of at least four characters that is the checksum with two
      slashes put in, an underscore, and the base name. */
  function PoolPath(sha: string, filename: string): (p: string)
    ensures |sha| >= 4 ==>
      && |p| == |sha| + 3 + |BaseName(filename)|
      && p[2] == '/' && p[5] == '/' && p[|sha| + 2] == '_'
      && (forall i :: 0 <= i < |sha| ==> p[ShaPos(i)] == sha[i])
      && p[|sha| + 3..] == BaseName(filename)
  {
    SlicedLayout(sha, BaseName(filename));
    Take(sha, 2) + "/" + Take(Drop(sha, 2), 2) + "/" + Drop(sha, 4) + "_" + BaseName(filename)
  }

  /** Where the `i`-th checksum character sits in the pool path. */
  function ShaPos(i: nat): nat {
    if i < 2 then i else if i < 4 then i + 1 else i + 2
  }

  /** The clipping slices of a long enough checksum are plain slices, so
      the pool path's pieces land where `SlashedLayout` puts them. */
  lemma SlicedLayout(sha: string, w: string)
    ensures |sha| >= 4 ==>
      var p := Take(sha, 2) + "/" + Take(Drop(sha, 2), 2) + "/" + Drop(sha, 4) + "_" + w;
      && |p| == |sha| + 3 + |w|
      && p[2] == '/' && p[5] == '/' && p[|sha| + 2] == '_'
      && (forall i :: 0 <= i < |sha| ==> p[ShaPos(i)] == sha[i])
      && p[|sha| + 3..] == w
  {
    if |sha| >= 4 {
      assert Take(sha, 2) == sha[..2];
      assert Take(Drop(sha, 2), 2) == sha[2..4];
      assert Drop(sha, 4) == sha[4..];
      assert sha[..2] + sha[2..4] + sha[4..] == sha;
      SlashedLayout(sha[..2], sha[2..4], sha[4..], w);
    }
  }

  /** Two two-character pieces and a rest, joined by slashes and an
      underscore: where each piece's characters land. */
  lemma SlashedLayout(x: string, y: string, z: string, w: string)
    requires |x| == 2 && |y| == 2
    ensures var p := x + "/" + y + "/" + z + "_" + w;
      && |p| == |z| + 7 + |w|
      && p[2] == '/' && p[5] == '/' && p[|z| + 6] == '_'
      && (forall i :: 0 <= i < |x + y + z| ==> p[ShaPos(i)] == (x + y + z)[i])
      && p[|z| + 7..] == w
  {
    var p := x + "/" + y + "/" + z + "_" + w;
    forall i | 0 <= i < |x + y + z| ensures p[ShaPos(i)] == (x + y + z)[i] {
      if i >= 4 {
        assert p[i + 2] == z[i - 4];
      }
    }
  }

  /** The pool path keeps the first four digits as two directory levels
      and the file name with the rest of the checksum in front. */
  lemma PoolPathParts(sha: string, filename: string)
    requires |sha| >= 4 && '/' !in sha
    ensures DirName(PoolPath(sha, filename)) == sha[..2] + "/" + sha[2..4]
    ensures BaseName(PoolPath(sha, filename)) == sha[4..] + "_" + BaseName(filename)
  {
    var d := sha[..2] + "/" + sha[2..4];
    var f := sha[4..] + "_" + BaseName(filename);
    PoolPathSplits(sha, filename);
    assert d[|d| - 1] == sha[3];
    NoSlashJoined(sha[4..], BaseName(filename));
    DirBaseRoundTrip(d, f);
  }

  /** Joining two slash-free texts with "_" gives a slash-free text. */
  lemma NoSlashJoined(x: string, y: string)
    requires '/' !in x && '/' !in y
    ensures '/' !in x + "_" + y
  {
    var f := x + "_" + y;
    forall i | 0 <= i < |f| ensures f[i] != '/' {
      if i < |x| {
        assert f[i] == x[i];
      } else if i > |x| {
        assert f[i] == y[i - |x| - 1];
      }
    }
  }

  /** The pool path as a directory and a file name, once the checksum
      is long enough for no slice to clip. */
  lemma PoolPathSplits(sha: string, filename: string)
    requires |sha| >= 4
    ensures PoolPath(sha, filename) == (sha[..2] + "/" + sha[2..4]) + "/" + (sha[4..] + "_" + BaseName(filename))
  {
    assert Take(sha, 2) == sha[..2];
    assert Take(Drop(sha, 2), 2) == sha[2..4];
    assert Drop(sha, 4) == sha[4..];
  }

  /** Checksums of one length give the same pool path only when they are
      equal and the files have the same base name. */
  lemma PoolPathInjective(sha1: string, f1: string, sha2: string, f2: string)
    requires |sha1| == |sha2| >= 4
    requires PoolPath(sha1, f1) == PoolPath(sha2, f2)
    ensures sha1 == sha2 && BaseName(f1) == BaseName(f2)
  {
    PoolPathHolds(sha1, f1);
    PoolPathHolds(sha2, f2);
    ChecksumDetermined(PoolPath(sha1, f1), sha1, sha2);
  }

  lemma PoolPathHolds(sha: string, filename: string)
    requires |sha| >= 4
    ensures HoldsChecksum(PoolPath(sha, filename), sha)
    ensures PoolPath(sha, filename)[|sha| + 3..] == BaseName(filename)
  {
  }

  /** Where a pool path holds a checksum, it holds one checksum of each length. */
  lemma ChecksumDetermined(p: string, sha1: string, sha2: string)
    requires |sha1| == |sha2| && HoldsChecksum(p, sha1) && HoldsChecksum(p, sha2)
    ensures sha1 == sha2
  {
    forall i | 0 <= i < |sha1| ensures sha1[i] == sha2[i] {
      assert sha1[i] == p[ShaPos(i)] == sha2[i];
    }
  }

  /** The character `.replace('+', '_').replace('~', '_')` puts in place of `c`. */
  function Plain(c: char): char {
    if c == '+' || c == '~' then '_' else c
  }

  /** The pool path with every '+' and '~' turned into '_'. */
  function Sanitize(p: string): (r: string)
    ensures r == MapChars(p, Plain)
    ensures '+' !in r && '~' !in r
  {
    ReplaceCharMaps(p, '+', '_');
    var q := Replace(p, "+", "_");
    ReplaceCharMaps(q, '~', '_');
    var r := Replace(q, "~", "_");
    assert forall i :: 0 <= i < |p| ==> r[i] == Plain(p[i]);
    r
  }

  /** Two pool paths share a branch exactly when they differ only in
      where they hold '+', '~' or '_'. */
  lemma SanitizeEqual(p: string, q: string)
    ensures Sanitize(p) == Sanitize(q) <==> |p| == |q| && forall i :: 0 <= i < |p| ==> Plain(p[i]) == Plain(q[i])
  {
    MapCharsEqual(p, q, Plain);
  }

  const PoolPrefix: string := "deb/pool/"

  /** `ref_base`: the branch prefix of everything made from one package. */
  function RefBase(pool: string): (r: string)
    ensures |r| == |PoolPrefix| + |pool| && PoolPrefix <= r
    ensures r[|PoolPrefix|..] == MapChars(pool, Plain)
  {
    PoolPrefix + Sanitize(pool)
  }

  /** A checksum whose characters sanitizing leaves alone, as hex digits are. */
  predicate PlainText(s: string) {
    forall i :: 0 <= i < |s| ==> s[i] != '+' && s[i] != '~'
  }

  /** `p` holds the characters of `sha` where a pool path puts them. */
  predicate HoldsChecksum(p: string, sha: string) {
    |sha| + 3 <= |p| && forall i :: 0 <= i < |sha| ==> p[ShaPos(i)] == sha[i]
  }

  /** The `i`-th character of a ref base is the sanitized `i`-th
      character of the pool path. */
  lemma RefBaseAt(pool: string, i: nat)
    requires i < |pool|
    ensures |RefBase(pool)| == |PoolPrefix| + |pool|
    ensures RefBase(pool)[|PoolPrefix| + i] == Plain(pool[i])
  {
  }

  /** Ref bases keep checksum characters that sanitizing leaves alone. */
  lemma RefBaseKeepsChecksum(sha1: string, p1: string, sha2: string, p2: string)
    requires |sha1| == |sha2| && PlainText(sha1) && PlainText(sha2)
    requires HoldsChecksum(p1, sha1) && HoldsChecksum(p2, sha2)
    requires RefBase(p1) == RefBase(p2)
    ensures sha1 == sha2
  {
    BranchesDiffer(sha1, p1, sha2, p2, "", "");
    assert RefBase(p1) + "" == RefBase(p1) && RefBase(p2) + "" == RefBase(p2);
  }

  /** Distinct checksums of one length give distinct ref bases, whatever
      the files are called. */
  lemma RefBaseSeparatesChecksums(sha1: string, f1: string, sha2: string, f2: string)
    requires |sha1| == |sha2| >= 4 && PlainText(sha1) && PlainText(sha2)
    requires RefBase(PoolPath(sha1, f1)) == RefBase(PoolPath(sha2, f2))
    ensures sha1 == sha2
  {
    PoolPathHolds(sha1, f1);
    PoolPathHolds(sha2, f2);
    RefBaseKeepsChecksum(sha1, PoolPath(sha1, f1), sha2, PoolPath(sha2, f2));
  }

  /** Swapping one character for another that sanitizes the same way
      leaves the ref base unchanged. */
  lemma RefBaseSwap(h: string, a: char, b: char, t: string)
    requires Plain(a) == Plain(b)
    ensures RefBase(h + [a] + t) == RefBase(h + [b] + t)
  {
    var p, q := h + [a] + t, h + [b] + t;
    forall i | 0 <= i < |p| ensures Plain(p[i]) == Plain(q[i]) {
      if i < |h| {
        assert p[i] == h[i] == q[i];
      } else if i > |h| {
        assert p[i] == t[i - |h| - 1] == q[i];
      }
    }
    SanitizeEqual(p, q);
  }

  /** Two files whose names differ only in '+' against '~' share a ref
      base: "a+1" and "a~1" both become "a_1". */
  lemma RefBaseConflates(sha: string, dir: string)
    ensures RefBase(PoolPath(sha, dir + "/a+1")) == RefBase(PoolPath(sha, dir + "/a~1"))
  {
    var head := Take(sha, 2) + "/" + Take(Drop(sha, 2), 2) + "/" + Drop(sha, 4) + "_";
    assert PoolPath(sha, dir + "/a+1") == head + "a" + ['+'] + "1" by {
      assert dir + "/a+1" == dir + "/" + "a+1";
      BaseNameAfterSlash(dir, "a+1");
      assert "a+1" == "a" + ['+'] + "1";
    }
    assert PoolPath(sha, dir + "/a~1") == head + "a" + ['~'] + "1" by {
      assert dir + "/a~1" == dir + "/" + "a~1";
      BaseNameAfterSlash(dir, "a~1");
      assert "a~1" == "a" + ['~'] + "1";
    }
    RefBaseSwap(head + "a", '+', '~', "1");
  }

  lemma BaseNameAfterSlash(dir: string, name: string)
    requires '/' !in name
    ensures BaseName(dir + "/" + name) == name
  {
    var p := dir + "/" + name;
    assert p[|dir|] == '/';
    assert p[|dir| + 1..] == name;
    forall i | |dir| + 1 <= i < |p| ensures p[i] != '/' {
      assert p[i] == name[i - |dir| - 1];
    }
  }

  // ---------------------------------------------------------------------
  // Quirks (apt.py:556-578)

  /** Versions of pylint that sort below this need the byte-compile fix. */
  const PylintFixed: string := "2.1.1-2"

  /** `fix_package`'s test: pylint below 2.1.1-2 in Python's string order,
      which is not Debian's version order. */
  predicate NeedsPylintFix(name: string, version: string) {
    name == "pylint" && Less(version, PylintFixed)
  }

  /** `fix_package(pkgname, version, data)`, on the data branch: the quirk
      commits to the branch with "-fixed" appended. */
  function FixPackage(name: string, version: string, data: string): (r: string)
    ensures data <= r
    ensures r == data <==> !NeedsPylintFix(name, version)
    ensures r != data ==> r[|data|..] == "-fixed"
  {
    if NeedsPylintFix(name, version) then data + "-fixed" else data
  }

  /** The quirk is downward closed in string order: a pylint version
      below one that gets the fix gets it too, and the threshold itself
      does not. */
  lemma FixDownwardClosed(v1: string, v2: string, data: string)
    requires Less(v1, v2)
    ensures FixPackage("pylint", v2, data) != data ==> FixPackage("pylint", v1, data) == data + "-fixed"
    ensures FixPackage("pylint", PylintFixed, data) == data
  {
    if Less(v2, PylintFixed) {
      LessTransitive(v1, v2, PylintFixed);
    }
    LessIrreflexive(PylintFixed);
  }

  /** The comparison is on strings: 1.8.3-1 and also 2.1.1-10 and 10.0-1
      get the fix, 2.1.1-2 and 2.2.0-1 do not, and no other package is
      touched. */
  lemma PylintVersions(data: string, other: string, version: string)
    requires other != "pylint"
    ensures FixPackage("pylint", "1.8.3-1", data) == data + "-fixed"
    ensures FixPackage("pylint", "2.1.1-10", data) == data + "-fixed"
    ensures FixPackage("pylint", "10.0-1", data) == data + "-fixed"
    ensures FixPackage("pylint", "2.1.1-2", data) == data
    ensures FixPackage("pylint", "2.2.0-1", data) == data
    ensures FixPackage(other, version, data) == data
  {
    LessIrreflexive(PylintFixed);
  }

  // ---------------------------------------------------------------------
  // The branches of one package (apt.py:496-522)

  /** What the build of one package names: its checksum and file, the
      branches of its unpacked data (after usrmove and quirks) and of its
      dpkg metadata, and the status and available files, which lie under
      the `$builddir` directory. */
  datatype Deb = Deb(
    sha: string,
    filename: string,
    pool: string,
    refBase: string,
    data: string,
    info: string,
    status: string,
    available: string)

  /** One iteration of the package loop, with `unquote` standing for URL
      decoding. The fields Filename, SHA256, Package and Version are read
      in that order; the first one missing raises KeyError. */
  function PackageDeb(pkg: Packages.Record, usrmove: bool, unquote: string -> string): (r: Result<Deb>)
    ensures r.Ok? <==> "Filename" in pkg && "SHA256" in pkg && "Package" in pkg && "Version" in pkg
    ensures "Filename" !in pkg ==> r == Err(KeyMissing("Filename"))
    ensures "Filename" in pkg && "SHA256" !in pkg ==> r == Err(KeyMissing("SHA256"))
    ensures "Filename" in pkg && "SHA256" in pkg && "Package" !in pkg ==> r == Err(KeyMissing("Package"))
    ensures "Filename" in pkg && "SHA256" in pkg && "Package" in pkg && "Version" !in pkg ==> r == Err(KeyMissing("Version"))
    ensures r.Ok? ==> var d := r.value;
      && d.sha == pkg["SHA256"] && d.filename == unquote(pkg["Filename"])
      && d.pool == PoolPath(d.sha, d.filename)
      && d.refBase == RefBase(d.pool)
      && d.data == d.refBase + "/data" + (if usrmove then "-usrmove" else "")
                   + (if NeedsPylintFix(pkg["Package"], pkg["Version"]) then "-fixed" else "")
      && d.info == d.refBase + "/info"
      && d.status == d.refBase + "/status" && d.available == d.refBase + "/available"
  {
    if "Filename" !in pkg then Err(KeyMissing("Filename"))
    else if "SHA256" !in pkg then Err(KeyMissing("SHA256"))
    else
      var filename := unquote(pkg["Filename"]);
      var sha := pkg["SHA256"];
      var pool := PoolPath(sha, filename);
      var base := RefBase(pool);
      var data := if usrmove then base + "/data" + "-usrmove" else base + "/data";
      if "Package" !in pkg then Err(KeyMissing("Package"))
      else if "Version" !in pkg then Err(KeyMissing("Version"))
      else
        var fixed := FixPackage(pkg["Package"], pkg["Version"], data);
        DataBranch(base, usrmove, pkg["Package"], pkg["Version"]);
        Ok(Deb(sha, filename, pool, base, fixed, base + "/info", base + "/status", base + "/available"))
  }

  /** The data branch: `/data` under the ref base, then `-usrmove` and
      `-fixed` as they apply. */
  lemma DataBranch(base: string, usrmove: bool, name: string, version: string)
    ensures FixPackage(name, version, if usrmove then base + "/data" + "-usrmove" else base + "/data")
         == base + "/data" + (if usrmove then "-usrmove" else "") + (if NeedsPylintFix(name, version) then "-fixed" else "")
  {
    var data := if usrmove then base + "/data" + "-usrmove" else base + "/data";
    assert data == base + "/data" + (if usrmove then "-usrmove" else "");
    var r := FixPackage(name, version, data);
    if NeedsPylintFix(name, version) {
      assert r == data + "-fixed";
    } else {
      assert data + "" == data;
    }
  }

  /** The names of one package hang together: the pool path holds the
      checksum, and every branch and file sits under the ref base. */
  predicate WellNamed(d: Deb) {
    && HoldsChecksum(d.pool, d.sha)
    && d.refBase == RefBase(d.pool)
    && d.refBase <= d.data
    && d.info == d.refBase + "/info"
    && d.status == d.refBase + "/status"
    && d.available == d.refBase + "/available"
  }

  lemma PackageDebWellNamed(pkg: Packages.Record, usrmove: bool, unquote: string -> string)
    requires PackageDeb(pkg, usrmove, unquote).Ok? && |pkg["SHA256"]| >= 4
    ensures WellNamed(PackageDeb(pkg, usrmove, unquote).value)
  {
    var d := PackageDeb(pkg, usrmove, unquote).value;
    DerivedWellNamed(d, if usrmove then "-usrmove" else "",
                     if NeedsPylintFix(pkg["Package"], pkg["Version"]) then "-fixed" else "");
  }

  /** A package whose branches are derived from the ref base of its pool
      path is well named. */
  lemma DerivedWellNamed(d: Deb, usrmove: string, fixed: string)
    requires |d.sha| >= 4 && d.pool == PoolPath(d.sha, d.filename) && d.refBase == RefBase(d.pool)
    requires d.data == d.refBase + "/data" + usrmove + fixed && d.info == d.refBase + "/info"
    requires d.status == d.refBase + "/status" && d.available == d.refBase + "/available"
    ensures WellNamed(d)
  {
    DataUnderRefBase(d.refBase, usrmove, fixed);
  }

  /** A data branch starts with its ref base. */
  lemma DataUnderRefBase(refBase: string, usrmove: string, fixed: string)
    ensures refBase <= refBase + "/data" + usrmove + fixed
  {
    assert (refBase + "/data" + usrmove + fixed)[..|refBase|] == refBase;
  }

  /** Packages with distinct checksums of one length never share a
      branch or a metadata file. */
  lemma DebsSeparate(da: Deb, db: Deb)
    requires WellNamed(da) && WellNamed(db)
    requires |da.sha| == |db.sha| && PlainText(da.sha) && PlainText(db.sha) && da.sha != db.sha
    ensures da.data != db.data && da.info != db.info
    ensures da.status != db.status && da.available != db.available
  {
    DataSeparate(da, db);
    UnderDistinctBases(da, db, "/info", "/info");
    UnderDistinctBases(da, db, "/status", "/status");
    UnderDistinctBases(da, db, "/available", "/available");
  }

  lemma DataSeparate(da: Deb, db: Deb)
    requires WellNamed(da) && WellNamed(db)
    requires |da.sha| == |db.sha| && PlainText(da.sha) && PlainText(db.sha) && da.sha != db.sha
    ensures da.data != db.data
  {
    var j := RefBasesDiffer(da.sha, da.pool, db.sha, db.pool);
    PrefixesDiffer(da.refBase, db.refBase, da.data, db.data, j);
  }

  lemma UnderDistinctBases(da: Deb, db: Deb, u: string, v: string)
    requires WellNamed(da) && WellNamed(db)
    requires |da.sha| == |db.sha| && PlainText(da.sha) && PlainText(db.sha) && da.sha != db.sha
    ensures da.refBase + u != db.refBase + v
  {
    BranchesDiffer(da.sha, da.pool, db.sha, db.pool, u, v);
  }

  /** Two packages of a lockfile with distinct checksums get distinct
      branches. */
  lemma PackageBranchesSeparate(a: Packages.Record, b: Packages.Record, usrmove: bool, unquote: string -> string)
    requires PackageDeb(a, usrmove, unquote).Ok? && PackageDeb(b, usrmove, unquote).Ok?
    requires |a["SHA256"]| == |b["SHA256"]| >= 4 && PlainText(a["SHA256"]) && PlainText(b["SHA256"])
    requires a["SHA256"] != b["SHA256"]
    ensures PackageDeb(a, usrmove, unquote).value.data != PackageDeb(b, usrmove, unquote).value.data
    ensures PackageDeb(a, usrmove, unquote).value.info != PackageDeb(b, usrmove, unquote).value.info
  {
    PackageDebWellNamed(a, usrmove, unquote);
    PackageDebWellNamed(b, usrmove, unquote);
    DebsSeparate(PackageDeb(a, usrmove, unquote).value, PackageDeb(b, usrmove, unquote).value);
  }

  /** Branches under the ref bases of distinct checksums differ. */
  lemma BranchesDiffer(sha1: string, p1: string, sha2: string, p2: string, u: string, v: string)
    requires |sha1| == |sha2| && PlainText(sha1) && PlainText(sha2)
    requires HoldsChecksum(p1, sha1) && HoldsChecksum(p2, sha2)
    ensures sha1 != sha2 ==> RefBase(p1) + u != RefBase(p2) + v
  {
    if sha1 != sha2 {
      var j := RefBasesDiffer(sha1, p1, sha2, p2);
      PrefixesDiffer(RefBase(p1), RefBase(p2), RefBase(p1) + u, RefBase(p2) + v, j);
    }
  }

  /** Where the ref bases of distinct checksums differ: at the first
      checksum character that differs. */
  lemma RefBasesDiffer(sha1: string, p1: string, sha2: string, p2: string) returns (j: nat)
    requires |sha1| == |sha2| && PlainText(sha1) && PlainText(sha2) && sha1 != sha2
    requires HoldsChecksum(p1, sha1) && HoldsChecksum(p2, sha2)
    ensures j < |RefBase(p1)| && j < |RefBase(p2)| && RefBase(p1)[j] != RefBase(p2)[j]
  {
    var k := FirstDifference(sha1, sha2);
    RefBaseAt(p1, ShaPos(k));
    RefBaseAt(p2, ShaPos(k));
    j := |PoolPrefix| + ShaPos(k);
  }

  lemma PrefixesDiffer(a: string, b: string, x: string, y: string, j: nat)
    requires a <= x && b <= y && j < |a| && j < |b| && a[j] != b[j]
    ensures x != y
  {
    assert x[j] == a[j] && y[j] == b[j];
  }

  /** The first position where two strings of one length differ. */
  function FirstDifference(x: string, y: string): (i: nat)
    requires x != y && |x| == |y|
    ensures i < |x| && x[i] != y[i]
  {
    if x[0] != y[0] then 0
    else
      assert x == [x[0]] + x[1..] && y == [y[0]] + y[1..];
      1 + FirstDifference(x[1..], y[1..])
  }

  // ---------------------------------------------------------------------
  // The packages of a lockfile (apt.py:495-527)

  /** The packages of every record `parse_packages` yields, in order. A
      record missing a field raises as soon as it is yielded, before the
      parser reaches a malformed line further on. */
  function LockfileDebs(lines: seq<string>, usrmove: bool, unquote: string -> string): (r: Result<seq<Deb>>)
    ensures var p := Packages.ParsePackages(lines);
      r.Ok? <==> p.error.None? && forall i :: 0 <= i < |p.records| ==> PackageDeb(p.records[i], usrmove, unquote).Ok?
    ensures var p := Packages.ParsePackages(lines);
      r.Ok? ==> |r.value| == |p.records|
                && forall i :: 0 <= i < |p.records| ==> r.value[i] == PackageDeb(p.records[i], usrmove, unquote).value
    ensures var p := Packages.ParsePackages(lines);
      r.Err? && (forall i :: 0 <= i < |p.records| ==> PackageDeb(p.records[i], usrmove, unquote).Ok?)
      ==> r.error == p.error.value
    ensures var p := Packages.ParsePackages(lines);
      r.Err? && (exists i :: 0 <= i < |p.records| && PackageDeb(p.records[i], usrmove, unquote).Err?) ==>
        exists k :: 0 <= k < |p.records| && PackageDeb(p.records[k], usrmove, unquote) == Err(r.error)
                    && forall j :: 0 <= j < k ==> PackageDeb(p.records[j], usrmove, unquote).Ok?
  {
    var p := Packages.ParsePackages(lines);
    var m := PackageDebs(p.records, usrmove, unquote);
    if m.Err? || p.error.None? then m else Err(p.error.value)
  }

  /** The packages of the records in order, or the KeyError of the first
      record missing a field. */
  function PackageDebs(records: seq<Packages.Record>, usrmove: bool, unquote: string -> string): (r: Result<seq<Deb>>)
    ensures r.Ok? <==> forall i :: 0 <= i < |records| ==> PackageDeb(records[i], usrmove, unquote).Ok?
    ensures r.Ok? ==> |r.value| == |records|
                      && forall i :: 0 <= i < |records| ==> r.value[i] == PackageDeb(records[i], usrmove, unquote).value
    ensures r.Err? ==> exists k :: 0 <= k < |records| && PackageDeb(records[k], usrmove, unquote) == Err(r.error)
                                   && forall j :: 0 <= j < k ==> PackageDeb(records[j], usrmove, unquote).Ok?
  {
    MapAll(records, pkg => PackageDeb(pkg, usrmove, unquote))
  }

  /** A lockfile written as well-formed stanzas gives one package per
      stanza, in order. */
  lemma LockfileOfStanzas(stanzas: seq<Packages.Stanza>, usrmove: bool, unquote: string -> string)
    requires forall k :: 0 <= k < |stanzas| ==> Packages.GoodStanza(stanzas[k])
    ensures var r := LockfileDebs(Packages.Render(stanzas), usrmove, unquote);
      var records := Packages.Records(stanzas);
      && (r.Ok? <==> forall i :: 0 <= i < |records| ==> PackageDeb(records[i], usrmove, unquote).Ok?)
      && (r.Ok? ==> |r.value| == |stanzas|)
  {
    Packages.ParseRender(stanzas);
    RecordsLength(stanzas);
  }

  lemma {:induction false} RecordsLength(stanzas: seq<Packages.Stanza>)
    ensures |Packages.Records(stanzas)| == |stanzas|
    decreases |stanzas|
  {
    if |stanzas| > 0 {
      RecordsLength(stanzas[1..]);
    }
  }

  // ---------------------------------------------------------------------
  // Stage one: the unpacked image (apt.py:479-554)

  /** `lockfile.replace('/', '_')`. */
  function Digest(lockfile: string): (r: string)
    ensures r == MapChars(lockfile, c => if c == '/' then '_' else c)
    ensures '/' !in r
  {
    ReplaceCharMaps(lockfile, '/', '_');
    Replace(lockfile, "/", "_")
  }

  /** Two lockfiles share their images exactly when they differ only in
      where they hold '/' or '_': "a/b" and "a_b" collide. */
  lemma DigestEqual(x: string, y: string)
    ensures Digest(x) == Digest(y) <==> |x| == |y| && forall i :: 0 <= i < |x| ==>
              (if x[i] == '/' then '_' else x[i]) == (if y[i] == '/' then '_' else y[i])
  {
    MapCharsEqual(x, y, c => if c == '/' then '_' else c);
  }

  const ImagesPrefix: string := "deb/images/"

  /** `deb/images/<digest>/<leaf>`. */
  function ImageBranch(digest: string, leaf: string): (b: string)
    ensures |b| == |ImagesPrefix| + |digest| + 1 + |leaf|
    ensures ImagesPrefix <= b && b[|ImagesPrefix| + |digest|] == '/'
  {
    ImagesPrefix + digest + "/" + leaf
  }

  /** For digests without a slash, an image branch names its digest and
      leaf back: distinct lockfile digests or leaves give distinct
      branches. */
  lemma ImageBranchInjective(d1: string, l1: string, d2: string, l2: string)
    requires '/' !in d1 && '/' !in d2
    requires ImageBranch(d1, l1) == ImageBranch(d2, l2)
    ensures d1 == d2 && l1 == l2
  {
    var b := ImageBranch(d1, l1);
    assert b == (ImagesPrefix + d1) + "/" + l1 == (ImagesPrefix + d2) + "/" + l2;
    assert b[|ImagesPrefix| + |d1|] == '/' && b[|ImagesPrefix| + |d2|] == '/';
    assert d1 == b[|ImagesPrefix|..|ImagesPrefix| + |d1|] == d2;
    assert l1 == b[|ImagesPrefix| + |d1| + 1..] == l2;
  }

  /** The file listing the mirrors to download packages from. */
  const MirrorsList: string := "_build/deb_pool_mirrors"

  /** The stage-one image: the dpkg base for the architecture, the
      packages, the four combined branches, the stage-one branch and the
      phony target that names it. `inputs` are the branches combined into
      stage one, in the order they are passed. */
  datatype Image = Image(
    base: string,
    debs: seq<Deb>,
    dataCombined: string,
    infoCombined: string,
    status: string,
    available: string,
    unpacked: string,
    inputs: seq<string>,
    phony: string)

  /** `image_from_lockfile(lockfile, architecture, usrmove)`, with the
      answers of the operating system to the two `open` calls as
      parameters and `lines` standing for the lockfile's contents. A
      lockfile that does not exist yet stands for one without packages;
      any other failure to read it raises. */
  function ImageFromLockfile(
    w: Ninja.Writer, lockfile: string, architecture: Option<string>, usrmove: bool,
    mirrorsFile: Ninja.FileOutcome, lockFile: Ninja.FileOutcome, lines: seq<string>,
    unquote: string -> string): (s: Ninja.Step<Image>)
    ensures s.writer.targets == w.targets + {MirrorsList}
    ensures s.writer.globals == w.globals && s.writer.rules == w.rules && s.writer.edges == w.edges
    ensures mirrorsFile.Raised? ==> s.result == Err(IOFailure(MirrorsList, mirrorsFile.errno))
    ensures mirrorsFile.Opened? && lockFile.Raised? && lockFile.errno != Ninja.ENOENT ==>
              s.result == Err(IOFailure(lockfile, lockFile.errno))
    ensures mirrorsFile.Opened? && lockFile.Raised? && lockFile.errno == Ninja.ENOENT ==>
              s.result.Ok? && s.result.value.debs == []
    ensures mirrorsFile.Opened? && lockFile.Opened? ==>
              (s.result.Ok? <==> LockfileDebs(lines, usrmove, unquote).Ok?)
              && (s.result.Ok? ==> s.result.value.debs == LockfileDebs(lines, usrmove, unquote).value)
              && (s.result.Err? ==> s.result.error == LockfileDebs(lines, usrmove, unquote).error)
    ensures s.result.Ok? ==> var img := s.result.value; var d := Digest(lockfile);
      && img.base == "deb/dpkg-base/" + (if architecture.Some? then architecture.value else "amd64")
      && img.dataCombined == ImageBranch(d, "data_combined")
      && img.infoCombined == ImageBranch(d, "info_combined")
      && img.status == ImageBranch(d, "status")
      && img.available == ImageBranch(d, "available")
      && img.unpacked == ImageBranch(d, "unpacked")
      && img.inputs == [img.base, img.infoCombined, img.status, img.available, img.dataCombined]
      && img.phony == "unpacked-image-for-" + lockfile
  {
    var arch := if architecture.Some? then architecture.value else "amd64";
    var s1 := Ninja.Open(w, MirrorsList, "w", mirrorsFile);
    if s1.result.Err? then Ninja.Step(s1.writer, Err(s1.result.error))
    else
      var s2 := Ninja.Open(s1.writer, lockfile, "r", lockFile);
      var debs :=
        if s2.result.Ok? then LockfileDebs(lines, usrmove, unquote)
        else if s2.result.error.IOFailure? && s2.result.error.errno == Ninja.ENOENT then Ok([])
        else Err(s2.result.error);
      match debs
      case Err(e) => Ninja.Step(s2.writer, Err(e))
      case Ok(ds) =>
        var d := Digest(lockfile);
        var base := "deb/dpkg-base/" + arch;
        var img := Image(base, ds, ImageBranch(d, "data_combined"), ImageBranch(d, "info_combined"),
                         ImageBranch(d, "status"), ImageBranch(d, "available"), ImageBranch(d, "unpacked"),
                         [base, ImageBranch(d, "info_combined"), ImageBranch(d, "status"),
                          ImageBranch(d, "available"), ImageBranch(d, "data_combined")],
                         "unpacked-image-for-" + lockfile);
        Ninja.Step(s2.writer, Ok(img))
  }

  /** Reading the lockfile makes the configure step depend on it; a
      missing lockfile makes it depend on the directory it will appear
      in, so that configure reruns once the lockfile is written. */
  lemma LockfileWatched(w: Ninja.Writer, dir: string, name: string, architecture: Option<string>, usrmove: bool,
                        lines: seq<string>, unquote: string -> string)
    requires '/' !in name && |dir| > 0 && dir[|dir| - 1] != '/'
    ensures var s := ImageFromLockfile(w, dir + "/" + name, architecture, usrmove, Ninja.Opened, Ninja.Opened, lines, unquote);
      s.writer.generatorDeps == w.generatorDeps + {Ninja.DepName(dir + "/" + name)}
    ensures var s := ImageFromLockfile(w, dir + "/" + name, architecture, usrmove, Ninja.Opened, Ninja.Raised(Ninja.ENOENT), lines, unquote);
      && s.writer.generatorDeps == w.generatorDeps + {Ninja.DepName(dir)}
      && s.result.Ok? && s.result.value.debs == []
  {
    LockfileWatchedPresent(w, dir + "/" + name, architecture, usrmove, lines, unquote);
    LockfileWatchedMissing(w, dir, name, architecture, usrmove, lines, unquote);
  }

  lemma LockfileWatchedPresent(w: Ninja.Writer, lockfile: string, architecture: Option<string>,
                               usrmove: bool, lines: seq<string>, unquote: string -> string)
    ensures var s := ImageFromLockfile(w, lockfile, architecture, usrmove, Ninja.Opened, Ninja.Opened, lines, unquote);
      s.writer.generatorDeps == w.generatorDeps + {Ninja.DepName(lockfile)}
  {
    var s1 := Ninja.Open(w, MirrorsList, "w", Ninja.Opened);
    assert s1.writer.generatorDeps == w.generatorDeps;
  }

  lemma LockfileWatchedMissing(w: Ninja.Writer, dir: string, name: string, architecture: Option<string>,
                               usrmove: bool, lines: seq<string>, unquote: string -> string)
    requires '/' !in name && |dir| > 0 && dir[|dir| - 1] != '/'
    ensures var s := ImageFromLockfile(w, dir + "/" + name, architecture, usrmove, Ninja.Opened, Ninja.Raised(Ninja.ENOENT), lines, unquote);
      && s.writer.generatorDeps == w.generatorDeps + {Ninja.DepName(dir)}
      && s.result.Ok? && s.result.value.debs == []
  {
    var s1 := Ninja.Open(w, MirrorsList, "w", Ninja.Opened);
    assert s1.writer.generatorDeps == w.generatorDeps;
    Ninja.OpenMissingWatchesDir(s1.writer, dir, name, "r");
  }

  // ---------------------------------------------------------------------
  // Stage two: the configured image (apt.py:404-425)

  /** The emulator an armhf image is configured under. */
  const Qemu: string := "/usr/bin/qemu-arm-static"

  /** The `dpkg_configure` build of stage two: the branch it reads, the
      branch it writes, its order-only inputs and the bind mount that
      makes the emulator available. */
  datatype Configure = Configure(inBranch: string, outBranch: string, orderOnly: seq<string>, binfmtMiscSupport: string)

  /** The architectures whose images can be configured on the build host. */
  function Configurable(architecture: string): (b: bool)
    ensures b <==> architecture in {"armhf", "amd64", "i686"}
    // of the architectures the main archive serves, only amd64 has a second stage
    ensures b && Apt.ArchiveFor(architecture) == Apt.ArchiveFor("amd64") ==> architecture == "amd64"
  {
    architecture == "armhf" || architecture == "amd64" || architecture == "i686"
  }

  /** `second_stage(unpacked, architecture, branch)` on the stage-one
      branch. Without an explicit branch the stage-one branch must
      mention "unpacked", which is checked before the architecture. */
  function SecondStage(unpacked: string, architecture: string, branch: Option<string>): (r: Result<Configure>)
    ensures r.Ok? <==> (branch.Some? || Contains(unpacked, "unpacked")) && Configurable(architecture)
    ensures branch.None? && !Contains(unpacked, "unpacked") ==> r == Err(NotUnpacked(unpacked))
    ensures (branch.Some? || Contains(unpacked, "unpacked")) && !Configurable(architecture) ==>
              r == Err(UnsupportedArchitecture(architecture))
    ensures r.Ok? ==> r.value.inBranch == unpacked
    ensures r.Ok? && branch.Some? ==> r.value.outBranch == branch.value
    ensures r.Ok? && branch.None? ==> Contains(r.value.outBranch, "configured")
    ensures r.Ok? && branch.None? ==> r.value.outBranch == Replace(unpacked, "unpacked", "configured")
    ensures r.Ok? && architecture == "armhf" ==>
              r.value.orderOnly == [Qemu] && r.value.binfmtMiscSupport == "--ro-bind " + Qemu + " " + Qemu
    ensures r.Ok? && architecture != "armhf" ==> r.value.orderOnly == [] && r.value.binfmtMiscSupport == ""
  {
    if branch.None? && !Contains(unpacked, "unpacked") then Err(NotUnpacked(unpacked))
    else
      var out := if branch.Some? then branch.value else Replace(unpacked, "unpacked", "configured");
      if architecture == "armhf" then
        Ok(Configure(unpacked, out, [Qemu], "--ro-bind " + Qemu + " " + Qemu))
      else if architecture in ["amd64", "i686"] then Ok(Configure(unpacked, out, [], ""))
      else Err(UnsupportedArchitecture(architecture))
  }

  /** After a slash, a word without a slash is replaced where it starts:
      no occurrence can begin earlier. */
  lemma ReplaceAfterSlash(p: string, t: string, b: string, leaf: string)
    requires |p| > 0 && p[|p| - 1] == '/' && |t| > 0 && '/' !in t && !Contains(p, t)
    ensures Replace(p + t + b, t, leaf) == p + leaf + Replace(b, t, leaf)
  {
    forall k | 0 < k < |t| ensures !Overlaps(p, t, k) {
      if k <= |p| {
        assert t[..k][k - 1] == t[k - 1] && t[k - 1] in t;
        assert p[|p| - k..][k - 1] == p[|p| - 1];
      }
    }
    FindAfter(p, t, b);
    ReplaceAt(p + t + b, t, leaf, |p|);
    assert (p + t + b)[..|p|] == p && (p + t + b)[|p| + |t|..] == b;
  }

  /** The stage-one branch of a digest that does not mention "unpacked"
      holds the word once, as its leaf: renaming it names the sibling
      branch of the same digest. */
  lemma RenameLeaf(d: string, leaf: string)
    requires '/' !in d && !Contains(d, "unpacked")
    ensures Replace(ImageBranch(d, "unpacked"), "unpacked", leaf) == ImageBranch(d, leaf)
  {
    var t := "unpacked";
    var r := ImagesPrefix + d + "/";
    assert 'u' !in "deb/images" && '/' !in t;
    MissingFirstChar("deb/images", t);
    GlueFree("deb/images", '/', d, t);
    MissingFirstChar("", t);
    GlueFree("deb/images" + "/" + d, '/', "", t);
    assert r == "deb/images" + "/" + d + "/" + "";
    ReplaceAfterSlash(r, t, "", leaf);
    assert ImageBranch(d, t) == r + t + "";
  }

  /** `replace` renames every occurrence, not just the leaf: when the
      digest is the word itself, both the digest and the leaf change. */
  lemma RenameEveryOccurrence(t: string, leaf: string)
    requires |t| > 0 && '/' !in t && t[0] !in ImagesPrefix
    ensures Replace(ImageBranch(t, t), t, leaf) == ImageBranch(leaf, leaf)
  {
    RenameDigestAndLeaf(t, leaf);
  }

  /** The same on the spelled-out branch. */
  lemma RenameDigestAndLeaf(t: string, leaf: string)
    requires |t| > 0 && '/' !in t && t[0] !in ImagesPrefix
    ensures Replace(ImagesPrefix + t + "/" + t, t, leaf) == ImagesPrefix + leaf + "/" + leaf
  {
    assert Replace(ImagesPrefix + t + "/" + t, t, leaf) == ImagesPrefix + leaf + Replace("/" + t, t, leaf) by {
      MissingFirstChar(ImagesPrefix, t);
      assert ImagesPrefix + t + "/" + t == ImagesPrefix + t + ("/" + t);
      ReplaceAfterSlash(ImagesPrefix, t, "/" + t, leaf);
    }
    RenameAfterSlash(t, leaf);
    assert ImagesPrefix + leaf + "/" + leaf == ImagesPrefix + leaf + ("/" + leaf);
  }

  lemma RenameAfterSlash(t: string, leaf: string)
    requires |t| > 0 && '/' !in t
    ensures Replace("/" + t, t, leaf) == "/" + leaf
  {
    MissingFirstChar("/", t);
    assert "/" + t == "/" + t + "";
    ReplaceAfterSlash("/", t, "", leaf);
    assert Replace("", t, leaf) == "";
  }

  /** The lockfile "unpacked" configures into
      "deb/images/configured/configured". */
  lemma RenameEverywhere()
    ensures Replace(ImageBranch("unpacked", "unpacked"), "unpacked", "configured")
         == ImageBranch("configured", "configured")
  {
    RenameEveryOccurrence("unpacked", "configured");
  }

  /** The lockfile "unpacked": its stage-one branch configures into
      "deb/images/configured/configured", since every occurrence of the
      word is renamed, the digest's as well as the leaf. */
  lemma SecondStageRenamesDigest(architecture: string)
    requires Configurable(architecture)
    ensures var r := SecondStage(ImageBranch("unpacked", "unpacked"), architecture, None);
      r.Ok? && r.value.outBranch == ImageBranch("configured", "configured")
  {
    UnpackedLeaf("unpacked");
    RenameEverywhere();
  }

  /** Ubuntu's archive serves i386, but its images cannot be configured;
      i686 can be configured, but no Ubuntu archive calls an architecture
      that. */
  lemma ArchitectureGap(unpacked: string, branch: Option<string>)
    ensures Apt.ArchiveFor("i386") == Apt.ArchiveUrl
    ensures SecondStage(unpacked, "i386", branch).Err?
    ensures Apt.ArchiveFor("i686") == Apt.PortsUrl
    ensures branch.Some? ==> SecondStage(unpacked, "i686", branch).Ok?
  {
  }

  // ---------------------------------------------------------------------
  // The lockfile rule (apt.py:427-477)

  /** The state the `Apt` object keeps between calls. */
  datatype AptState = AptState(debPoolMirrors: seq<string>, archiveUrls: set<string>, updateRules: set<string>)

  /** What a method of the `Apt` object leaves behind: the writer, the
      object's state, and the result or exception. */
  datatype Outcome<+T> = Outcome(writer: Ninja.Writer, state: AptState, result: Result<T>)

  /** The `update_lockfile` build: the bindings it is given and the phony
      target it makes. */
  datatype LockfileRule = LockfileRule(
    lockfile: string,
    packages: seq<string>,
    createMirrors: string,
    mirrors: string,
    architecture: string,
    keyringArgs: set<string>,
    target: string)

  /** `"mirror-%i" % n`. */
  function MirrorName(n: nat): string {
    "mirror-" + DecimalString(n)
  }

  function MirrorNames(n: nat): (r: seq<string>)
    ensures |r| == n && forall i :: 0 <= i < n ==> r[i] == MirrorName(i)
  {
    seq(n, i requires 0 <= i => MirrorName(i))
  }

  /** The comma-joined mirror list splits back into the names, and the
      names are pairwise distinct. */
  lemma MirrorsRoundTrip(n: nat)
    requires n > 0
    ensures Split(Join(MirrorNames(n), ","), ",") == MirrorNames(n)
    ensures forall i, j :: 0 <= i < j < n ==> MirrorNames(n)[i] != MirrorNames(n)[j]
  {
    var names := MirrorNames(n);
    forall i | 0 <= i < n ensures ',' !in names[i] {
      var digits := DecimalString(i);
      assert names[i] == "mirror-" + digits;
      assert forall k :: 0 <= k < |digits| ==> digits[k] != ',';
    }
    SplitJoinChar(names, ',');
    forall i, j | 0 <= i < j < n ensures names[i] != names[j] {
      if names[i] == names[j] {
        assert DecimalString(i) == names[i][7..] == names[j][7..] == DecimalString(j);
        DecimalInjective(i, j);
      }
    }
  }

  /** The archives of the sources. */
  function ArchiveUrls(sources: seq<Apt.AptSource>): (r: set<string>)
    ensures forall i :: 0 <= i < |sources| ==> sources[i].archiveUrl in r
    ensures forall u :: u in r ==> exists i :: 0 <= i < |sources| && sources[i].archiveUrl == u
  {
    set i | 0 <= i < |sources| :: sources[i].archiveUrl
  }

  const DirVariable: string := Apt.DirVariable

  /** The `-keyring=` arguments of every source, with the placeholder
      replaced by `thisDir`, the directory of the program. */
  function KeyringArgs(sources: seq<Apt.AptSource>, thisDir: string): (r: set<string>)
    ensures forall i, k :: 0 <= i < |sources| && k in sources[i].keyrings ==>
              "-keyring=" + Replace(k, DirVariable, thisDir) in r
    ensures forall a :: a in r ==>
              exists i, k :: 0 <= i < |sources| && k in sources[i].keyrings && a == "-keyring=" + Replace(k, DirVariable, thisDir)
    ensures forall a :: a in r ==> "-keyring=" <= a
  {
    set i, k | 0 <= i < |sources| && k in sources[i].keyrings :: "-keyring=" + Replace(k, DirVariable, thisDir)
  }

  /** A keyring path under the placeholder becomes a path under the
      directory of the program. */
  lemma KeyringUnderDir(rest: string, thisDir: string)
    requires '$' !in rest
    ensures Replace(DirVariable + "/" + rest, DirVariable, thisDir) == thisDir + "/" + rest
  {
    var t := DirVariable;
    MissingFirstChar("", t);
    MissingFirstChar("/" + rest, t);
    FindAfter("", t, "/" + rest);
    assert DirVariable + "/" + rest == "" + t + ("/" + rest);
    ReplaceAt("" + t + ("/" + rest), t, thisDir, 0);
    assert ("" + t + ("/" + rest))[|t|..] == "/" + rest;
  }

  /** Every keyring of an Ubuntu source is a listed file under the
      placeholder, so its `-keyring=` argument names that file under the
      program's directory. */
  lemma UbuntuKeyringArgs(release: string, architecture: string, present: string -> bool,
                          listing: string -> seq<string>, thisDir: string, i: nat, j: nat)
    requires forall d, f :: f in listing(d) ==> '$' !in f
    requires var r := Apt.UbuntuAptSources(release, architecture, present, listing);
      r.Ok? && i < |r.value| && j < |r.value[i].keyrings|
    ensures var r := Apt.UbuntuAptSources(release, architecture, present, listing);
      exists f :: '$' !in f && r.value[i].keyrings[j] == DirVariable + "/" + f
                 && "-keyring=" + thisDir + "/" + f in KeyringArgs(r.value, thisDir)
  {
    var r := Apt.UbuntuAptSources(release, architecture, present, listing);
    var f := Apt.UbuntuKeyringFile(release, architecture, present, listing, i, j);
    var k := r.value[i].keyrings[j];
    KeyringArgUnderDir(f, thisDir);
    assert k in r.value[i].keyrings;
    assert "-keyring=" + Replace(k, DirVariable, thisDir) in KeyringArgs(r.value, thisDir);
  }

  /** The `-keyring=` argument for a file under the placeholder. */
  lemma KeyringArgUnderDir(f: string, thisDir: string)
    requires '$' !in f
    ensures "-keyring=" + Replace(DirVariable + "/" + f, DirVariable, thisDir) == "-keyring=" + thisDir + "/" + f
  {
    KeyringUnderDir(f, thisDir);
    assert "-keyring=" + (thisDir + "/" + f) == "-keyring=" + thisDir + "/" + f;
  }

  const CreateMirrorsPrefix: string := "_build/apt/lockfile/create_mirrors-"

  /** `"update-lockfile-$lockfile"` with the lockfile put in. */
  function UpdateTarget(lockfile: string): string {
    "update-lockfile-" + lockfile
  }

  /** `generate_lockfile(lockfile, packages, apt_sources)`. `thisDir` is
      the directory of the program relative to the working directory,
      `hexdigest` the SHA-256 of the sources, and `script` the answer of
      the operating system to opening the mirror-creation script. The
      archives are recorded before anything can fail; the first source
      gives the architecture, so an empty source list raises IndexError
      once the script is written. */
  function GenerateLockfile(
    w: Ninja.Writer, st: AptState, lockfile: string, packages: seq<string>, sources: seq<Apt.AptSource>,
    thisDir: string, hexdigest: string, script: Ninja.FileOutcome): (o: Outcome<LockfileRule>)
    ensures o.state.debPoolMirrors == st.debPoolMirrors
    ensures o.state.archiveUrls == st.archiveUrls + ArchiveUrls(sources)
    ensures o.writer.targets == w.targets + {CreateMirrorsPrefix + Take(hexdigest, 7)}
    ensures o.writer.edges == w.edges && o.writer.globals == w.globals
    ensures o.result.Ok? <==> script.Opened? && |sources| > 0
    ensures script.Raised? ==> o.result == Err(IOFailure(CreateMirrorsPrefix + Take(hexdigest, 7), script.errno))
    ensures script.Opened? && |sources| == 0 ==> o.result == Err(IndexOutOfRange)
    ensures o.result.Err? ==> o.state.updateRules == st.updateRules
    ensures o.result.Ok? ==> var l := o.result.value;
      && l.lockfile == lockfile
      && Sorted(l.packages) && multiset(l.packages) == multiset(packages)
      && l.createMirrors == CreateMirrorsPrefix + Take(hexdigest, 7)
      && Split(l.mirrors, ",") == MirrorNames(|sources|)
      && l.architecture == sources[0].architecture
      && l.keyringArgs == KeyringArgs(sources, thisDir)
      && l.target == UpdateTarget(lockfile)
      && o.state.updateRules == st.updateRules + {UpdateTarget(lockfile)}
  {
    var st' := st.(archiveUrls := st.archiveUrls + ArchiveUrls(sources));
    var script' := CreateMirrorsPrefix + Take(hexdigest, 7);
    var s := Ninja.Open(w, script', "w", script);
    if s.result.Err? then Outcome(s.writer, st', Err(s.result.error))
    else if |sources| == 0 then Outcome(s.writer, st', Err(IndexOutOfRange))
    else
      MirrorsRoundTrip(|sources|);
      var rule := LockfileRule(lockfile, Sort(packages), script', Join(MirrorNames(|sources|), ","),
                               sources[0].architecture, KeyringArgs(sources, thisDir), UpdateTarget(lockfile));
      Outcome(s.writer, st'.(updateRules := st'.updateRules + {rule.target}), Ok(rule))
  }

  /** The packages handed to the rule are exactly what `sorted()`
      returns, whatever order the caller listed them in. */
  lemma LockfilePackagesCanonical(
    w: Ninja.Writer, st: AptState, lockfile: string, p1: seq<string>, p2: seq<string>, sources: seq<Apt.AptSource>,
    thisDir: string, hexdigest: string)
    requires |sources| > 0 && multiset(p1) == multiset(p2)
    ensures GenerateLockfile(w, st, lockfile, p1, sources, thisDir, hexdigest, Ninja.Opened).result
         == GenerateLockfile(w, st, lockfile, p2, sources, thisDir, hexdigest, Ninja.Opened).result
  {
    SortedUnique(Sort(p1), Sort(p2));
  }

  /** `write_phony_rules()`: one phony target that updates every lockfile,
      with the set of update targets listed in `order`. */
  function WritePhonyRules(w: Ninja.Writer, st: AptState, order: seq<string>): (s: Ninja.Step<seq<string>>)
    requires Ninja.Enumerates(order, st.updateRules)
    ensures s.result == Ok(["update-apt-lockfiles"])
    ensures s.writer.targets == w.targets + {"update-apt-lockfiles"}
    ensures |s.writer.edges| == |w.edges| + 1
    ensures var e := s.writer.edges[|w.edges|];
      e.rule == "phony" && e.outputs == ["update-apt-lockfiles"] && Ninja.Enumerates(e.inputs, st.updateRules)
  {
    Ninja.Build(w, Ninja.SimpleEdge(["update-apt-lockfiles"], "phony", order))
  }

  /** After a lockfile's rule is generated, the phony target that updates
      all lockfiles depends on it. */
  lemma PhonyUpdatesLockfile(
    w: Ninja.Writer, st: AptState, lockfile: string, packages: seq<string>, sources: seq<Apt.AptSource>,
    thisDir: string, hexdigest: string, order: seq<string>)
    requires |sources| > 0
    requires Ninja.Enumerates(order, GenerateLockfile(w, st, lockfile, packages, sources, thisDir, hexdigest, Ninja.Opened).state.updateRules)
    ensures var o := GenerateLockfile(w, st, lockfile, packages, sources, thisDir, hexdigest, Ninja.Opened);
      var s := WritePhonyRules(o.writer, o.state, order);
      UpdateTarget(lockfile) in s.writer.edges[|o.writer.edges|].inputs
  {
    var o := GenerateLockfile(w, st, lockfile, packages, sources, thisDir, hexdigest, Ninja.Opened);
    var s := WritePhonyRules(o.writer, o.state, order);
    assert UpdateTarget(lockfile) in Vars.Elems(s.writer.edges[|o.writer.edges|].inputs);
  }

  // ---------------------------------------------------------------------
  // Building an image (apt.py:375-402)

  /** What the host answers while an image is planned: the directory of
      the program, the digest of the sources, the outcomes of opening the
      mirror script, the mirror list and the lockfile, the lockfile's
      lines, and URL decoding. */
  datatype Host = Host(
    thisDir: string,
    hexdigest: string,
    script: Ninja.FileOutcome,
    mirrorsFile: Ninja.FileOutcome,
    lockFile: Ninja.FileOutcome,
    lines: seq<string>,
    unquote: string -> string)

  /** The host opens every file and the lockfile has no lines. */
  predicate Quiet(h: Host) {
    h.script.Opened? && h.mirrorsFile.Opened? && h.lockFile.Opened? && h.lines == []
  }

  /** `"apt2ostree-%i" % n`: the sources-list name of the `n`-th source. */
  function AptBaseName(n: nat): string {
    "apt2ostree-" + DecimalString(n)
  }

  /** Stage two and the complete image, when they are asked for. */
  datatype Finish = Finish(configure: Configure, complete: string, phony: string)

  /** Everything `build_image` names: the lockfile rule, stage one, the
      sources-list names and, unless only unpacking, stage two and the
      complete image. */
  datatype Built = Built(lock: LockfileRule, stage1: Image, aptBases: seq<string>, finish: Option<Finish>)

  /** The part of `build_image` after stage one when more than unpacking
      is asked for: configure stage one, then combine it with the sources
      lists into the branch that says "complete" where stage one says
      "unpacked". */
  function StageTwo(unpacked: string, architecture: string, lockfile: string): (r: Result<Finish>)
    ensures r.Ok? <==> SecondStage(unpacked, architecture, None).Ok?
    ensures r.Err? ==> r.error == SecondStage(unpacked, architecture, None).error
    ensures r.Ok? ==> && r.value.configure == SecondStage(unpacked, architecture, None).value
                      && Contains(r.value.complete, "complete")
                      && r.value.complete == Replace(unpacked, "unpacked", "complete")
                      && r.value.phony == "image-for-" + lockfile
  {
    match SecondStage(unpacked, architecture, None)
    case Err(e) => Err(e)
    case Ok(c) => Ok(Finish(c, Replace(unpacked, "unpacked", "complete"), "image-for-" + lockfile))
  }

  /** `build_image(lockfile, packages, apt_sources, unpack_only, usrmove)`.
      The lockfile rule comes first, so an empty source list raises there;
      the first source's architecture is the image's. */
  function BuildImage(
    w: Ninja.Writer, st: AptState, lockfile: string, packages: seq<string>, sources: seq<Apt.AptSource>,
    unpackOnly: bool, usrmove: bool, h: Host): (o: Outcome<Built>)
    ensures o.state.archiveUrls == st.archiveUrls + ArchiveUrls(sources)
    ensures h.script.Opened? && |sources| == 0 ==> o.result == Err(IndexOutOfRange)
    ensures o.result.Ok? ==> |sources| > 0
    ensures o.result.Ok? ==> var b := o.result.value;
      && b.stage1.base == "deb/dpkg-base/" + sources[0].architecture
      && b.stage1.unpacked == ImageBranch(Digest(lockfile), "unpacked")
      && |b.aptBases| == |sources| && (forall i :: 0 <= i < |sources| ==> b.aptBases[i] == AptBaseName(i))
      && (b.finish.None? <==> unpackOnly)
    ensures o.result.Ok? && !unpackOnly ==>
              StageTwo(o.result.value.stage1.unpacked, sources[0].architecture, lockfile) == Ok(o.result.value.finish.value)
  {
    var g := GenerateLockfile(w, st, lockfile, packages, sources, h.thisDir, h.hexdigest, h.script);
    if g.result.Err? then Outcome(g.writer, g.state, Err(g.result.error))
    else
      var arch := sources[0].architecture;
      var i := ImageFromLockfile(g.writer, lockfile, Some(arch), usrmove, h.mirrorsFile, h.lockFile, h.lines, h.unquote);
      if i.result.Err? then Outcome(i.writer, g.state, Err(i.result.error))
      else
        var stage1 := i.result.value;
        var bases := seq(|sources|, n requires 0 <= n => AptBaseName(n));
        if unpackOnly then Outcome(i.writer, g.state, Ok(Built(g.result.value, stage1, bases, None)))
        else
          match StageTwo(stage1.unpacked, arch, lockfile)
          case Err(e) => Outcome(i.writer, g.state, Err(e))
          case Ok(f) => Outcome(i.writer, g.state, Ok(Built(g.result.value, stage1, bases, Some(f))))
  }

  /** Stage one always mentions "unpacked". */
  lemma UnpackedMentioned(lockfile: string)
    ensures Contains(ImageBranch(Digest(lockfile), "unpacked"), "unpacked")
  {
    UnpackedLeaf(Digest(lockfile));
  }

  /** A branch whose leaf is "unpacked" mentions the word. */
  lemma UnpackedLeaf(d: string)
    ensures Contains(ImageBranch(d, "unpacked"), "unpacked")
  {
    var b := ImageBranch(d, "unpacked");
    assert OccursAt(b, "unpacked", |ImagesPrefix + d + "/"|);
  }

  /** When every file opens and the lockfile is empty, a build with at
      least one source fails only for an architecture that cannot be
      configured, and only when more than unpacking is asked for. */
  lemma BuildImageSucceeds(
    w: Ninja.Writer, st: AptState, lockfile: string, packages: seq<string>, sources: seq<Apt.AptSource>,
    unpackOnly: bool, usrmove: bool, h: Host)
    requires Quiet(h) && |sources| > 0
    ensures var o := BuildImage(w, st, lockfile, packages, sources, unpackOnly, usrmove, h);
      && (o.result.Ok? <==> unpackOnly || Configurable(sources[0].architecture))
      && (o.result.Err? ==> o.result.error == UnsupportedArchitecture(sources[0].architecture))
  {
    UnpackedMentioned(lockfile);
  }

  /** For a lockfile whose digest does not mention "unpacked", the image
      goes through three sibling branches: unpacked, configured and
      complete. */
  lemma BuildImageBranches(
    w: Ninja.Writer, st: AptState, lockfile: string, packages: seq<string>, sources: seq<Apt.AptSource>,
    usrmove: bool, h: Host)
    requires !Contains(Digest(lockfile), "unpacked")
    requires BuildImage(w, st, lockfile, packages, sources, false, usrmove, h).result.Ok?
    ensures var b := BuildImage(w, st, lockfile, packages, sources, false, usrmove, h).result.value;
      && b.stage1.unpacked == ImageBranch(Digest(lockfile), "unpacked")
      && b.finish.value.configure.inBranch == ImageBranch(Digest(lockfile), "unpacked")
      && b.finish.value.configure.outBranch == ImageBranch(Digest(lockfile), "configured")
      && b.finish.value.complete == ImageBranch(Digest(lockfile), "complete")
  {
    RenameLeaf(Digest(lockfile), "configured");
    RenameLeaf(Digest(lockfile), "complete");
  }

  /** The sources-list names are pairwise distinct. */
  lemma AptBaseNamesDistinct(m: nat, n: nat)
    requires AptBaseName(m) == AptBaseName(n)
    ensures m == n
  {
    assert DecimalString(m) == AptBaseName(m)[11..] == AptBaseName(n)[11..] == DecimalString(n);
    DecimalInjective(m, n);
  }

  /** An i386 image can be unpacked but not configured. */
  lemma I386StopsAtStageOne(
    w: Ninja.Writer, st: AptState, lockfile: string, packages: seq<string>, sources: seq<Apt.AptSource>,
    usrmove: bool, h: Host)
    requires Quiet(h) && |sources| > 0 && sources[0].architecture == "i386"
    ensures BuildImage(w, st, lockfile, packages, sources, true, usrmove, h).result.Ok?
    ensures BuildImage(w, st, lockfile, packages, sources, false, usrmove, h).result
         == Err(UnsupportedArchitecture("i386"))
  {
    BuildImageSucceeds(w, st, lockfile, packages, sources, true, usrmove, h);
    BuildImageSucceeds(w, st, lockfile, packages, sources, false, usrmove, h);
  }

  // ---------------------------------------------------------------------
  // The `Apt` object (apt.py:353-373)

  /** `Apt(ninja, deb_pool_mirrors, apt_should_mirror)`, with `aptPy` the
      path of the module: it records whether packages are mirrored, makes
      configure depend on the module, and marks the repository's config
      and objects as build products. The repository must already be a
      global. */
  function NewApt(w: Ninja.Writer, debPoolMirrors: Option<seq<string>>, shouldMirror: bool, aptPy: string): (s: Ninja.Step<AptState>)
    ensures s.result.Ok? <==> ("ostree_repo" in w.globals
              && !("apt_should_mirror" in w.globals && w.globals["apt_should_mirror"] != (if shouldMirror then "True" else "False")))
    ensures s.result.Ok? ==> var repo := w.globals["ostree_repo"];
      && s.writer.targets == w.targets + {repo + "/config", repo + "/objects"}
      && s.writer.generatorDeps == w.generatorDeps + {Ninja.DepName(aptPy)}
      && s.writer.globals == w.globals["apt_should_mirror" := if shouldMirror then "True" else "False"]
      && s.result.value == AptState(if debPoolMirrors.Some? then debPoolMirrors.value else [], {}, {})
    ensures s.result.Err? && "ostree_repo" in w.globals ==>
              s.result.error == ConflictingGlobal("apt_should_mirror", if shouldMirror then "True" else "False")
  {
    var flag := if shouldMirror then "True" else "False";
    var v := Ninja.Variable(w, "apt_should_mirror", flag, 0);
    if v.result.Err? then Ninja.Step(v.writer, Err(v.result.error))
    else RepoProducts(Ninja.AddGeneratorDep(v.writer, aptPy), debPoolMirrors)
  }

  /** The rest of `Apt.__init__`: the repository's config and objects
      become build products; the repository must be a global. */
  function RepoProducts(w: Ninja.Writer, debPoolMirrors: Option<seq<string>>): (s: Ninja.Step<AptState>)
    ensures s.result.Ok? <==> "ostree_repo" in w.globals
    ensures s.result.Err? ==> s.result.error == KeyMissing("ostree_repo")
    ensures s.writer.globals == w.globals && s.writer.generatorDeps == w.generatorDeps
    ensures s.result.Ok? ==> var repo := w.globals["ostree_repo"];
      && s.writer.targets == w.targets + {repo + "/config", repo + "/objects"}
      && s.result.value == AptState(if debPoolMirrors.Some? then debPoolMirrors.value else [], {}, {})
  {
    if "ostree_repo" !in w.globals then Ninja.Step(w, Err(KeyMissing("ostree_repo")))
    else
      var repo := w.globals["ostree_repo"];
      var t := Ninja.AddTargets(w, [repo + "/config", repo + "/objects"]);
      assert t.result.Ok?;
      Ninja.Step(t.writer, Ok(AptState(if debPoolMirrors.Some? then debPoolMirrors.value else [], {}, {})))
  }

  // ---------------------------------------------------------------------
  // The sources-list rule (apt.py:84-96)

  const ArgsDigest: string := "_args_digest"
  const AptBaseDir: string := Ostree.Sep + "deb/apt_base/"

  /** `$ostree_repo/refs/heads/deb/apt_base/$_args_digest`. */
  const AptBaseOutput: string := Vars.Template("", [Vars.Cut(Ostree.Repo, AptBaseDir), Vars.Cut(ArgsDigest, "")])

  lemma AptBaseOutputVars()
    ensures Vars.VarsInText(AptBaseOutput) == {Ostree.Repo, ArgsDigest}
  {
    AptBaseCutsGood();
    Vars.TwoCutVars(Ostree.Repo, AptBaseDir, ArgsDigest);
  }

  lemma AptBaseCutsGood()
    ensures Vars.GoodCut(Vars.Cut(Ostree.Repo, AptBaseDir), false)
    ensures Vars.GoodCut(Vars.Cut(ArgsDigest, ""), true)
  {
    Ostree.NoDollarConcat(Ostree.Sep, "deb/apt_base/");
    assert AptBaseDir[0] == '/' && AptBaseDir[|AptBaseDir| - 1] == '/';
  }

  /** The bindings `build_image` gives each sources-list build. */
  predicate SourcesListCall(c: Ninja.Call) {
    c.bindings.Keys == {"archive_url", "components", "architecture", "distribution", "name"}
  }

  /** The sources-list rule names its output after `_args_digest`, which
      `build_image` does not bind: unless that name is a global, every
      such build raises TypeError naming it. */
  lemma AptBaseNeedsArgsDigest(w: Ninja.Writer, r: Ninja.Rule, c: Ninja.Call, e: Ninja.Expander)
    requires r.outputs == Vars.List([AptBaseOutput])
    requires r.name !in w.rules || w.rules[r.name] == r.Body()
    requires SourcesListCall(c) && ArgsDigest !in w.globals
    ensures var s := Ninja.RuleBuild(w, r, c, e);
      s.result.Err? && s.result.error.MissingArguments? && ArgsDigest in s.result.error.names
  {
    AptBaseInContract(r);
    SourcesListLeavesDigest(c);
    Ninja.RuleBuildMissing(w, r, c, e, ArgsDigest);
  }

  lemma SourcesListLeavesDigest(c: Ninja.Call)
    requires SourcesListCall(c)
    ensures ArgsDigest !in c.bindings && ArgsDigest !in Ninja.AutoVars
  {
  }

  lemma AptBaseInContract(r: Ninja.Rule)
    requires r.outputs == Vars.List([AptBaseOutput])
    ensures ArgsDigest in r.Contract()
  {
    AptBaseOutputVars();
    assert ArgsDigest in Vars.VarsIn(r.outputs);
  }
}

=== FILE: ninja.dfy ===
/** The build-graph writer of `apt2ostree/ninja.py`.

    `Writer` is the bookkeeping the `Ninja` class keeps next to the text it
    emits: the global variables, the registered rules, every target and
    every file whose change must rerun the configure script, the `build`
    statements written so far and whether the output has been closed.
    Each writer method is a transition on that record. `Rule` is the
    template class: its variable contract and the validation and edge
    assembly of `Rule.build`. */
module Ninja {
  import opened Wrappers
  import opened Strings
  import opened Paths
  import opened Vars

  /** Variables ninja binds on every edge by itself (`NINJA_AUTO_VARS`). */
  const AutoVars: set<string> := {"in", "out"}

  const BuildDir: string := "_build"
  const NinjaFile: string := "build.ninja"

  /** `errno.ENOENT`. */
  const ENOENT: int := 2

  /** What the writer remembers of a `rule` call: the command (the only
      positional argument any caller passes) and the keyword arguments,
      `description` apart and the others (`restat`, `pool`, `generator`,
      ...) rendered as text. */
  datatype RuleBody = RuleBody(command: string, description: Option<string>, options: map<string, string>)

  /** One `build` statement as handed to the text writer. */
  datatype Edge = Edge(
    outputs: seq<string>,
    rule: string,
    inputs: seq<string>,
    implicit: seq<string>,
    orderOnly: seq<string>,
    implicitOutputs: seq<string>,
    pool: Option<string>,
    variables: map<string, string>)

  datatype Writer = Writer(
    globals: map<string, string>,
    rules: map<string, RuleBody>,
    targets: set<string>,
    generatorDeps: set<string>,
    edges: seq<Edge>,
    closed: bool)

  /** The writer after an operation, with what the operation returned or
      raised. The writer is kept on failure as well: whatever bookkeeping
      happened before the exception stays in place. */
  datatype Step<+T> = Step(writer: Writer, result: Result<T>)

  const Empty: Writer := Writer(map[], map[], {}, {}, [], false)

  /** Nothing recorded in `w` is lost or changed in `w'`: globals and rules
      keep their entries, targets and generator dependencies only grow,
      emitted edges are a prefix, and a closed writer stays closed. */
  predicate Extends(w: Writer, w': Writer) {
    (forall k :: k in w.globals ==> k in w'.globals && w'.globals[k] == w.globals[k])
    && (forall n :: n in w.rules ==> n in w'.rules && w'.rules[n] == w.rules[n])
    && w.targets <= w'.targets
    && w.generatorDeps <= w'.generatorDeps
    && w.edges <= w'.edges
    && (w.closed ==> w'.closed)
  }

  lemma ExtendsTransitive(a: Writer, b: Writer, c: Writer)
    requires Extends(a, b) && Extends(b, c)
    ensures Extends(a, c)
  {
  }

  // ---------------------------------------------------------------------
  // Writer transitions (ninja.py:69-121)

  /** `Ninja.variable(key, value, indent)`. At indent 0 the key is a global
      that can be set once; indented variables belong to the enclosing
      statement and are only written out. */
  function Variable(w: Writer, key: string, value: string, indent: nat): (s: Step<()>)
    ensures Extends(w, s.writer)
    ensures s.writer == w.(globals := s.writer.globals)
    ensures s.writer.globals.Keys == w.globals.Keys + (if indent == 0 then {key} else {})
    ensures s.result.Err? <==> indent == 0 && key in w.globals && w.globals[key] != value
    ensures s.result.Err? ==> s.writer == w && s.result.error == ConflictingGlobal(key, value)
    ensures s.result.Ok? && indent == 0 ==> s.writer.globals[key] == value
  {
    if indent == 0 then
      if key in w.globals then
        if value != w.globals[key] then Step(w, Err(ConflictingGlobal(key, value)))
        else Step(w, Ok(()))
      else Step(w.(globals := w.globals[key := value]), Ok(()))
    else Step(w, Ok(()))
  }

  /** `Ninja.rule(name, ...)`: the first registration of a name wins; a
      later one must carry the same body. */
  function RegisterRule(w: Writer, name: string, body: RuleBody): (s: Step<()>)
    ensures Extends(w, s.writer)
    ensures s.writer == w.(rules := s.writer.rules)
    ensures s.writer.rules.Keys == w.rules.Keys + {name}
    ensures s.writer.rules[name] == if name in w.rules then w.rules[name] else body
    ensures s.result.Err? <==> name in w.rules && w.rules[name] != body
    ensures s.result.Err? ==> s.result.error == RuleMismatch(name)
  {
    if name in w.rules then
      if w.rules[name] != body then Step(w, Err(RuleMismatch(name)))
      else Step(w, Ok(()))
    else Step(w.(rules := w.rules[name := body]), Ok(()))
  }

  /** `Ninja.add_target`: any non-empty file name. */
  function AddTarget(w: Writer, target: string): (s: Step<()>)
    ensures Extends(w, s.writer)
    ensures s.writer == w.(targets := s.writer.targets)
    ensures s.result.Err? <==> target == ""
    ensures s.result.Err? ==> s.writer == w && s.result.error == InvalidTarget(target)
    ensures s.result.Ok? ==> s.writer.targets == w.targets + {target}
  {
    if target == "" then Step(w, Err(InvalidTarget(target)))
    else Step(w.(targets := w.targets + {target}), Ok(()))
  }

  /** `add_target` on each name in turn, stopping at the first that fails. */
  function AddTargets(w: Writer, targets: seq<string>): (s: Step<()>)
    decreases |targets|
    ensures Extends(w, s.writer)
    ensures s.writer == w.(targets := s.writer.targets)
    ensures s.result.Err? <==> "" in targets
    ensures s.result.Err? ==> s.result.error == InvalidTarget("")
    ensures s.result.Ok? ==> s.writer.targets == w.targets + Elems(targets)
    ensures s.writer.targets <= w.targets + Elems(targets)
  {
    if |targets| == 0 then Step(w, Ok(()))
    else
      var s0 := AddTarget(w, targets[0]);
      if s0.result.Err? then s0
      else
        var s1 := AddTargets(s0.writer, targets[1..]);
        assert targets == [targets[0]] + targets[1..];
        assert Elems(targets) == {targets[0]} + Elems(targets[1..]);
        s1
  }

  /** The name `add_generator_dep` records for `filename`: a compiled
      module stands for its source. */
  function DepName(filename: string): (r: string)
    ensures !Contains(filename, ".pyc") ==> r == filename
  {
    Replace(filename, ".pyc", ".py")
  }

  /** `Ninja.add_generator_dep`. */
  function AddGeneratorDep(w: Writer, filename: string): (w': Writer)
    ensures Extends(w, w')
    ensures w' == w.(generatorDeps := w'.generatorDeps)
    ensures w'.generatorDeps == w.generatorDeps + {DepName(filename)}
  {
    w.(generatorDeps := w.generatorDeps + {DepName(filename)})
  }

  /** A file name without ".pyc" is recorded as given. */
  lemma DepNamePlain(filename: string)
    requires !Contains(filename, ".pyc")
    ensures DepName(filename) == filename
  {
  }

  /** The compiled module `stem.pyc` is recorded as its source `stem.py`. */
  lemma {:induction false} DepNameCompiled(stem: string)
    requires !Contains(stem, ".pyc")
    ensures DepName(stem + ".pyc") == stem + ".py"
  {
    var t := ".pyc";
    forall k | 0 < k < |t| ensures !Overlaps(stem, t, k) {
      assert t[k..][0] == t[k] && t[..|t| - k][0] == '.';
      assert t[k] != '.' by { assert k == 1 || k == 2 || k == 3; }
    }
    FindAfter(stem, t, "");
    assert stem + t + "" == stem + t;
    ReplaceAt(stem + t, t, ".py", |stem|);
    assert (stem + t)[..|stem|] == stem;
    assert (stem + t)[|stem| + |t|..] == "";
    assert Replace("", t, ".py") == "";
  }

  /** `Ninja.build`: every output becomes a target, then the statement is
      written. The text writer hands back the output list. */
  function Build(w: Writer, e: Edge): (s: Step<seq<string>>)
    ensures Extends(w, s.writer)
    ensures s.writer.globals == w.globals && s.writer.rules == w.rules
    ensures s.writer.generatorDeps == w.generatorDeps && s.writer.closed == w.closed
    ensures s.result.Err? <==> "" in e.outputs
    ensures s.result.Err? ==> s.writer.edges == w.edges && s.result.error == InvalidTarget("")
    ensures s.result.Ok? ==> s.result.value == e.outputs
    ensures s.result.Ok? ==> s.writer.targets == w.targets + Elems(e.outputs)
    ensures s.result.Ok? ==> s.writer.edges == w.edges + [e]
    ensures s.writer.targets <= w.targets + Elems(e.outputs)
  {
    var t := AddTargets(w, e.outputs);
    if t.result.Err? then Step(t.writer, Err(t.result.error))
    else Step(t.writer.(edges := t.writer.edges + [e]), Ok(e.outputs))
  }

  /** A build statement with only outputs, a rule and inputs. */
  function SimpleEdge(outputs: seq<string>, rule: string, inputs: seq<string>): Edge {
    Edge(outputs, rule, inputs, [], [], [], None, map[])
  }

  /** How the operating system answers an `open` call. */
  datatype FileOutcome = Opened | Raised(errno: int)

  /** The directory whose modification time changes when `filename` is
      created: `os.path.dirname(filename) or '.'`. */
  function WatchedDir(filename: string): (d: string)
    ensures d != ""
    ensures '/' !in filename ==> d == "."
  {
    if DirName(filename) == "" then "." else DirName(filename)
  }

  /** `Ninja.open(filename, mode)`, with the operating system's answer as
      a parameter. A file opened for writing is a target; a file read is a
      dependency of the configure step, and so is the directory of a file
      that does not exist yet. */
  function Open(w: Writer, filename: string, mode: string, outcome: FileOutcome): (s: Step<()>)
    ensures Extends(w, s.writer)
    ensures s.writer.globals == w.globals && s.writer.rules == w.rules
    ensures s.writer.edges == w.edges && s.writer.closed == w.closed
    ensures 'w' in mode && filename != "" ==> filename in s.writer.targets
    ensures s.writer.targets == if 'w' in mode && filename != "" then w.targets + {filename} else w.targets
    ensures 'w' in mode && filename == "" ==> s.writer == w && s.result == Err(InvalidTarget(""))
    ensures s.result.Ok? <==> (!('w' in mode) || filename != "") && outcome.Opened?
    ensures outcome.Raised? && !('w' in mode && filename == "") ==>
              s.result == Err(IOFailure(filename, outcome.errno))
    ensures s.writer.generatorDeps ==
              if 'r' !in mode || ('w' in mode && filename == "") then w.generatorDeps
              else match outcome
                case Opened => w.generatorDeps + {DepName(filename)}
                case Raised(e) => if e == ENOENT then w.generatorDeps + {DepName(WatchedDir(filename))}
                                  else w.generatorDeps
  {
    var s0 := if 'w' in mode then AddTarget(w, filename) else Step(w, Ok(()));
    if s0.result.Err? then s0
    else
      match outcome
      case Opened =>
        if 'r' in mode then Step(AddGeneratorDep(s0.writer, filename), Ok(()))
        else Step(s0.writer, Ok(()))
      case Raised(e) =>
        if 'r' in mode && e == ENOENT then
          Step(AddGeneratorDep(s0.writer, WatchedDir(filename)), Err(IOFailure(filename, e)))
        else Step(s0.writer, Err(IOFailure(filename, e)))
  }

  /** A file that is missing when read makes the configure step depend on
      the directory it would be created in. */
  lemma OpenMissingWatchesDir(w: Writer, dir: string, file: string, mode: string)
    requires '/' !in file && |dir| > 0 && dir[|dir| - 1] != '/'
    requires 'r' in mode && 'w' !in mode
    ensures var s := Open(w, dir + "/" + file, mode, Raised(ENOENT));
      && s.result == Err(IOFailure(dir + "/" + file, ENOENT))
      && s.writer == w.(generatorDeps := w.generatorDeps + {DepName(dir)})
  {
    DirBaseRoundTrip(dir, file);
  }

  /** A bare file name that is missing makes it depend on ".". */
  lemma OpenMissingWatchesCwd(w: Writer, file: string, mode: string)
    requires '/' !in file
    requires 'r' in mode && 'w' !in mode
    ensures var s := Open(w, file, mode, Raised(ENOENT));
      && s.result == Err(IOFailure(file, ENOENT))
      && s.writer == w.(generatorDeps := w.generatorDeps + {DepName(".")})
  {
  }

  /** `order` lists each element of `s` exactly once. Python's
      `list(set)` yields such a listing, in an order the language leaves
      open. */
  predicate Enumerates(order: seq<string>, s: set<string>) {
    (forall i, j :: 0 <= i < j < |order| ==> order[i] != order[j])
    && Elems(order) == s
  }

  /** The statement that reruns the configure script when any generator
      dependency changes. */
  function RegenerationEdge(deps: seq<string>): Edge {
    SimpleEdge([NinjaFile], "configure", deps)
  }

  /** `Ninja.close`, with the iteration order of the generator-dependency
      set as a parameter. */
  function Close(w: Writer, order: seq<string>): (w': Writer)
    requires Enumerates(order, w.generatorDeps)
    ensures Extends(w, w') && w'.closed
    ensures w.closed ==> w' == w
    ensures !w.closed ==> w'.edges == w.edges + [RegenerationEdge(order)]
    ensures !w.closed ==> w'.targets == w.targets + {NinjaFile}
    ensures w'.globals == w.globals && w'.rules == w.rules && w'.generatorDeps == w.generatorDeps
  {
    if w.closed then w
    else
      var s := Build(w, RegenerationEdge(order));
      s.writer.(closed := true)
  }

  /** Closing twice emits the regeneration statement once, whatever order
      the second close enumerates the dependencies in. */
  lemma CloseOnce(w: Writer, first: seq<string>, second: seq<string>)
    requires Enumerates(first, w.generatorDeps)
    requires Enumerates(second, w.generatorDeps)
    ensures Close(Close(w, first), second) == Close(w, first)
    ensures |Close(Close(w, first), second).edges| <= |w.edges| + 1
  {
  }

  /** The `configure` rule as registered: its command names the build
      directory through the `$builddir` variable, unexpanded. */
  const ConfigureBody: RuleBody := RuleBody("$builddir/reconfigure", None, map["generator" := "True"])

  /** A global keeps its first value: after setting `key` to `first`,
      setting it to `second` raises exactly when the two differ, and
      either way the stored value is still `first`. */
  lemma GlobalSetOnce(w: Writer, key: string, first: string, second: string)
    requires key !in w.globals
    ensures var w1 := Variable(w, key, first, 0).writer;
      var s2 := Variable(w1, key, second, 0);
      && (s2.result.Err? <==> first != second)
      && s2.writer == w1
      && s2.writer.globals[key] == first
  {
  }

  /** The first registration of a rule name wins: a second registration
      raises exactly when its body differs, and never replaces the first. */
  lemma RuleFirstWins(w: Writer, name: string, first: RuleBody, second: RuleBody)
    requires name !in w.rules
    ensures var w1 := RegisterRule(w, name, first).writer;
      var s2 := RegisterRule(w1, name, second);
      && (s2.result.Err? <==> first != second)
      && s2.writer == w1
      && s2.writer.rules[name] == first
  {
  }

  /** The bookkeeping of `Ninja.__init__`. The three arguments are the
      relative paths of ninja.py, of the `ninja_syntax` module and of
      ostree.py, which the writer depends on. */
  function Init(ninjaPy: string, syntaxPy: string, ostreePy: string): (s: Step<()>)
    ensures s.result.Ok?
    ensures s.writer.globals == map["builddir" := BuildDir]
    ensures s.writer.rules == map["configure" := RuleBody("$builddir/reconfigure", None, map["generator" := "True"])]
    ensures s.writer.targets ==
              {".FORCE", BuildDir + "/reconfigure", BuildDir + "/.ninja_deps", BuildDir + "/.ninja_log"}
    ensures s.writer.generatorDeps == {DepName(ninjaPy), DepName(syntaxPy), DepName(ostreePy)}
    ensures s.writer.edges == [SimpleEdge([".FORCE"], "phony", [])]
    ensures !s.writer.closed
  {
    var w2 := InitHead(ninjaPy, syntaxPy, ostreePy);
    var w3 := AddTarget(w2, BuildDir + "/reconfigure").writer;
    var w4 := RegisterRule(w3, "configure", ConfigureBody).writer;
    var w5 := AddTarget(w4, BuildDir + "/.ninja_deps").writer;
    var w6 := AddTarget(w5, BuildDir + "/.ninja_log").writer;
    Step(w6, Ok(()))
  }

  /** The first half of `Ninja.__init__`: the generator dependencies, the
      build directory and the always-dirty `.FORCE` target. */
  function InitHead(ninjaPy: string, syntaxPy: string, ostreePy: string): (w: Writer)
    ensures w.globals == map["builddir" := BuildDir] && w.rules == map[]
    ensures w.targets == {".FORCE"}
    ensures w.generatorDeps == {DepName(ninjaPy), DepName(syntaxPy), DepName(ostreePy)}
    ensures w.edges == [SimpleEdge([".FORCE"], "phony", [])] && !w.closed
  {
    var w0 := AddGeneratorDep(AddGeneratorDep(AddGeneratorDep(Empty, ninjaPy), syntaxPy), ostreePy);
    assert w0 == Empty.(generatorDeps := {DepName(ninjaPy), DepName(syntaxPy), DepName(ostreePy)});
    var w1 := w0.(globals := map["builddir" := BuildDir]);
    assert Variable(w0, "builddir", BuildDir, 0).writer == w1;
    var e := SimpleEdge([".FORCE"], "phony", []);
    var s2 := Build(w1, e);
    assert "" !in e.outputs && Elems(e.outputs) == {".FORCE"};
    s2.writer
  }

  // ---------------------------------------------------------------------
  // Rule templates (ninja.py:145-202)

  /** A rule template. `outputs` and `inputs` take the three shapes
      `vars_in` accepts; `options` are the extra keyword arguments passed
      on to `Ninja.rule`. */
  datatype Rule = Rule(
    name: string,
    command: string,
    outputs: Items,
    inputs: Items,
    description: string,
    orderOnly: seq<string>,
    implicit: seq<string>,
    options: map<string, string>)
  {
    /** `Rule.vars`: the names its command, inputs and outputs reference. */
    function Contract(): set<string> {
      VarsInText(command) + VarsIn(inputs) + VarsIn(outputs)
    }

    function Body(): RuleBody {
      RuleBody(command, Some(description), options)
    }
  }

  /** The description a rule gets when none is given: its name and each
      variable bound to itself, `name(a=$a, b=$b)`, listed in `order`. */
  function DefaultDescription(name: string, order: seq<string>): string {
    name + "(" + Join(Bindings(order), ", ") + ")"
  }

  function Bindings(order: seq<string>): (r: seq<string>)
    ensures |r| == |order|
    ensures forall i :: 0 <= i < |order| ==> r[i] == order[i] + "=$" + order[i]
  {
    if |order| == 0 then [] else [order[0] + "=$" + order[0]] + Bindings(order[1..])
  }

  /** `Rule.__init__`. `order` is the iteration order of the contract set,
      which only matters for the default description. */
  function MakeRule(
    name: string, command: string, outputs: Items, inputs: Items, description: Option<string>,
    orderOnly: Option<seq<string>>, implicit: Option<seq<string>>, options: map<string, string>,
    order: seq<string>): (r: Rule)
    requires description.None? ==> Enumerates(order, VarsInText(command) + VarsIn(inputs) + VarsIn(outputs))
    ensures forall n :: n in r.Contract() <==> n in VarsInText(command) || n in VarsIn(inputs) || n in VarsIn(outputs)
    ensures r.orderOnly == (if orderOnly.Some? then orderOnly.value else [])
    ensures r.implicit == (if implicit.Some? then implicit.value else [])
    ensures description.Some? ==> r.description == description.value
    ensures description.None? ==> r.description == DefaultDescription(name, order)
  {
    Rule(name, command, outputs, inputs,
         if description.Some? then description.value else DefaultDescription(name, order),
         if orderOnly.Some? then orderOnly.value else [],
         if implicit.Some? then implicit.value else [],
         options)
  }

  /** The keyword arguments of one `Rule.build` call; `bindings` are the
      extra ones, which bind the template's variables. */
  datatype Call = Call(
    outputs: seq<string>,
    inputs: seq<string>,
    implicit: seq<string>,
    orderOnly: seq<string>,
    implicitOutputs: seq<string>,
    pool: Option<string>,
    bindings: map<string, string>)

  /** Independent statement of what a build of a template accepts: every
      contract variable is bound by the call, a global or ninja itself, and
      the call binds nothing the contract does not mention. */
  predicate Accepts(contract: set<string>, globals: set<string>, bound: set<string>) {
    (forall n :: n in contract ==> n in bound || n in globals || n in AutoVars)
    && (forall n :: n in bound ==> n in contract)
  }

  /** The argument check of `Rule.build`: missing names are reported
      first, unexpected names second. */
  function Validate(rule: string, contract: set<string>, globals: set<string>, bound: set<string>): (r: Result<()>)
    ensures r.Ok? <==> Accepts(contract, globals, bound)
    ensures r.Err? && r.error.MissingArguments? ==>
              r.error == MissingArguments(rule, r.error.names) && r.error.names != {}
              && forall n :: n in r.error.names <==> n in contract && n !in bound && n !in globals && n !in AutoVars
    ensures r.Err? && r.error.UnexpectedArguments? ==>
              (forall n :: n in contract ==> n in bound || n in globals || n in AutoVars)
              && r.error == UnexpectedArguments(rule, r.error.names) && r.error.names != {}
              && forall n :: n in r.error.names <==> n in bound && n !in contract
    ensures r.Err? ==> r.error.MissingArguments? || r.error.UnexpectedArguments?
  {
    var missing := contract - bound - globals - AutoVars;
    if missing != {} then Err(MissingArguments(rule, missing))
    else if bound - contract != {} then Err(UnexpectedArguments(rule, bound - contract))
    else
      assert forall n :: n in bound ==> n !in bound - contract;
      Ok(())
  }

  /** The template texts `Rule.build` iterates over: a list's items, or a
      single string's characters, as Python iterates a `str`. */
  function Texts(items: Items): (ts: seq<string>)
    ensures items.List? ==> ts == items.texts
    ensures items.Absent? ==> ts == []
    ensures items.Single? ==> |ts| == |items.text| && forall i :: 0 <= i < |ts| ==> ts[i] == [items.text[i]]
  {
    match items
    case Absent => []
    case Single(t) => seq(|t|, i requires 0 <= i < |t| => [t[i]])
    case List(ts) => ts
  }

  /** `ninja_syntax.expand(text, globals, bindings)`, which is not part of
      this model, enters as a parameter. */
  type Expander = (string, map<string, string>, map<string, string>) -> string

  function ExpandAll(ts: seq<string>, e: Expander, globals: map<string, string>, bindings: map<string, string>): (r: seq<string>)
    ensures |r| == |ts|
    ensures forall i :: 0 <= i < |ts| ==> r[i] == e(ts[i], globals, bindings)
  {
    seq(|ts|, i requires 0 <= i < |ts| => e(ts[i], globals, bindings))
  }

  /** The `build` statement `Rule.build` assembles once the arguments are
      accepted: the caller's outputs followed by the expanded template
      outputs; the caller's inputs followed by the expanded template inputs
      and the expanded template implicit inputs; the template's order-only
      inputs, unexpanded, followed by the caller's. */
  function Assemble(globals: map<string, string>, r: Rule, c: Call, e: Expander): (edge: Edge)
    ensures edge.rule == r.name
    ensures var outs := Texts(r.outputs);
      && |edge.outputs| == |c.outputs| + |outs|
      && edge.outputs[..|c.outputs|] == c.outputs
      && forall i :: 0 <= i < |outs| ==> edge.outputs[|c.outputs| + i] == e(outs[i], globals, c.bindings)
    ensures var ins := Texts(r.inputs);
      && |edge.inputs| == |c.inputs| + |ins| + |r.implicit|
      && edge.inputs[..|c.inputs|] == c.inputs
      && (forall i :: 0 <= i < |ins| ==> edge.inputs[|c.inputs| + i] == e(ins[i], globals, c.bindings))
      && forall i :: 0 <= i < |r.implicit| ==>
           edge.inputs[|c.inputs| + |ins| + i] == e(r.implicit[i], globals, c.bindings)
    ensures edge.implicit == c.implicit
    ensures |edge.orderOnly| == |r.orderOnly| + |c.orderOnly|
    ensures edge.orderOnly[..|r.orderOnly|] == r.orderOnly && edge.orderOnly[|r.orderOnly|..] == c.orderOnly
    ensures edge.implicitOutputs == c.implicitOutputs && edge.pool == c.pool
    ensures edge.variables == c.bindings
  {
    var outs := c.outputs + ExpandAll(Texts(r.outputs), e, globals, c.bindings);
    var ins := c.inputs + ExpandAll(Texts(r.inputs), e, globals, c.bindings)
               + ExpandAll(r.implicit, e, globals, c.bindings);
    Edge(outs, r.name, ins, c.implicit, r.orderOnly + c.orderOnly, c.implicitOutputs, c.pool, c.bindings)
  }

  /** `Rule.build(ninja, ...)`. */
  function RuleBuild(w: Writer, r: Rule, c: Call, e: Expander): (s: Step<seq<string>>)
    ensures Extends(w, s.writer)
    ensures s.writer.globals == w.globals
    // the rule is registered before the arguments are checked
    ensures r.name in s.writer.rules
    ensures r.name !in w.rules ==> s.writer.rules[r.name] == r.Body()
    ensures s.result.Err? && s.result.error.RuleMismatch? <==> r.name in w.rules && w.rules[r.name] != r.Body()
    ensures !(r.name in w.rules && w.rules[r.name] != r.Body()) ==>
              ((s.result.Err? && (s.result.error.MissingArguments? || s.result.error.UnexpectedArguments?))
               <==> !Accepts(r.Contract(), w.globals.Keys, c.bindings.Keys))
    ensures s.result.Ok? ==> Accepts(r.Contract(), w.globals.Keys, c.bindings.Keys)
    ensures s.result.Ok? ==> s.writer.edges == w.edges + [Assemble(w.globals, r, c, e)]
    ensures s.result.Ok? ==> s.result.value == Assemble(w.globals, r, c, e).outputs
    ensures s.result.Ok? ==> Elems(s.result.value) <= s.writer.targets
    // nothing else changes: only this rule's name joins the registry
    ensures s.writer.generatorDeps == w.generatorDeps && s.writer.closed == w.closed
    ensures s.writer.rules.Keys == w.rules.Keys + {r.name}
    ensures s.result.Ok? ==> s.writer.targets == w.targets + Elems(s.result.value)
    ensures s.writer.targets <= w.targets + Elems(Assemble(w.globals, r, c, e).outputs)
    // a rejected call writes nothing
    ensures (r.name in w.rules && w.rules[r.name] != r.Body()) || !Accepts(r.Contract(), w.globals.Keys, c.bindings.Keys)
            ==> s.writer.targets == w.targets && s.writer.edges == w.edges
    // an accepted call still raises on an empty output name
    ensures (s.result.Err? && s.result.error.InvalidTarget?) <==>
              && !(r.name in w.rules && w.rules[r.name] != r.Body())
              && Accepts(r.Contract(), w.globals.Keys, c.bindings.Keys)
              && "" in Assemble(w.globals, r, c, e).outputs
    ensures s.result.Ok? <==>
              && !(r.name in w.rules && w.rules[r.name] != r.Body())
              && Accepts(r.Contract(), w.globals.Keys, c.bindings.Keys)
              && "" !in Assemble(w.globals, r, c, e).outputs
  {
    var s0 := RegisterRule(w, r.name, r.Body());
    if s0.result.Err? then Step(s0.writer, Err(s0.result.error))
    else
      var checked := Validate(r.name, r.Contract(), s0.writer.globals.Keys, c.bindings.Keys);
      if checked.Err? then Step(s0.writer, Err(checked.error))
      else Build(s0.writer, Assemble(w.globals, r, c, e))
  }

  /** Missing names are reported before unexpected ones: a name the
      contract needs and nothing supplies makes the build raise the
      missing-arguments TypeError, and the error names it. */
  lemma RuleBuildMissing(w: Writer, r: Rule, c: Call, e: Expander, x: string)
    requires r.name !in w.rules || w.rules[r.name] == r.Body()
    requires x in r.Contract() && x !in c.bindings && x !in w.globals && x !in AutoVars
    ensures var s := RuleBuild(w, r, c, e);
      s.result.Err? && s.result.error == MissingArguments(r.name, s.result.error.names) && x in s.result.error.names
  {
    var s0 := RegisterRule(w, r.name, r.Body());
    assert s0.result.Ok? && s0.writer.globals == w.globals;
    var checked := Validate(r.name, r.Contract(), w.globals.Keys, c.bindings.Keys);
    assert x in r.Contract() - c.bindings.Keys - w.globals.Keys - AutoVars;
  }
}

=== FILE: ordering.dfy ===
/** Python's ordering of `str` values and `sorted()` on a list of them. */
module Ordering {

  /** Python's `a < b` on strings: compare code point by code point, and a
      proper prefix comes first. */
  predicate Less(a: string, b: string) {
    if |a| == 0 then |b| > 0
    else if |b| == 0 then false
    else if a[0] != b[0] then a[0] < b[0]
    else Less(a[1..], b[1..])
  }

  lemma {:induction false} LessIrreflexive(a: string)
    ensures !Less(a, a)
  {
    if |a| > 0 {
      LessIrreflexive(a[1..]);
    }
  }

  lemma {:induction false} LessTransitive(a: string, b: string, c: string)
    requires Less(a, b) && Less(b, c)
    ensures Less(a, c)
  {
    if |a| > 0 && |b| > 0 && |c| > 0 && a[0] == b[0] && b[0] == c[0] {
      LessTransitive(a[1..], b[1..], c[1..]);
    }
  }

  /** Any two strings are equal or ordered one way round. */
  lemma {:induction false} LessTotal(a: string, b: string)
    ensures a == b || Less(a, b) || Less(b, a)
  {
    if |a| > 0 && |b| > 0 && a[0] == b[0] {
      LessTotal(a[1..], b[1..]);
      if a[1..] == b[1..] {
        assert a == [a[0]] + a[1..] && b == [b[0]] + b[1..];
      }
    }
  }

  lemma LessAsymmetric(a: string, b: string)
    requires Less(a, b)
    ensures !Less(b, a)
  {
    if Less(b, a) {
      LessTransitive(a, b, a);
      LessIrreflexive(a);
    }
  }

  /** Non-descending in Python's order. */
  predicate Sorted(xs: seq<string>) {
    forall i, j :: 0 <= i < j < |xs| ==> !Less(xs[j], xs[i])
  }

  /** Inserts `x` in front of the first element it does not follow. */
  function Insert(x: string, xs: seq<string>): (r: seq<string>)
    requires Sorted(xs)
    ensures Sorted(r)
    ensures multiset(r) == multiset(xs) + multiset{x}
  {
    if |xs| == 0 then [x]
    else if !Less(xs[0], x) then
      forall j | 0 < j < |xs| ensures !Less(xs[j], x) {
        LessTotal(xs[0], xs[j]);
        if Less(xs[j], x) {
          LessTransitive(xs[0], xs[j], x);
        }
      }
      [x] + xs
    else
      var rest := Insert(x, xs[1..]);
      assert xs == [xs[0]] + xs[1..];
      forall j | 0 <= j < |rest| ensures !Less(rest[j], xs[0]) {
        assert rest[j] in multiset(rest);
        if rest[j] == x {
          LessAsymmetric(xs[0], x);
        } else {
          assert rest[j] in multiset(xs[1..]);
          var k :| 0 <= k < |xs[1..]| && xs[1..][k] == rest[j];
          assert xs[k + 1] == rest[j];
        }
      }
      [xs[0]] + rest
  }

  /** Python's `sorted(xs)` on a list of strings. */
  function Sort(xs: seq<string>): (r: seq<string>)
    ensures Sorted(r)
    ensures multiset(r) == multiset(xs)
  {
    if |xs| == 0 then []
    else
      assert xs == [xs[0]] + xs[1..];
      Insert(xs[0], Sort(xs[1..]))
  }

  lemma SortedTail(a: seq<string>)
    requires Sorted(a) && |a| > 0
    ensures Sorted(a[1..])
  {
  }

  /** The first element of a sorted list is a least element of its contents. */
  lemma SortedHead(a: seq<string>, x: string)
    requires Sorted(a) && x in multiset(a)
    ensures !Less(x, a[0])
  {
    var i :| 0 <= i < |a| && a[i] == x;
    if i > 0 {
      assert !Less(a[i], a[0]);
    }
    LessIrreflexive(x);
  }

  /** Two sorted arrangements of the same strings are the same list, so
      `Sort` returns exactly what `sorted()` returns. */
  lemma {:induction false} SortedUnique(a: seq<string>, b: seq<string>)
    requires Sorted(a) && Sorted(b) && multiset(a) == multiset(b)
    ensures a == b
    decreases |a|
  {
    if |a| > 0 {
      assert |b| == |multiset(b)| == |multiset(a)| == |a|;
      assert a[0] in multiset(b) && b[0] in multiset(a);
      SortedHead(b, a[0]);
      SortedHead(a, b[0]);
      LessTotal(a[0], b[0]);
      assert a[0] == b[0];
      MultisetTails(a, b);
      SortedTail(a);
      SortedTail(b);
      SortedUnique(a[1..], b[1..]);
    }
  }

  /** Removing the same first element from two lists holding the same
      elements leaves lists holding the same elements. */
  lemma MultisetTails(a: seq<string>, b: seq<string>)
    requires |a| > 0 && |b| > 0 && a[0] == b[0] && multiset(a) == multiset(b)
    ensures multiset(a[1..]) == multiset(b[1..])
  {
    assert a == [a[0]] + a[1..] && b == [b[0]] + b[1..];
    assert multiset(a) == multiset{a[0]} + multiset(a[1..]);
    assert multiset(b) == multiset{b[0]} + multiset(b[1..]);
    assert multiset(a[1..]) == multiset(a) - multiset{a[0]};
    assert multiset(b[1..]) == multiset(b) - multiset{b[0]};
  }
}

=== FILE: ostree.dfy ===
/** `apt2ostree/ostree.py`: the handle on a branch file inside an ostree
    repository, and the two rule templates that create a repository and
    combine branches into one commit. */
module Ostree {
  import opened Wrappers
  import opened Strings
  import opened Vars
  import opened Ninja

  /** What separates the repository from the branch name in a ref path. */
  const Sep: string := "/refs/heads/"

  /** `OstreeRef`: the path of a ref file, `<repo>/refs/heads/<branch>`. */
  datatype OstreeRef = OstreeRef(filename: string)

  /** `OstreeRef.ref`: the second piece of the path split at the separator;
      a path without the separator has no second piece. */
  function RefOf(h: OstreeRef): (r: Result<string>)
    ensures r.Ok? <==> Contains(h.filename, Sep)
    ensures r.Err? ==> r.error == IndexOutOfRange
    ensures r.Ok? ==> !Contains(r.value, Sep)
  {
    var parts := Split(h.filename, Sep);
    SplitCount(h.filename);
    if |parts| < 2 then Err(IndexOutOfRange) else Ok(parts[1])
  }

  /** `OstreeRef.repo`: the text before the first separator. */
  function RepoOf(h: OstreeRef): (r: string)
    ensures r <= h.filename
    ensures !Contains(r, Sep)
    ensures !Contains(h.filename, Sep) ==> r == h.filename
  {
    var parts := Split(h.filename, Sep);
    JoinHead(parts, Sep);
    parts[0]
  }

  lemma JoinHead(parts: seq<string>, sep: string)
    requires |parts| > 0
    ensures parts[0] <= Join(parts, sep)
  {
  }

  /** The path splits into two or more pieces exactly when it holds the
      separator. */
  lemma SplitCount(s: string)
    ensures |Split(s, Sep)| >= 2 <==> Contains(s, Sep)
  {
    match Find(s, Sep)
    case None =>
    case Some(i) =>
      SplitAt(s, Sep, i);
  }

  /** `r` ends with the separator minus its final slash, so a separator
      could start inside `r`. */
  predicate EndsInRefsHeads(r: string) {
    |r| >= |Sep| - 1 && r[|r| - (|Sep| - 1)..] == Sep[..|Sep| - 1]
  }

  /** The separator's only self-overlap is its leading and trailing slash. */
  lemma SepOverlap(r: string, k: nat)
    requires Overlaps(r, Sep, k) && 0 < k
    ensures EndsInRefsHeads(r)
  {
    assert Sep[k..][0] == Sep[k] && Sep[..|Sep| - k][0] == '/';
    assert k == 5 || k == 11 by {
      assert Sep[k] == '/';
    }
  }

  /** When the repository part holds no separator and does not end in
      "/refs/heads", `ref` is the first separator-free piece of whatever
      follows the separator and `repo` is the repository part. */
  lemma {:induction false} SplitAfterRepo(repo: string, rest: string)
    requires !Contains(repo, Sep) && !EndsInRefsHeads(repo)
    ensures RefOf(OstreeRef(repo + Sep + rest)) == Ok(Split(rest, Sep)[0])
    ensures RepoOf(OstreeRef(repo + Sep + rest)) == repo
  {
    forall k | 0 < k < |Sep| ensures !Overlaps(repo, Sep, k) {
      if Overlaps(repo, Sep, k) {
        SepOverlap(repo, k);
      }
    }
    var f := repo + Sep + rest;
    FindAfter(repo, Sep, rest);
    SplitAt(f, Sep, |repo|);
    assert f[..|repo|] == repo;
    assert f[|repo| + |Sep|..] == rest;
  }

  /** Round trip: building the path from a repository and a branch name
      and reading it back gives both parts. */
  lemma RefRepoRoundTrip(repo: string, branch: string)
    requires !Contains(repo, Sep) && !EndsInRefsHeads(repo)
    requires !Contains(branch, Sep)
    ensures RefOf(OstreeRef(repo + Sep + branch)) == Ok(branch)
    ensures RepoOf(OstreeRef(repo + Sep + branch)) == repo
  {
    SplitAfterRepo(repo, branch);
  }

  /** A repository path may not end in "/refs/heads" even when it holds no
      separator: "a/refs/heads" + "/refs/heads/" + "b" reads back as the
      repository "a" and the branch "refs/heads/b". */
  lemma RoundTripNeedsBoundary()
    ensures var f := OstreeRef("a/refs/heads" + Sep + "b");
      RefOf(f) == Ok("refs/heads/b") && RepoOf(f) == "a"
  {
    var branch := "refs/heads/b";
    assert "a/refs/heads" + Sep + "b" == "a" + Sep + branch;
    assert !Contains("a", Sep);
    assert !Contains(branch, Sep) by {
      assert |branch| == |Sep| && branch[0] != Sep[0];
      assert !OccursAt(branch, Sep, 0);
    }
    RefRepoRoundTrip("a", branch);
  }

  /** A path without the separator is its own repository and has no ref. */
  lemma NoSeparator(f: string)
    requires !Contains(f, Sep)
    ensures RepoOf(OstreeRef(f)) == f
    ensures RefOf(OstreeRef(f)) == Err(IndexOutOfRange)
  {
  }

  // ---------------------------------------------------------------------
  // Rule templates (ostree.py:16-30). Each text is written as a `Template`
  // cut before every `$`.

  const Repo: string := "ostree_repo"
  const Branch: string := "branch"
  const In: string := "in"

  const InitCuts: seq<Cut> := [Cut(Repo, ";\n    ostree init --repo="), Cut(Repo, " --mode=bare-user;\n    ")]
  const InitCommand: string := Template("    mkdir ", InitCuts)

  /** `$ostree_repo/config`. */
  const RepoConfig: string := Template("", [Cut(Repo, "/config")])

  /** The `ostree` rule: create a repository in bare-user mode. Its only
      variable is `ostree_repo`. */
  function InitRule(): (r: Rule)
    ensures r.name == "ostree" && r.Contract() == {Repo}
  {
    InitVars();
    Rule("ostree", InitCommand, List([RepoConfig]), Absent,
         DefaultDescription("ostree", [Repo]), [], [], map[])
  }

  const CombineCuts: seq<Cut> := [
    Cut(In, "\n         | sed 's,"),
    Cut(Repo, "/refs/heads/,--tree=ref=,g'\n" + "         | xargs ostree --repo="),
    Cut(Repo, " commit -b "),
    Cut(Branch, " --no-bindings\n" + "                        " + "--orphan --timestamp=0;")]
  const CombineCommand: string := Template("        echo ", CombineCuts)

  /** `$ostree_repo/refs/heads/$branch`. */
  const CombineOutput: string := Template("", [Cut(Repo, Sep), Cut(Branch, "")])

  /** The `ostree_combine` rule: commit the union of its input branches to
      `$branch`. It needs `in`, `ostree_repo` and `branch`; its order-only
      input and description add nothing. */
  function CombineRule(): (r: Rule)
    ensures r.name == "ostree_combine" && r.Contract() == {In, Repo, Branch}
  {
    CombineVars();
    Rule("ostree_combine", CombineCommand, List([CombineOutput]), Absent,
         "Ostree Combine for $branch", [RepoConfig], [], map[])
  }

  /** The names the `ostree` rule's command, inputs and outputs reference. */
  lemma InitVars()
    ensures VarsInText(InitCommand) + VarsIn(Absent) + VarsIn(List([RepoConfig])) == {Repo}
  {
    InitCommandVars();
    RepoConfigVars();
    VarsInOne(RepoConfig);
  }

  /** The names the `ostree_combine` rule's command, inputs and outputs
      reference. */
  lemma CombineVars()
    ensures VarsInText(CombineCommand) + VarsIn(Absent) + VarsIn(List([CombineOutput])) == {In, Repo, Branch}
  {
    CombineCommandVars();
    CombineOutputVars();
    VarsInOne(CombineOutput);
  }

  lemma RepoConfigVars()
    ensures VarsInText(RepoConfig) == {Repo}
  {
    assert GoodCut(Cut(Repo, "/config"), true);
    TemplateVars("", [Cut(Repo, "/config")]);
    assert Names([Cut(Repo, "/config")]) == {Repo};
  }

  lemma InitCommandVars()
    ensures VarsInText(InitCommand) == {Repo}
  {
    InitCutsGood();
    TemplateVars("    mkdir ", InitCuts);
    assert Names(InitCuts) == {Repo} by {
      assert InitCuts[0].name == Repo && InitCuts[1].name == Repo;
    }
  }

  lemma InitCutsGood()
    ensures WellCut("    mkdir ", InitCuts)
  {
    InitCut0Good();
    InitCut1Good();
    assert forall i :: 0 <= i < |InitCuts| ==> GoodCut(InitCuts[i], i + 1 == |InitCuts|);
  }

  lemma InitCut0Good()
    ensures GoodCut(InitCuts[0], false)
  {
    NoDollarConcat(";\n", "    ostree init --repo=");
  }

  lemma InitCut1Good()
    ensures GoodCut(InitCuts[1], true)
  {
    NoDollarConcat(" --mode=bare-user;\n", "    ");
  }


  lemma CombineCutsGood(i: nat)
    requires i < |CombineCuts|
    ensures GoodCut(CombineCuts[i], i + 1 == |CombineCuts|)
  {
    if i == 0 {
      assert GoodCut(Cut(In, "\n         | sed 's,"), false);
    } else if i == 1 {
      CombineCut1Good();
    } else if i == 2 {
      assert GoodCut(Cut(Repo, " commit -b "), false);
    } else {
      CombineCut3Good();
    }
  }

  lemma CombineCut1Good()
    ensures GoodCut(CombineCuts[1], false)
  {
    NoDollarConcat("/refs/heads/,--tree=ref=,g'\n", "         | xargs ostree --repo=");
  }

  lemma CombineCut3Good()
    ensures GoodCut(CombineCuts[3], true)
  {
    NoDollarConcat(" --no-bindings\n", "                        ");
    NoDollarConcat(" --no-bindings\n" + "                        ", "--orphan --timestamp=0;");
  }

  lemma NoDollarConcat(a: string, b: string)
    requires '$' !in a && '$' !in b
    ensures '$' !in a + b
  {
  }

  lemma CombineWellCut()
    ensures WellCut("        echo ", CombineCuts)
  {
    forall i | 0 <= i < |CombineCuts| ensures GoodCut(CombineCuts[i], i + 1 == |CombineCuts|) {
      CombineCutsGood(i);
    }
  }

  lemma CombineCommandVars()
    ensures VarsInText(CombineCommand) == {In, Repo, Branch}
  {
    CombineWellCut();
    TemplateVars("        echo ", CombineCuts);
    assert Names(CombineCuts) == {In, Repo, Branch} by {
      assert CombineCuts[0].name == In && CombineCuts[1].name == Repo;
      assert CombineCuts[2].name == Repo && CombineCuts[3].name == Branch;
      assert forall n :: n in Names(CombineCuts) ==> n in {In, Repo, Branch};
    }
  }

  lemma CombineOutputVars()
    ensures VarsInText(CombineOutput) == {Repo, Branch}
  {
    var cuts := [Cut(Repo, Sep), Cut(Branch, "")];
    assert GoodCut(cuts[0], false);
    assert GoodCut(cuts[1], true);
    TemplateVars("", cuts);
    assert Names(cuts) == {Repo, Branch} by {
      assert cuts[0].name == Repo && cuts[1].name == Branch;
    }
  }

  /** With `ostree_repo` set as a global, building the `ostree` rule with
      no bindings passes the argument check; without it, the check
      reports `ostree_repo` missing. */
  lemma InitBuildArguments(w: Writer, c: Call, e: Expander)
    requires c.bindings == map[]
    requires "ostree" !in w.rules || w.rules["ostree"] == InitRule().Body()
    ensures var s := RuleBuild(w, InitRule(), c, e);
      Repo in w.globals <==> !(s.result.Err? && (s.result.error.MissingArguments? || s.result.error.UnexpectedArguments?))
  {
  }

  /** With `ostree_repo` global, `ostree_combine` passes the argument check
      exactly when the call binds `branch` and nothing outside the contract. */
  lemma CombineBuildArguments(w: Writer, c: Call, e: Expander)
    requires Repo in w.globals && Branch !in w.globals
    requires "ostree_combine" !in w.rules || w.rules["ostree_combine"] == CombineRule().Body()
    ensures var s := RuleBuild(w, CombineRule(), c, e);
      !(s.result.Err? && (s.result.error.MissingArguments? || s.result.error.UnexpectedArguments?))
      <==> Branch in c.bindings && c.bindings.Keys <= {In, Repo, Branch}
  {
    CombineAccepts(w.globals.Keys, c.bindings.Keys);
  }

  /** The argument check of `ostree_combine` with `ostree_repo` global:
      `branch` must be bound, and nothing outside the contract may be. */
  lemma CombineAccepts(globals: set<string>, bound: set<string>)
    requires Repo in globals && Branch !in globals
    ensures Accepts({In, Repo, Branch}, globals, bound) <==> Branch in bound && bound <= {In, Repo, Branch}
  {
    assert In in AutoVars;
  }
}

=== FILE: packages.dfy ===
/** `parse_packages` of `apt2ostree/apt.py`: the reader of an apt
    Packages file, the subset of the control-file syntax of section 5.1 of
    the Debian Policy Manual the program relies on. A record maps field
    labels to values; a line is taken exactly as the stream yields it, so
    lines read from a file keep their trailing newline. */
module Packages {
  import opened Wrappers
  import opened Strings

  type Record = map<string, string>

  /** The record being read and the field the last field line set. */
  datatype State = State(pkg: Record, field: Option<string>)

  const Start: State := State(map[], None)

  /** The state after one line, and the record that line completed. */
  datatype Fed = Fed(next: State, emitted: Option<Record>)

  const FieldSep: string := ": "

  /** A line that `strip()` empties (`Strip`'s contract says a text strips
      to "" exactly when it is all whitespace): it ends the current stanza. */
  predicate Blank(line: string) {
    AllSpace(line)
  }

  /** Python's `line.startswith(" ")`. */
  predicate StartsWithSpace(line: string) {
    |line| > 0 && line[0] == ' '
  }

  /** Appends `more` to the field the last field line named; with no such
      field the lookup raises. */
  function Extend(st: State, line: string, more: string): (r: Result<Fed>)
    ensures r.Ok? <==> st.field.Some? && st.field.value in st.pkg
    ensures r.Err? ==> r.error == NoFieldToContinue(line)
    ensures r.Ok? ==> r.value.emitted.None? && r.value.next.field == st.field
    ensures r.Ok? ==> r.value.next.pkg == st.pkg[st.field.value := st.pkg[st.field.value] + more]
  {
    if st.field.Some? && st.field.value in st.pkg then
      var l := st.field.value;
      Ok(Fed(State(st.pkg[l := st.pkg[l] + more], st.field), None))
    else Err(NoFieldToContinue(line))
  }

  /** One iteration of the loop in `parse_packages`. */
  function Feed(st: State, line: string): (r: Result<Fed>)
    ensures Blank(line) ==> r == Ok(Fed(Start, if st.pkg == map[] then None else Some(st.pkg)))
    ensures r.Ok? && r.value.emitted.Some? ==> Blank(line) && r.value.emitted.value != map[]
    ensures !Blank(line) && StartsWithSpace(line) ==> (r.Ok? <==> st.field.Some? && st.field.value in st.pkg)
    ensures !Blank(line) && !StartsWithSpace(line) ==> (r.Ok? <==> Contains(line, FieldSep))
    ensures r.Err? && !StartsWithSpace(line) ==> r.error == MalformedField(line)
    ensures r.Ok? && !Blank(line) ==> r.value.next.field.Some? && r.value.next.field.value in r.value.next.pkg
    ensures r.Ok? && !Blank(line) ==> r.value.next.pkg.Keys == st.pkg.Keys + {r.value.next.field.value}
  {
    if Blank(line) then
      Ok(Fed(Start, if st.pkg == map[] then None else Some(st.pkg)))
    else if line == " ." then
      Extend(st, line, "\n\n")
    else if StartsWithSpace(line) then
      Extend(st, line, "\n" + Strip(line[1..]))
    else
      match Find(line, FieldSep)
      case None => Err(MalformedField(line))
      case Some(i) =>
        var field := line[..i];
        Ok(Fed(State(st.pkg[field := Strip(line[i + |FieldSep|..])], Some(field)), None))
  }

  /** The records `parse_packages` yields before it stops, and the
      exception it stops with, if any. */
  datatype Parsed = Parsed(records: seq<Record>, error: Option<Error>)

  function Count(lines: seq<string>): nat {
    if |lines| == 0 then 0 else (if Blank(lines[0]) then 1 else 0) + Count(lines[1..])
  }

  function ParseFrom(st: State, lines: seq<string>): (p: Parsed)
    decreases |lines|
    ensures forall k :: 0 <= k < |p.records| ==> p.records[k] != map[]
    ensures |p.records| <= Count(lines)
  {
    if |lines| == 0 then Parsed([], None)
    else
      match Feed(st, lines[0])
      case Err(e) => Parsed([], Some(e))
      case Ok(f) =>
        var rest := ParseFrom(f.next, lines[1..]);
        Parsed((if f.emitted.Some? then [f.emitted.value] else []) + rest.records, rest.error)
  }

  /** `parse_packages(stream)`, run to the end of the stream. */
  function ParsePackages(lines: seq<string>): (p: Parsed)
    ensures forall k :: 0 <= k < |p.records| ==> p.records[k] != map[]
    ensures |p.records| <= Count(lines)
  {
    ParseFrom(Start, lines)
  }

  // ---------------------------------------------------------------------
  // When records are yielded

  /** Lines without a blank one yield nothing: a stanza is only yielded by
      the blank line after it, so a final stanza with none is dropped. */
  lemma {:induction false} NoBlankNoRecord(st: State, lines: seq<string>)
    requires forall k :: 0 <= k < |lines| ==> !Blank(lines[k])
    ensures ParseFrom(st, lines).records == []
    decreases |lines|
  {
    if |lines| > 0 {
      match Feed(st, lines[0])
      case Err(_) =>
      case Ok(f) =>
        NoBlankNoRecord(f.next, lines[1..]);
    }
  }

  /** A blank line with no record in progress changes nothing, so blank
      lines repeated, or leading the stream, yield nothing. */
  lemma BlankAtStart(blank: string, lines: seq<string>)
    requires Blank(blank)
    ensures ParseFrom(Start, [blank] + lines) == ParseFrom(Start, lines)
  {
    assert ([blank] + lines)[1..] == lines;
  }

  lemma RepeatedBlank(st: State, b1: string, b2: string, lines: seq<string>)
    requires Blank(b1) && Blank(b2)
    ensures ParseFrom(st, [b1, b2] + lines) == ParseFrom(st, [b1] + lines)
  {
    assert ([b1, b2] + lines)[1..] == [b2] + lines;
    assert ([b1] + lines)[1..] == lines;
    BlankAtStart(b2, lines);
  }

  // ---------------------------------------------------------------------
  // Field and continuation lines

  /** A label that a field line can carry: it does not start a
      continuation and holds no ": ". */
  predicate GoodLabel(field: string) {
    |field| > 0 && field[0] != ' ' && !Contains(field, FieldSep)
  }

  /** A value that reads back unchanged: no whitespace at either end. */
  predicate GoodValue(value: string) {
    |value| == 0 || (!IsSpace(value[0]) && !IsSpace(value[|value| - 1]))
  }

  /** `label: value` as a file holds it, newline included. */
  function FieldLine(field: string, value: string): string {
    field + FieldSep + value + "\n"
  }

  lemma FieldLineSplits(field: string, value: string)
    requires GoodLabel(field)
    ensures Find(FieldLine(field, value), FieldSep) == Some(|field|)
  {
    forall k | 0 < k < |FieldSep| ensures !Overlaps(field, FieldSep, k) {
      assert k == 1 && FieldSep[k..][0] != FieldSep[..|FieldSep| - k][0];
    }
    FindAfter(field, FieldSep, value + "\n");
    assert FieldLine(field, value) == field + FieldSep + (value + "\n");
  }

  /** A line holding a character `strip()` keeps is not blank. */
  lemma NotBlank(line: string, i: nat)
    requires i < |line| && !IsSpace(line[i])
    ensures !Blank(line)
  {
  }

  lemma FieldLineParts(field: string, value: string)
    requires GoodLabel(field) && GoodValue(value)
    ensures !Blank(FieldLine(field, value))
    ensures FieldLine(field, value)[0] != ' ' && FieldLine(field, value) != " ."
    ensures FieldLine(field, value)[..|field|] == field
    ensures Strip(FieldLine(field, value)[|field| + |FieldSep|..]) == value
  {
    var line := FieldLine(field, value);
    assert line[|field|] == ':';
    NotBlank(line, |field|);
    assert line[0] == field[0];
    assert line[|field| + |FieldSep|..] == "" + value + "\n";
    assert AllSpace("\n");
    StripPadded("", value, "\n");
  }

  /** A field line sets its label to its stripped value, replacing any
      earlier value for that label, and makes it the field a continuation
      line extends. */
  lemma FeedField(st: State, field: string, value: string)
    requires GoodLabel(field) && GoodValue(value)
    ensures Feed(st, FieldLine(field, value)) == Ok(Fed(State(st.pkg[field := value], Some(field)), None))
  {
    FieldLineParts(field, value);
    FieldLineSplits(field, value);
  }

  lemma ContinuationParts(text: string)
    requires |text| > 0 && GoodValue(text)
    ensures !Blank(" " + text + "\n")
    ensures (" " + text + "\n")[0] == ' ' && " " + text + "\n" != " ."
    ensures Strip((" " + text + "\n")[1..]) == text
  {
    var line := " " + text + "\n";
    assert line[1] == text[0];
    NotBlank(line, 1);
    assert |line| != 2;
    assert line[1..] == "" + text + "\n";
    assert AllSpace("\n");
    StripPadded("", text, "\n");
  }

  /** A continuation line adds a newline and its stripped text to the
      current field. */
  lemma FeedContinuation(st: State, text: string)
    requires st.field.Some? && st.field.value in st.pkg
    requires |text| > 0 && GoodValue(text)
    ensures var l := st.field.value;
      Feed(st, " " + text + "\n") == Ok(Fed(State(st.pkg[l := st.pkg[l] + ("\n" + text)], st.field), None))
  {
    ContinuationParts(text);
  }

  /** The line " ." on its own appends an empty line to the field. */
  lemma FeedBareDot(st: State, line: string)
    requires st.field.Some? && st.field.value in st.pkg
    requires line == " ."
    ensures var l := st.field.value;
      Feed(st, line) == Ok(Fed(State(st.pkg[l := st.pkg[l] + "\n\n"], st.field), None))
  {
    NotBlank(line, 1);
  }

  /** Read from a file the line is " .\n", which is not " ." and is taken
      as an ordinary continuation: it appends a newline and a full stop,
      not an empty line. */
  lemma FeedDotNewline(st: State, line: string)
    requires st.field.Some? && st.field.value in st.pkg
    requires line == " .\n"
    ensures var l := st.field.value;
      Feed(st, line) == Ok(Fed(State(st.pkg[l := st.pkg[l] + "\n."], st.field), None))
  {
    var l := st.field.value;
    assert Feed(st, line) == Feed(st, " " + "." + "\n") by {
      assert line == " " + "." + "\n";
    }
    FeedContinuation(st, ".");
    assert st.pkg[l] + ("\n" + ".") == st.pkg[l] + "\n." by {
      assert "\n" + "." == "\n.";
    }
  }

  // ---------------------------------------------------------------------
  // Round trip

  /** One stanza as written: its fields in order. */
  type Stanza = seq<(string, string)>

  predicate GoodStanza(s: Stanza) {
    |s| > 0 && forall k :: 0 <= k < |s| ==> GoodLabel(s[k].0) && GoodValue(s[k].1)
  }

  function StanzaLines(s: Stanza): seq<string> {
    if |s| == 0 then [] else [FieldLine(s[0].0, s[0].1)] + StanzaLines(s[1..])
  }

  /** The record a stanza describes: later fields override earlier ones. */
  function Fill(pkg: Record, s: Stanza): Record
    decreases |s|
  {
    if |s| == 0 then pkg else Fill(pkg[s[0].0 := s[0].1], s[1..])
  }

  /** A Packages file: each stanza followed by a blank line. */
  function Render(stanzas: seq<Stanza>): seq<string> {
    if |stanzas| == 0 then [] else StanzaLines(stanzas[0]) + ["\n"] + Render(stanzas[1..])
  }

  function Records(stanzas: seq<Stanza>): seq<Record> {
    if |stanzas| == 0 then [] else [Fill(map[], stanzas[0])] + Records(stanzas[1..])
  }

  lemma {:induction false} FillNonEmpty(pkg: Record, s: Stanza)
    requires |s| > 0
    ensures Fill(pkg, s) != map[]
    ensures s[|s| - 1].0 in Fill(pkg, s)
    decreases |s|
  {
    if |s| > 1 {
      FillNonEmpty(pkg[s[0].0 := s[0].1], s[1..]);
      assert s[1..][|s[1..]| - 1] == s[|s| - 1];
    } else {
      assert Fill(pkg, s) == Fill(pkg[s[0].0 := s[0].1], s[1..]) == pkg[s[0].0 := s[0].1];
      assert s[0].0 in Fill(pkg, s);
    }
  }

  /** A line that completes no record passes the state on. */
  lemma ParseStep(st: State, line: string, rest: seq<string>, next: State)
    requires Feed(st, line) == Ok(Fed(next, None))
    ensures ParseFrom(st, [line] + rest) == ParseFrom(next, rest)
  {
    assert ([line] + rest)[0] == line;
    assert ([line] + rest)[1..] == rest;
  }

  lemma {:induction false} ParseStanza(st: State, s: Stanza, rest: seq<string>)
    requires GoodStanza(s)
    ensures ParseFrom(st, StanzaLines(s) + rest)
         == ParseFrom(State(Fill(st.pkg, s), Some(s[|s| - 1].0)), rest)
    decreases |s|
  {
    if |s| == 1 {
      ParseLastField(st, s, rest);
    } else {
      var next := State(st.pkg[s[0].0 := s[0].1], Some(s[0].0));
      FirstFieldLine(st, s, rest);
      GoodStanzaTail(s);
      ParseStanza(next, s[1..], rest);
      FillStep(st.pkg, s);
    }
  }

  /** A stanza of one field leaves that field's record and label. */
  lemma ParseLastField(st: State, s: Stanza, rest: seq<string>)
    requires GoodStanza(s) && |s| == 1
    ensures ParseFrom(st, StanzaLines(s) + rest)
         == ParseFrom(State(Fill(st.pkg, s), Some(s[0].0)), rest)
  {
    FirstFieldLine(st, s, rest);
    assert StanzaLines(s[1..]) + rest == rest by {
      assert StanzaLines(s[1..]) == [];
    }
    assert Fill(st.pkg, s) == st.pkg[s[0].0 := s[0].1];
  }

  /** Filling a stanza is filling its first field, then the rest; the
      last field of the rest is the last field of the stanza. */
  lemma FillStep(pkg: Record, s: Stanza)
    requires |s| > 1
    ensures Fill(pkg, s) == Fill(pkg[s[0].0 := s[0].1], s[1..])
    ensures s[1..][|s[1..]| - 1] == s[|s| - 1]
  {
  }

  /** Reading a stanza's first field line. */
  lemma FirstFieldLine(st: State, s: Stanza, rest: seq<string>)
    requires |s| > 0 && GoodLabel(s[0].0) && GoodValue(s[0].1)
    ensures var next := State(st.pkg[s[0].0 := s[0].1], Some(s[0].0));
      ParseFrom(st, StanzaLines(s) + rest) == ParseFrom(next, StanzaLines(s[1..]) + rest)
  {
    var line := FieldLine(s[0].0, s[0].1);
    var next := State(st.pkg[s[0].0 := s[0].1], Some(s[0].0));
    assert Feed(st, line) == Ok(Fed(next, None)) by {
      FeedField(st, s[0].0, s[0].1);
    }
    assert StanzaLines(s) + rest == [line] + (StanzaLines(s[1..]) + rest) by {
      assert StanzaLines(s) == [line] + StanzaLines(s[1..]);
    }
    ParseStep(st, line, StanzaLines(s[1..]) + rest, next);
  }

  lemma GoodStanzaTail(s: Stanza)
    requires GoodStanza(s) && |s| > 1
    ensures GoodStanza(s[1..])
  {
    forall k | 0 <= k < |s[1..]| ensures GoodLabel(s[1..][k].0) && GoodValue(s[1..][k].1) {
      assert s[1..][k] == s[k + 1];
    }
  }

  /** Reading back a rendered Packages file yields one record per stanza,
      in order, and no error. */
  lemma {:induction false} ParseRender(stanzas: seq<Stanza>)
    requires forall k :: 0 <= k < |stanzas| ==> GoodStanza(stanzas[k])
    ensures ParsePackages(Render(stanzas)) == Parsed(Records(stanzas), None)
    decreases |stanzas|
  {
    if |stanzas| > 0 {
      var s := stanzas[0];
      var tail := Render(stanzas[1..]);
      assert Render(stanzas) == StanzaLines(s) + (["\n"] + tail);
      ParseStanza(Start, s, ["\n"] + tail);
      FillNonEmpty(map[], s);
      assert Blank("\n") by { assert AllSpace("\n"); StripPadded("", "", "\n"); assert "" + "" + "\n" == "\n"; }
      assert (["\n"] + tail)[1..] == tail;
      ParseRender(stanzas[1..]);
    }
  }

  // ---------------------------------------------------------------------
  // A continuation line must start with a space

  /** A line that does not start with a space is not a continuation: a
      text line meant to continue a field value but written without the
      leading space is taken as a field line without ": ", and reading
      stops there with no record yielded, whatever follows. */
  lemma UnindentedContinuation(s: Stanza, dot: string, text: string, tail: seq<string>)
    requires GoodStanza(s) && dot == " .\n"
    requires |text| > 0 && !IsSpace(text[0]) && ':' !in text
    ensures ParsePackages(StanzaLines(s) + ([dot, text] + tail)) == Parsed([], Some(MalformedField(text)))
  {
    ParseStanza(Start, s, [dot, text] + tail);
    FillNonEmpty(map[], s);
    DotThenText(State(Fill(map[], s), Some(s[|s| - 1].0)), dot, text, tail);
  }

  /** The stanza "Package: a", "Version: 1", " .", "more", then a blank
      line and a second stanza: reading stops at "more" and yields no
      record at all. */
  lemma UnindentedExample(lines: seq<string>)
    requires lines == ["Package: a\n", "Version: 1\n", " .\n", "more\n", "\n", "Package: b\n", "Version: 2\n"]
    ensures ParsePackages(lines) == Parsed([], Some(MalformedField("more\n")))
  {
    var s: Stanza := [("Package", "a"), ("Version", "1")];
    ExampleStanza(s);
    assert lines == StanzaLines(s) + ([" .\n", "more\n"] + ["\n", "Package: b\n", "Version: 2\n"]);
    UnindentedContinuation(s, " .\n", "more\n", ["\n", "Package: b\n", "Version: 2\n"]);
  }

  lemma ExampleStanza(s: Stanza)
    requires s == [("Package", "a"), ("Version", "1")]
    ensures GoodStanza(s)
    ensures StanzaLines(s) == ["Package: a\n", "Version: 1\n"]
  {
    ExampleStanzaGood(s);
    assert StanzaLines(s[2..]) == [];
    assert StanzaLines(s[1..]) == [FieldLine("Version", "1")] + StanzaLines(s[2..]);
    assert StanzaLines(s) == [FieldLine("Package", "a")] + StanzaLines(s[1..]);
    assert FieldLine("Package", "a") == "Package: a\n";
    assert FieldLine("Version", "1") == "Version: 1\n";
  }

  lemma ExampleStanzaGood(s: Stanza)
    requires s == [("Package", "a"), ("Version", "1")]
    ensures GoodStanza(s)
  {
    NoColon("Package");
    NoColon("Version");
  }

  lemma DotThenText(st: State, dot: string, text: string, tail: seq<string>)
    requires st.field.Some? && st.field.value in st.pkg && dot == " .\n"
    requires |text| > 0 && !IsSpace(text[0]) && ':' !in text
    ensures ParseFrom(st, [dot, text] + tail) == Parsed([], Some(MalformedField(text)))
  {
    NotBlank(text, 0);
    NoColon(text);
    assert [dot, text] + tail == [dot] + ([text] + tail);
    DotStep(st, dot, [text] + tail);
    var l := st.field.value;
    MalformedStep(State(st.pkg[l := st.pkg[l] + "\n."], st.field), text, tail);
  }

  lemma MalformedStep(st: State, line: string, rest: seq<string>)
    requires !Blank(line) && line[0] != ' ' && !Contains(line, FieldSep)
    ensures ParseFrom(st, [line] + rest) == Parsed([], Some(MalformedField(line)))
  {
    assert ([line] + rest)[0] == line;
  }

  lemma FieldStep(st: State, line: string, field: string, value: string, rest: seq<string>)
    requires GoodLabel(field) && GoodValue(value) && line == FieldLine(field, value)
    ensures ParseFrom(st, [line] + rest) == ParseFrom(State(st.pkg[field := value], Some(field)), rest)
  {
    FeedField(st, field, value);
    ParseStep(st, line, rest, State(st.pkg[field := value], Some(field)));
  }

  lemma DotStep(st: State, line: string, rest: seq<string>)
    requires st.field.Some? && st.field.value in st.pkg && line == " .\n"
    ensures var l := st.field.value;
      ParseFrom(st, [line] + rest) == ParseFrom(State(st.pkg[l := st.pkg[l] + "\n."], st.field), rest)
  {
    FeedDotNewline(st, line);
    var l := st.field.value;
    ParseStep(st, line, rest, State(st.pkg[l := st.pkg[l] + "\n."], st.field));
  }

  /** A text without a colon holds no field separator. */
  lemma NoColon(t: string)
    requires ':' !in t
    ensures !Contains(t, FieldSep)
  {
    forall i | 0 <= i <= |t| - |FieldSep| ensures !OccursAt(t, FieldSep, i) {
      assert t[i] != ':';
      assert t[i..i + |FieldSep|][0] == t[i] && FieldSep[0] == ':';
    }
  }
}

=== FILE: paths.dfy ===
/** `os.path.basename` and `os.path.dirname` of Python's `posixpath`. */
module Paths {

  /** Python's `p.rfind('/')`: the index of the last slash, or -1. */
  function LastSlash(p: string): (i: int)
    ensures -1 <= i < |p|
    ensures i >= 0 ==> p[i] == '/'
    ensures forall j :: i < j < |p| ==> p[j] != '/'
  {
    if |p| == 0 then -1
    else if p[|p| - 1] == '/' then |p| - 1
    else LastSlash(p[..|p| - 1])
  }

  /** `os.path.basename(p)`: everything after the last slash. */
  function BaseName(p: string): (r: string)
    ensures '/' !in r
    ensures |r| <= |p| && p == p[..|p| - |r|] + r
    ensures |r| < |p| ==> p[|p| - |r| - 1] == '/'
  {
    p[LastSlash(p) + 1..]
  }

  predicate AllSlashes(s: string) {
    forall i :: 0 <= i < |s| ==> s[i] == '/'
  }

  /** `s.rstrip('/')`. */
  function RStripSlashes(s: string): (r: string)
    ensures r <= s
    ensures |r| > 0 ==> r[|r| - 1] != '/'
    ensures forall i :: |r| <= i < |s| ==> s[i] == '/'
  {
    if |s| > 0 && s[|s| - 1] == '/' then RStripSlashes(s[..|s| - 1]) else s
  }

  /** `os.path.dirname(p)`: everything up to the last slash, with trailing
      slashes removed unless nothing but slashes is left. */
  function DirName(p: string): (r: string)
    ensures r <= p
    ensures '/' !in p ==> r == ""
    ensures |r| > 0 && !AllSlashes(r) ==> r[|r| - 1] != '/'
  {
    var head := p[..LastSlash(p) + 1];
    if head != "" && !AllSlashes(head) then RStripSlashes(head) else head
  }

  /** Joining a directory and a file name with one slash, `dirname` and
      `basename` take the two back apart. */
  lemma DirBaseRoundTrip(d: string, f: string)
    requires '/' !in f
    requires |d| > 0 && d[|d| - 1] != '/'
    ensures DirName(d + "/" + f) == d
    ensures BaseName(d + "/" + f) == f
  {
    var p := d + "/" + f;
    var i := LastSlash(p);
    assert p[|d|] == '/';
    assert i == |d|;
    assert p[..i + 1] == d + "/";
    assert !AllSlashes(d + "/") by {
      assert (d + "/")[|d| - 1] != '/';
    }
    assert (d + "/")[..|d|] == d;
    assert p[i + 1..] == f;
  }
}

=== FILE: strings.dfy ===
/** Python `str` operations the program relies on, over `seq<char>`:
    `find`, `split(sep)`, `sep.join`, `replace`, `strip` and `"%i" % n`. */
module Strings {
  import opened Wrappers

  /** `t` occurs in `s` starting at index `i`. */
  predicate OccursAt(s: string, t: string, i: nat) {
    i + |t| <= |s| && s[i..i + |t|] == t
  }

  /** The first index at or after `i` where `t` occurs in `s`. */
  function FindFrom(s: string, t: string, i: nat): (r: Option<nat>)
    decreases |s| - i
    ensures r.Some? ==> i <= r.value && OccursAt(s, t, r.value)
    ensures forall j: nat :: i <= j && (r.None? || j < r.value) ==> !OccursAt(s, t, j)
  {
    if i + |t| > |s| then None
    else if OccursAt(s, t, i) then Some(i)
    else FindFrom(s, t, i + 1)
  }

  /** Python's `s.find(t)`, with `None` for -1. */
  function Find(s: string, t: string): (r: Option<nat>)
    ensures r.Some? ==> OccursAt(s, t, r.value)
    ensures forall j: nat :: (r.None? || j < r.value) ==> !OccursAt(s, t, j)
  {
    FindFrom(s, t, 0)
  }

  /** Python's `t in s`. */
  predicate Contains(s: string, t: string) {
    Find(s, t).Some?
  }

  lemma OccursContains(s: string, t: string, i: nat)
    requires OccursAt(s, t, i)
    ensures Contains(s, t)
  {
  }

  /** A prefix that ends before the first occurrence of `t` does not contain `t`. */
  lemma PrefixFree(s: string, t: string, i: nat)
    requires |t| > 0 && i <= |s|
    requires forall j: nat :: j < i ==> !OccursAt(s, t, j)
    ensures !Contains(s[..i], t)
  {
    if Contains(s[..i], t) {
      var j := Find(s[..i], t).value;
      assert s[..i][j..j + |t|] == s[j..j + |t|];
      assert OccursAt(s, t, j);
    }
  }

  /** The tail of `r` is the first `k` characters of `t`, and `t` shifted
      by `k` agrees with itself: an occurrence of `t` could straddle the end
      of `r`. */
  predicate Overlaps(r: string, t: string, k: nat) {
    k < |t| && k <= |r| && r[|r| - k..] == t[..k] && t[k..] == t[..|t| - k]
  }

  /** When `r` holds no `t` and no occurrence can straddle its end, the first
      occurrence of `t` in `r + t + b` is the one placed right after `r`. */
  lemma FindAfter(r: string, t: string, b: string)
    requires |t| > 0 && !Contains(r, t)
    requires forall k :: 0 < k < |t| ==> !Overlaps(r, t, k)
    ensures Find(r + t + b, t) == Some(|r|)
  {
    var s := r + t + b;
    assert s[|r|..|r| + |t|] == t;
    assert OccursAt(s, t, |r|);
    forall j: nat | j < |r| ensures !OccursAt(s, t, j) {
      if OccursAt(s, t, j) {
        if j + |t| <= |r| {
          assert r[j..j + |t|] == s[j..j + |t|];
          OccursContains(r, t, j);
        } else {
          var k := |r| - j;
          forall i | 0 <= i < k ensures r[|r| - k..][i] == t[..k][i] {
            assert s[j..j + |t|][i] == s[j + i];
          }
          forall i | 0 <= i < |t| - k ensures t[k..][i] == t[..|t| - k][i] {
            assert s[j..j + |t|][k + i] == s[|r| + i];
          }
          assert r[|r| - k..] == t[..k];
          assert t[k..] == t[..|t| - k];
          assert Overlaps(r, t, k);
        }
      }
    }
  }

  /** A text without the first character of `t` does not contain `t`. */
  lemma MissingFirstChar(s: string, t: string)
    requires |t| > 0 && t[0] !in s
    ensures !Contains(s, t)
  {
    forall i: nat | i + |t| <= |s| ensures !OccursAt(s, t, i) {
      assert s[i] in s;
    }
  }

  /** Gluing two texts without `t` by a character `t` does not hold gives
      no occurrence of `t`. */
  lemma GlueFree(a: string, c: char, b: string, t: string)
    requires |t| > 0 && c !in t && !Contains(a, t) && !Contains(b, t)
    ensures !Contains(a + [c] + b, t)
  {
    var s := a + [c] + b;
    forall i: nat | i + |t| <= |s| ensures !OccursAt(s, t, i) {
      if i + |t| <= |a| {
        assert !OccursAt(a, t, i);
        assert a[i..i + |t|] == s[i..i + |t|];
      } else if i > |a| {
        assert !OccursAt(b, t, i - |a| - 1);
        assert b[i - |a| - 1..i - |a| - 1 + |t|] == s[i..i + |t|];
      } else {
        assert s[i..i + |t|][|a| - i] == c;
      }
    }
  }

  /** Python's `sep.join(parts)`. */
  function Join(parts: seq<string>, sep: string): string {
    if |parts| == 0 then ""
    else if |parts| == 1 then parts[0]
    else parts[0] + sep + Join(parts[1..], sep)
  }

  lemma JoinCons(x: string, rest: seq<string>, sep: string)
    requires |rest| > 0
    ensures Join([x] + rest, sep) == x + sep + Join(rest, sep)
  {
    assert ([x] + rest)[1..] == rest;
  }

  /** Python's `s.split(sep)` for a non-empty separator: the pieces between
      the non-overlapping occurrences of `sep`, scanned left to right. */
  function Split(s: string, sep: string): (parts: seq<string>)
    requires |sep| > 0
    decreases |s|
    ensures |parts| > 0
    ensures forall k :: 0 <= k < |parts| ==> !Contains(parts[k], sep)
    ensures Join(parts, sep) == s
  {
    match Find(s, sep)
    case None => [s]
    case Some(i) =>
      PrefixFree(s, sep, i);
      var rest := Split(s[i + |sep|..], sep);
      JoinCons(s[..i], rest, sep);
      assert s == s[..i] + sep + s[i + |sep|..];
      [s[..i]] + rest
  }

  /** Unfolds `Split` at the first occurrence of the separator. */
  lemma SplitAt(s: string, sep: string, i: nat)
    requires |sep| > 0 && Find(s, sep) == Some(i)
    ensures Split(s, sep) == [s[..i]] + Split(s[i + |sep|..], sep)
  {
  }

  /** Splitting at a character that no piece holds gives the pieces back. */
  lemma {:induction false} SplitJoinChar(parts: seq<string>, c: char)
    requires |parts| > 0 && forall i :: 0 <= i < |parts| ==> c !in parts[i]
    ensures Split(Join(parts, [c]), [c]) == parts
    decreases |parts|
  {
    MissingFirstChar(parts[0], [c]);
    if |parts| == 1 {
    } else {
      var rest := Join(parts[1..], [c]);
      assert Join(parts, [c]) == parts[0] + [c] + rest;
      FindAfter(parts[0], [c], rest);
      SplitAt(Join(parts, [c]), [c], |parts[0]|);
      assert (parts[0] + [c] + rest)[|parts[0]| + 1..] == rest;
      assert (parts[0] + [c] + rest)[..|parts[0]|] == parts[0];
      SplitJoinChar(parts[1..], c);
      assert parts == [parts[0]] + parts[1..];
    }
  }

  /** Python's `s.replace(pat, repl)` for a non-empty `pat`. */
  function Replace(s: string, pat: string, repl: string): (r: string)
    requires |pat| > 0
    ensures !Contains(s, pat) ==> r == s
    ensures Contains(s, pat) ==> Contains(r, repl)
  {
    var parts := Split(s, pat);
    if |parts| > 1 then
      JoinCons(parts[0], parts[1..], repl);
      assert parts == [parts[0]] + parts[1..];
      assert OccursAt(Join(parts, repl), repl, |parts[0]|);
      Join(parts, repl)
    else
      Join(parts, repl)
  }

  /** Unfolds `Replace` at the first occurrence of `pat`. */
  lemma ReplaceAt(s: string, pat: string, repl: string, i: nat)
    requires |pat| > 0 && Find(s, pat) == Some(i)
    ensures Replace(s, pat, repl) == s[..i] + repl + Replace(s[i + |pat|..], pat, repl)
  {
    SplitAt(s, pat, i);
    JoinCons(s[..i], Split(s[i + |pat|..], pat), repl);
  }

  /** Replacing a single character rewrites the string position by position. */
  lemma {:induction false} ReplaceCharPointwise(s: string, a: char, b: char)
    decreases |s|
    ensures |Replace(s, [a], [b])| == |s|
    ensures forall i :: 0 <= i < |s| ==> Replace(s, [a], [b])[i] == if s[i] == a then b else s[i]
  {
    match Find(s, [a])
    case None =>
      forall i | 0 <= i < |s| ensures s[i] != a {
        assert !OccursAt(s, [a], i);
      }
    case Some(k) =>
      ReplaceAt(s, [a], [b], k);
      var t := Replace(s[k + 1..], [a], [b]);
      ReplaceCharPointwise(s[k + 1..], a, b);
      var r := s[..k] + [b] + t;
      forall i | 0 <= i < |s| ensures r[i] == if s[i] == a then b else s[i] {
        if i < k {
          assert !OccursAt(s, [a], i);
        } else if i > k {
          assert r[i] == t[i - k - 1] && s[k + 1..][i - k - 1] == s[i];
        }
      }
  }

  /** Each character of `s` rewritten by `f`. */
  function MapChars(s: string, f: char -> char): (r: string)
    ensures |r| == |s| && forall i :: 0 <= i < |s| ==> r[i] == f(s[i])
  {
    seq(|s|, i requires 0 <= i < |s| => f(s[i]))
  }

  /** Two strings map to the same text exactly when they are as long and
      agree at each position once mapped. */
  lemma MapCharsEqual(s: string, t: string, f: char -> char)
    ensures MapChars(s, f) == MapChars(t, f) <==> |s| == |t| && forall i :: 0 <= i < |s| ==> f(s[i]) == f(t[i])
  {
    if |s| == |t| && forall i :: 0 <= i < |s| ==> f(s[i]) == f(t[i]) {
      assert forall i :: 0 <= i < |s| ==> MapChars(s, f)[i] == MapChars(t, f)[i];
    }
  }

  /** Replacing one character by another is mapping the string through
      the substitution. */
  lemma ReplaceCharMaps(s: string, a: char, b: char)
    ensures Replace(s, [a], [b]) == MapChars(s, c => if c == a then b else c)
  {
    ReplaceCharPointwise(s, a, b);
  }

  /** The characters Python 2's `str.strip()` removes. */
  predicate IsSpace(c: char) {
    c == ' ' || c == '\t' || c == '\n' || c == '\r' || c == '\U{000B}' || c == '\U{000C}'
  }

  function LStrip(s: string): (r: string)
    ensures |r| <= |s| && r == s[|s| - |r|..]
    ensures |r| > 0 ==> !IsSpace(r[0])
    ensures forall i :: 0 <= i < |s| - |r| ==> IsSpace(s[i])
  {
    if |s| > 0 && IsSpace(s[0]) then LStrip(s[1..]) else s
  }

  function RStrip(s: string): (r: string)
    ensures |r| <= |s| && r == s[..|r|]
    ensures |r| > 0 ==> !IsSpace(r[|r| - 1])
    ensures forall i :: |r| <= i < |s| ==> IsSpace(s[i])
  {
    if |s| > 0 && IsSpace(s[|s| - 1]) then RStrip(s[..|s| - 1]) else s
  }

  /** Python's `s.strip()`: `s` without its leading and trailing whitespace. */
  function Strip(s: string): (r: string)
    ensures r == "" <==> forall i :: 0 <= i < |s| ==> IsSpace(s[i])
    ensures |s| == 0 || (!IsSpace(s[0]) && !IsSpace(s[|s| - 1])) ==> r == s
    ensures |r| > 0 ==> !IsSpace(r[0]) && !IsSpace(r[|r| - 1])
  {
    StripEnds(s);
    LStrip(RStrip(s))
  }

  lemma StripEnds(s: string)
    ensures LStrip(RStrip(s)) == "" <==> forall i :: 0 <= i < |s| ==> IsSpace(s[i])
    ensures |LStrip(RStrip(s))| > 0 ==> !IsSpace(LStrip(RStrip(s))[|LStrip(RStrip(s))| - 1])
  {
    var t := RStrip(s);
    var r := LStrip(t);
    if forall i :: 0 <= i < |s| ==> IsSpace(s[i]) {
      assert t == "";
    }
    if r == "" {
      assert t == "";
    }
    assert |r| > 0 ==> r[|r| - 1] == t[|t| - 1];
  }

  predicate AllSpace(s: string) {
    forall i :: 0 <= i < |s| ==> IsSpace(s[i])
  }

  lemma {:induction false} RStripSpaces(x: string, post: string)
    requires AllSpace(post)
    ensures RStrip(x + post) == RStrip(x)
    decreases |post|
  {
    if |post| == 0 {
      assert x + post == x;
    } else {
      var p' := post[..|post| - 1];
      assert (x + post)[..|x + post| - 1] == x + p';
      RStripSpaces(x, p');
    }
  }

  lemma {:induction false} LStripSpaces(pre: string, x: string)
    requires AllSpace(pre)
    ensures LStrip(pre + x) == LStrip(x)
    decreases |pre|
  {
    if |pre| == 0 {
      assert pre + x == x;
    } else {
      assert (pre + x)[1..] == pre[1..] + x;
      LStripSpaces(pre[1..], x);
    }
  }

  /** `strip()` removes exactly the whitespace padding around a text that
      neither starts nor ends with whitespace. */
  lemma StripPadded(pre: string, v: string, post: string)
    requires AllSpace(pre) && AllSpace(post)
    requires |v| == 0 || (!IsSpace(v[0]) && !IsSpace(v[|v| - 1]))
    ensures Strip(pre + v + post) == v
  {
    RStripSpaces(pre + v, post);
    if |v| == 0 {
      assert pre + v == pre;
      assert RStrip(pre) == "";
    } else {
      assert RStrip(pre + v) == pre + v;
      LStripSpaces(pre, v);
    }
  }

  predicate IsDigit(c: char) {
    '0' as int <= c as int <= '9' as int
  }

  function DigitChar(d: nat): (c: char)
    requires d < 10
    ensures IsDigit(c) && c as int - '0' as int == d
  {
    ['0', '1', '2', '3', '4', '5', '6', '7', '8', '9'][d]
  }

  /** Python's `"%i" % n` for a non-negative `n`. */
  function DecimalString(n: nat): (s: string)
    ensures |s| > 0 && forall i :: 0 <= i < |s| ==> IsDigit(s[i])
    ensures s[0] == '0' ==> n == 0
  {
    if n < 10 then [DigitChar(n)] else DecimalString(n / 10) + [DigitChar(n % 10)]
  }

  /** The number a string of decimal digits denotes. */
  function DecimalValue(s: string): nat
    requires forall i :: 0 <= i < |s| ==> IsDigit(s[i])
  {
    if |s| == 0 then 0
    else
      assert IsDigit(s[|s| - 1]);
      10 * DecimalValue(s[..|s| - 1]) + (s[|s| - 1] as int - '0' as int)
  }

  /** Reading back the decimal rendering gives the number. */
  lemma {:induction false} DecimalRoundTrip(n: nat)
    ensures DecimalValue(DecimalString(n)) == n
  {
    if n >= 10 {
      DecimalRoundTrip(n / 10);
      var s := DecimalString(n);
      assert s[..|s| - 1] == DecimalString(n / 10);
    }
  }

  /** Distinct numbers render to distinct strings. */
  lemma DecimalInjective(m: nat, n: nat)
    requires DecimalString(m) == DecimalString(n)
    ensures m == n
  {
    DecimalRoundTrip(m);
    DecimalRoundTrip(n);
  }
}

=== FILE: vars.dfy ===
/** The variable contract of a template: `vars_in` of apt2ostree/ninja.py.

    A template is split on the `$$` escape; in each piece every `$name`
    and every `${name}` references `name`, where a name is the longest
    run of word characters. `ScanVars` reads the same grammar in one pass
    over the text and `PiecesAreScan` proves the two agree. */
module Vars {
  import opened Wrappers
  import opened Strings

  /** `\w` of Python 2's `re` on a byte string: ASCII letters, digits, `_`. */
  predicate IsWordChar(c: char) {
    ('a' <= c <= 'z') || ('A' <= c <= 'Z') || ('0' <= c <= '9') || c == '_'
  }

  predicate AllWordChars(s: string) {
    forall i :: 0 <= i < |s| ==> IsWordChar(s[i])
  }

  /** The longest prefix of `s` made of word characters (greedy `\w*`). */
  function WordRun(s: string): (w: string)
    ensures w <= s && AllWordChars(w)
    ensures |w| < |s| ==> !IsWordChar(s[|w|])
  {
    if |s| > 0 && IsWordChar(s[0]) then
      assert s == [s[0]] + s[1..];
      [s[0]] + WordRun(s[1..])
    else []
  }

  /** A run of word characters followed by a non-word character, or by
      nothing, is exactly the run `WordRun` finds. */
  lemma WordRunIs(w: string, t: string)
    requires AllWordChars(w)
    requires |t| == 0 || !IsWordChar(t[0])
    ensures WordRun(w + t) == w
  {
    var v := WordRun(w + t);
    assert forall i :: 0 <= i < |w| ==> (w + t)[i] == w[i];
    assert |t| > 0 ==> (w + t)[|w|] == t[0];
    assert |v| == |w|;
    assert v == (w + t)[..|v|];
  }

  /** Appending text after a non-word character does not change the run. */
  lemma WordRunExtend(u: string, z: string)
    requires (|u| > 0 && !IsWordChar(u[|u| - 1])) || (|z| > 0 && !IsWordChar(z[0]))
    ensures WordRun(u + z) == WordRun(u)
  {
    var w := WordRun(u);
    var rest := (u + z)[|w|..];
    assert u + z == w + rest;
    if |w| < |u| {
      assert rest[0] == u[|w|];
    } else {
      assert |w| == |u| && u == w;
      assert rest == z;
    }
    WordRunIs(w, rest);
  }

  /** The name of `\${(\w+)}` when `q` is the text right after its `$`. */
  function BracedName(q: string): (r: Option<string>)
    ensures r.Some? ==> |r.value| > 0 && AllWordChars(r.value)
    ensures r.Some? ==> |r.value| + 2 <= |q| && q[..|r.value| + 2] == "{" + r.value + "}"
  {
    if |q| > 0 && q[0] == '{' then
      var w := WordRun(q[1..]);
      if |w| > 0 && |w| + 1 < |q| && q[|w| + 1] == '}' then
        assert q[..|w| + 2] == [q[0]] + q[1..][..|w|] + [q[|w| + 1]];
        Some(w)
      else None
    else None
  }

  function Elems(xs: seq<string>): set<string> {
    set x | x in xs
  }

  /** `re.findall(r"\$(\w+)", piece)`: leftmost matches, each scan resuming
      after the previous match. */
  function FindPlain(piece: string): seq<string>
    decreases |piece|
  {
    if |piece| == 0 then []
    else if piece[0] == '$' && |WordRun(piece[1..])| > 0 then
      var w := WordRun(piece[1..]);
      [w] + FindPlain(piece[1 + |w|..])
    else FindPlain(piece[1..])
  }

  /** `re.findall(r"\${(\w+)}", piece)`. */
  function FindBraced(piece: string): seq<string>
    decreases |piece|
  {
    if |piece| == 0 then []
    else if piece[0] == '$' && BracedName(piece[1..]).Some? then
      var w := BracedName(piece[1..]).value;
      [w] + FindBraced(piece[|w| + 3..])
    else FindBraced(piece[1..])
  }

  /** The names found in each piece between `$$` escapes. */
  function PieceVars(pieces: seq<string>): set<string> {
    if |pieces| == 0 then {}
    else Elems(FindPlain(pieces[0])) + Elems(FindBraced(pieces[0])) + PieceVars(pieces[1..])
  }

  /** `vars_in(text)` for one template string (ninja.py:138-141): the
      names the one-pass scan finds. */
  function VarsInText(text: string): (r: set<string>)
    ensures r == ScanVars(text)
  {
    PiecesAreScan(text);
    PieceVars(Split(text, "$$"))
  }

  /** `vars_in(texts)` for a list: the union over its items. */
  function VarsInList(texts: seq<string>): (r: set<string>)
    ensures forall t :: t in texts ==> VarsInText(t) <= r
    ensures forall n :: n in r ==> exists t :: t in texts && n in VarsInText(t)
  {
    if |texts| == 0 then {}
    else
      var r := VarsInText(texts[0]) + VarsInList(texts[1..]);
      assert forall t :: t in texts ==> t == texts[0] || t in texts[1..];
      r
  }

  /** The three shapes `vars_in` accepts: `None`, one string, or a list. */
  datatype Items = Absent | Single(text: string) | List(texts: seq<string>)

  /** `vars_in(items)` (ninja.py:132-142). */
  function VarsIn(items: Items): (r: set<string>)
    ensures items.Absent? ==> r == {}
    ensures items.Single? ==> r == VarsInText(items.text)
    ensures items.List? ==> forall t :: t in items.texts ==> VarsInText(t) <= r
    ensures items.List? ==> forall n :: n in r ==> exists t :: t in items.texts && n in VarsInText(t)
  {
    match items
    case Absent => {}
    case Single(t) => VarsInList([t])
    case List(ts) => VarsInList(ts)
  }

  /** A one-item list references what its item does. */
  lemma VarsInOne(t: string)
    ensures VarsIn(List([t])) == VarsInText(t)
  {
    var r := VarsIn(List([t]));
    assert t in [t];
    forall n | n in r ensures n in VarsInText(t) {
      var u :| u in [t] && n in VarsInText(u);
    }
  }

  // ---------------------------------------------------------------------
  // A one-pass reading of the same grammar.

  /** The names a `$` followed by `q` references, as `name` or `{name}`. */
  function NamesAfter(q: string): set<string> {
    (if |WordRun(q)| > 0 then {WordRun(q)} else {})
      + (if BracedName(q).Some? then {BracedName(q).value} else {})
  }

  /** Reads `s` left to right: `$$` is a literal dollar, any other `$`
      references the name after it. */
  function ScanVars(s: string): set<string>
    decreases |s|
  {
    if |s| == 0 then {}
    else if s[0] != '$' then ScanVars(s[1..])
    else if |s| > 1 && s[1] == '$' then ScanVars(s[2..])
    else NamesAfter(s[1..]) + ScanVars(s[1..])
  }

  /** Names collected at every `$` of a piece, ignoring `findall`'s resumption. */
  function PlainAll(p: string): set<string>
    decreases |p|
  {
    if |p| == 0 then {}
    else (if p[0] == '$' && |WordRun(p[1..])| > 0 then {WordRun(p[1..])} else {}) + PlainAll(p[1..])
  }

  function BracedAll(p: string): set<string>
    decreases |p|
  {
    if |p| == 0 then {}
    else (if p[0] == '$' && BracedName(p[1..]).Some? then {BracedName(p[1..]).value} else {}) + BracedAll(p[1..])
  }

  lemma {:induction false} PlainAllSkip(x: string, r: string)
    requires '$' !in x
    ensures PlainAll(x + r) == PlainAll(r)
    decreases |x|
  {
    if |x| > 0 {
      assert (x + r)[0] == x[0] != '$';
      assert (x + r)[1..] == x[1..] + r;
      assert PlainAll(x + r) == PlainAll(x[1..] + r);
      PlainAllSkip(x[1..], r);
    } else {
      assert x + r == r;
    }
  }

  lemma {:induction false} BracedAllSkip(x: string, r: string)
    requires '$' !in x
    ensures BracedAll(x + r) == BracedAll(r)
    decreases |x|
  {
    if |x| > 0 {
      assert (x + r)[0] == x[0] != '$';
      assert (x + r)[1..] == x[1..] + r;
      assert BracedAll(x + r) == BracedAll(x[1..] + r);
      BracedAllSkip(x[1..], r);
    } else {
      assert x + r == r;
    }
  }

  /** Resuming after a match loses nothing: the skipped text holds no `$`. */
  lemma {:induction false} FindPlainAll(p: string)
    ensures Elems(FindPlain(p)) == PlainAll(p)
    decreases |p|
  {
    if |p| > 0 {
      if p[0] == '$' && |WordRun(p[1..])| > 0 {
        var w := WordRun(p[1..]);
        FindPlainAll(p[1 + |w|..]);
        assert p[1..] == w + p[1 + |w|..];
        PlainAllSkip(w, p[1 + |w|..]);
      } else {
        FindPlainAll(p[1..]);
      }
    }
  }

  lemma {:induction false} FindBracedAll(p: string)
    ensures Elems(FindBraced(p)) == BracedAll(p)
    decreases |p|
  {
    if |p| > 0 {
      if p[0] == '$' && BracedName(p[1..]).Some? {
        var w := BracedName(p[1..]).value;
        FindBracedAll(p[|w| + 3..]);
        var skipped := p[1..|w| + 3];
        assert skipped == "{" + w + "}";
        assert p[1..] == skipped + p[|w| + 3..];
        BracedAllSkip(skipped, p[|w| + 3..]);
      } else {
        FindBracedAll(p[1..]);
      }
    }
  }

  lemma NoEscapeInTail(p: string)
    requires |p| > 0 && !Contains(p, "$$")
    ensures !Contains(p[1..], "$$")
  {
    if Contains(p[1..], "$$") {
      var j := Find(p[1..], "$$").value;
      assert p[1..][j..j + 2] == p[j + 1..j + 3];
      OccursContains(p, "$$", j + 1);
    }
  }

  /** Within a piece free of `$$`, the scan and the two `findall`s agree. */
  lemma {:induction false} ScanPiece(p: string)
    requires !Contains(p, "$$")
    ensures ScanVars(p) == PlainAll(p) + BracedAll(p)
    decreases |p|
  {
    if |p| > 0 {
      NoEscapeInTail(p);
      ScanPiece(p[1..]);
    }
  }

  /** Characters that cannot continue a reference begun before them. */
  predicate IsBoundary(c: char) {
    c != '$' && c != '{' && !IsWordChar(c)
  }

  /** What follows a `$` is read the same when more text comes after a
      boundary, or when the text after it starts with a `$`. */
  lemma NamesAfterExtend(u: string, z: string)
    requires (|u| > 0 && IsBoundary(u[|u| - 1])) || (|z| > 0 && z[0] == '$')
    ensures NamesAfter(u + z) == NamesAfter(u)
  {
    WordRunExtend(u, z);
    if |u| > 0 && u[0] == '{' {
      BracedAfterExtend(u, z);
    } else if |u| == 0 {
      assert u + z == z;
    }
  }

  /** The braced case of `NamesAfterExtend`: the name inside `{` and `}`
      is read the same. */
  lemma BracedAfterExtend(u: string, z: string)
    requires (|u| > 0 && IsBoundary(u[|u| - 1])) || (|z| > 0 && z[0] == '$')
    requires |u| > 0 && u[0] == '{'
    ensures BracedName(u + z) == BracedName(u)
  {
    var v := u[1..];
    assert (u + z)[1..] == v + z;
    if |v| > 0 && IsBoundary(v[|v| - 1]) {
      WordRunExtend(v, z);
    } else if |z| > 0 && z[0] == '$' {
      WordRunExtend(v, z);
    }
    var w := WordRun(v);
    if |w| + 1 == |u| {
      assert (u + z)[|w| + 1] == z[0];
    }
  }

  lemma ScanNoDollar(s: string)
    requires '$' !in s
    ensures ScanVars(s) == {}
    decreases |s|
  {
    if |s| > 0 {
      ScanNoDollar(s[1..]);
    }
  }

  /** A piece that neither contains `$$` nor ends in `$`, then an escape. */
  lemma {:induction false} ScanEscape(x: string, y: string)
    requires !Contains(x, "$$")
    requires |x| == 0 || x[|x| - 1] != '$'
    ensures ScanVars(x + "$$" + y) == ScanVars(x) + ScanVars(y)
    decreases |x|
  {
    if |x| == 0 {
      assert x + "$$" + y == "$$" + y;
      assert ("$$" + y)[2..] == y;
    } else {
      var s := x + "$$" + y;
      var x' := x[1..];
      assert s[1..] == x' + "$$" + y;
      NoEscapeInTail(x);
      if x[0] == '$' {
        assert |x'| > 0 && x'[0] != '$';
        assert ("$$" + y)[0] == '$';
        assert x' + "$$" + y == x' + ("$$" + y);
        NamesAfterExtend(x', "$$" + y);
      }
      ScanEscape(x', y);
    }
  }

  /** Matching in each piece between `$$` escapes and the one-pass scan
      give the same names. */
  lemma {:induction false} PiecesAreScan(text: string)
    ensures PieceVars(Split(text, "$$")) == ScanVars(text)
    decreases |text|
  {
    match Find(text, "$$")
    case None =>
      assert Split(text, "$$") == [text];
      assert !Contains(text, "$$");
      assert PieceVars([text]) == Elems(FindPlain(text)) + Elems(FindBraced(text)) + PieceVars([]);
      FindPlainAll(text);
      FindBracedAll(text);
      ScanPiece(text);
    case Some(i) =>
      var x, y := text[..i], text[i + 2..];
      SplitAt(text, "$$", i);
      var pieces := Split(text, "$$");
      assert pieces[0] == x && pieces[1..] == Split(y, "$$");
      PrefixFree(text, "$$", i);
      if i > 0 && x[i - 1] == '$' {
        assert text[i - 1..i + 1] == "$$";
        assert OccursAt(text, "$$", i - 1);
      }
      FindPlainAll(x);
      FindBracedAll(x);
      ScanPiece(x);
      PiecesAreScan(y);
      assert text == x + "$$" + y;
      ScanEscape(x, y);
  }

  // ---------------------------------------------------------------------
  // The grammar, stated on `vars_in` itself.

  /** Text without a `$` references nothing. */
  lemma VarsInNoDollar(s: string)
    requires '$' !in s
    ensures VarsInText(s) == {}
  {
    ScanNoDollar(s);
  }

  /** `$$` is a literal dollar: a name written right after it is not a
      reference, and the escape changes nothing else. */
  lemma VarsInEscape(t: string)
    ensures VarsInText("$$" + t) == VarsInText(t)
  {
    assert ("$$" + t)[2..] == t;
  }

  /** `$name` references `name`, the whole run of word characters. */
  lemma VarsInReference(n: string, t: string)
    requires |n| > 0 && AllWordChars(n)
    requires |t| == 0 || !IsWordChar(t[0])
    requires '$' !in t
    ensures VarsInText("$" + n + t) == {n}
  {
    var s := "$" + n + t;
    assert s[1..] == n + t;
    WordRunIs(n, t);
    assert '$' !in n + t by {
      assert forall i :: 0 <= i < |n| ==> (n + t)[i] == n[i];
    }
    ScanNoDollar(n + t);
  }

  /** `${name}` references `name`. */
  lemma VarsInBracedReference(n: string, t: string)
    requires |n| > 0 && AllWordChars(n)
    requires '$' !in t
    ensures VarsInText("${" + n + "}" + t) == {n}
  {
    var s := "${" + n + "}" + t;
    var q := "{" + n + "}" + t;
    assert s[0] == '$' && s[1] != '$' && s[1..] == q;
    BracedNamesAfter(n, t);
    BracedNoDollar(n, t);
    ScanNoDollar(q);
  }

  lemma BracedNamesAfter(n: string, t: string)
    requires |n| > 0 && AllWordChars(n)
    ensures NamesAfter("{" + n + "}" + t) == {n}
  {
    var q := "{" + n + "}" + t;
    assert q[1..] == n + ("}" + t);
    WordRunIs(n, "}" + t);
    assert q[|n| + 1] == '}';
    assert !IsWordChar(q[0]);
  }

  lemma BracedNoDollar(n: string, t: string)
    requires AllWordChars(n) && '$' !in t
    ensures '$' !in "{" + n + "}" + t
  {
    var q := "{" + n + "}" + t;
    forall i | 0 <= i < |q| ensures q[i] != '$' {
      if 1 <= i < |n| + 1 {
        assert q[i] == n[i - 1];
      } else if i >= |n| + 2 {
        assert q[i] == t[i - |n| - 2];
      }
    }
  }

  /** The contract of a concatenation is the union of the contracts when
      the first part ends in a character no reference can run across. */
  lemma VarsInAppend(a: string, b: string)
    requires |a| > 0 && IsBoundary(a[|a| - 1])
    ensures VarsInText(a + b) == VarsInText(a) + VarsInText(b)
  {
    ScanAppend(a, b);
  }

  lemma {:induction false} ScanAppend(a: string, b: string)
    requires |a| > 0 && IsBoundary(a[|a| - 1])
    ensures ScanVars(a + b) == ScanVars(a) + ScanVars(b)
    decreases |a|
  {
    var s := a + b;
    assert s[1..] == a[1..] + b;
    if a[0] != '$' {
      if |a| > 1 {
        ScanAppend(a[1..], b);
      } else {
        assert a[1..] + b == b;
      }
    } else if a[1] == '$' {
      assert s[2..] == a[2..] + b;
      ScanAppend(a[2..], b);
    } else {
      NamesAfterExtend(a[1..], b);
      ScanAppend(a[1..], b);
    }
  }

  // ---------------------------------------------------------------------
  // Templates written out reference by reference.

  /** One plain reference `$name` and the literal text after it. */
  datatype Cut = Cut(name: string, tail: string)

  /** The text of a template cut before each `$`: a literal head, then
      each reference followed by its literal tail. */
  function Template(head: string, cuts: seq<Cut>): string {
    head + Refs(cuts)
  }

  function Refs(cuts: seq<Cut>): string {
    if |cuts| == 0 then "" else "$" + cuts[0].name + cuts[0].tail + Refs(cuts[1..])
  }

  function Names(cuts: seq<Cut>): set<string> {
    set i | 0 <= i < |cuts| :: cuts[i].name
  }

  /** A reference names a whole word run and its literal tail holds no
      `$`; a tail that another reference follows ends in a boundary. */
  predicate GoodCut(c: Cut, last: bool) {
    && |c.name| > 0 && AllWordChars(c.name)
    && '$' !in c.tail
    && (|c.tail| == 0 || !IsWordChar(c.tail[0]))
    && (!last ==> |c.tail| > 0 && IsBoundary(c.tail[|c.tail| - 1]))
  }

  /** No literal part holds a `$`, and every literal part that a reference
      follows ends in a boundary. */
  predicate WellCut(head: string, cuts: seq<Cut>) {
    '$' !in head
    && (|head| > 0 && |cuts| > 0 ==> IsBoundary(head[|head| - 1]))
    && forall i :: 0 <= i < |cuts| ==> GoodCut(cuts[i], i + 1 == |cuts|)
  }

  lemma NamesCons(cuts: seq<Cut>)
    requires |cuts| > 0
    ensures Names(cuts) == {cuts[0].name} + Names(cuts[1..])
  {
    forall n | n in Names(cuts) ensures n in {cuts[0].name} + Names(cuts[1..]) {
      var i :| 0 <= i < |cuts| && cuts[i].name == n;
      if i > 0 { assert cuts[1..][i - 1] == cuts[i]; }
    }
    forall n | n in Names(cuts[1..]) ensures n in Names(cuts) {
      var i :| 0 <= i < |cuts[1..]| && cuts[1..][i].name == n;
      assert cuts[i + 1].name == n;
    }
  }

  lemma WellCutTail(cuts: seq<Cut>)
    requires |cuts| > 0 && WellCut("", cuts)
    ensures WellCut("", cuts[1..])
  {
    forall i | 0 <= i < |cuts[1..]| ensures GoodCut(cuts[1..][i], i + 1 == |cuts[1..]|) {
      assert cuts[1..][i] == cuts[i + 1];
      assert GoodCut(cuts[i + 1], i + 2 == |cuts|);
    }
  }

  lemma {:induction false} RefsVars(cuts: seq<Cut>)
    requires WellCut("", cuts)
    ensures VarsInText(Refs(cuts)) == Names(cuts)
    decreases |cuts|
  {
    if |cuts| == 0 {
      VarsInNoDollar("");
    } else {
      var c := cuts[0];
      assert GoodCut(c, 1 == |cuts|);
      var chunk := "$" + c.name + c.tail;
      VarsInReference(c.name, c.tail);
      WellCutTail(cuts);
      RefsVars(cuts[1..]);
      NamesCons(cuts);
      if |cuts| == 1 {
        assert Refs(cuts) == chunk + "";
        assert chunk + "" == chunk;
      } else {
        assert chunk[|chunk| - 1] == c.tail[|c.tail| - 1];
        VarsInAppend(chunk, Refs(cuts[1..]));
        assert Refs(cuts) == chunk + Refs(cuts[1..]);
      }
    }
  }

  /** A template written out reference by reference references exactly the
      names it was cut at. */
  lemma TemplateVars(head: string, cuts: seq<Cut>)
    requires WellCut(head, cuts)
    ensures VarsInText(Template(head, cuts)) == Names(cuts)
  {
    assert WellCut("", cuts);
    RefsVars(cuts);
    if |head| == 0 {
      assert Template(head, cuts) == Refs(cuts);
    } else if |cuts| == 0 {
      assert Template(head, cuts) == head;
      VarsInNoDollar(head);
    } else {
      VarsInAppend(head, Refs(cuts));
      VarsInNoDollar(head);
    }
  }

  /** The common shape `$a<tail>$b`: it references `a` and `b`. */
  lemma TwoCutVars(a: string, tail: string, b: string)
    requires GoodCut(Cut(a, tail), false) && GoodCut(Cut(b, ""), true)
    ensures VarsInText(Template("", [Cut(a, tail), Cut(b, "")])) == {a, b}
  {
    var cuts := [Cut(a, tail), Cut(b, "")];
    TemplateVars("", cuts);
    assert Names(cuts) == {a, b} by {
      assert cuts[0].name == a && cuts[1].name == b;
    }
  }
}

=== FILE: wrappers.dfy ===
/** Failure-carrying values shared by every module of the model.

    The Python program reports failures by raising exceptions; here each
    operation that can raise returns a `Result`, and `Error` names the
    exception together with the data its message carries. */
module Wrappers {

  datatype Option<+T> = None | Some(value: T)

  datatype Result<+T> = Ok(value: T) | Err(error: Error)

  datatype Error =
    /** RuntimeError: a global variable set again with a different value. */
    | ConflictingGlobal(key: string, value: string)
    /** AssertionError: a rule name registered again with a different body. */
    | RuleMismatch(name: string)
    /** RuntimeError: an empty target file name. */
    | InvalidTarget(target: string)
    /** TypeError: a rule built without binding every variable it needs. */
    | MissingArguments(rule: string, names: set<string>)
    /** TypeError: a rule built with bindings it does not reference. */
    | UnexpectedArguments(rule: string, names: set<string>)
    /** IOError raised by opening a file, with its errno. */
    | IOFailure(path: string, errno: int)
    /** IndexError: a list subscript past the end. */
    | IndexOutOfRange
    /** KeyError: a missing field of a package record. */
    | KeyMissing(key: string)
    /** KeyError: a continuation line with no field to continue. */
    | NoFieldToContinue(line: string)
    /** ValueError: a field line without the ": " separator. */
    | MalformedField(line: string)
    /** AssertionError: a stage-one branch that does not mention "unpacked". */
    | NotUnpacked(ref: string)
    /** AssertionError: no binfmt_misc support for this architecture. */
    | UnsupportedArchitecture(arch: string)
    /** Exception: no keyring directory for this release or its base name. */
    | NoKeyring(distro: string, release: string)

  /** Applies `f` to each element in turn, as a Python loop does, and stops
      at the first element whose call raises. */
  function MapAll<A, B>(xs: seq<A>, f: A -> Result<B>): (r: Result<seq<B>>)
    ensures r.Ok? <==> forall i :: 0 <= i < |xs| ==> f(xs[i]).Ok?
    ensures r.Ok? ==> |r.value| == |xs| && forall i :: 0 <= i < |xs| ==> r.value[i] == f(xs[i]).value
    ensures r.Err? ==> exists i :: (0 <= i < |xs| && f(xs[i]) == Err(r.error)
                                    && forall j :: 0 <= j < i ==> f(xs[j]).Ok?)
  {
    if |xs| == 0 then Ok([])
    else
      match f(xs[0])
      case Err(e) => Err(e)
      case Ok(y) =>
        match MapAll(xs[1..], f)
        case Err(e) =>
          var i :| 0 <= i < |xs[1..]| && f(xs[1..][i]) == Err(e)
                   && forall j :: 0 <= j < i ==> f(xs[1..][j]).Ok?;
          assert f(xs[i + 1]) == Err(e);
          assert forall j :: 0 < j < i + 1 ==> xs[j] == xs[1..][j - 1];
          Err(e)
        case Ok(ys) =>
          assert forall i :: 0 < i < |xs| ==> xs[i] == xs[1..][i - 1];
          Ok([y] + ys)
  }
}
